=== FILE: README.md ===
# Opentrons quenching-assay protocols, modelled in Dafny

This project models the self-contained logic of four Opentrons OT-2 protocol
scripts:

- the tip-disposal helpers `defaultTipDisc` and `tipDisc`;
- the `LDef` deck table with its slot-indexed `deckRefs` resolver;
- the well-index arithmetic of the diluent, lysate-to-384 and
  substrate-to-384 loops, with the per-iteration volume budgets and the
  rack well each pick-up names;
- the two 10-timepoint quenching assays (`10TP-Quench-C3993` and
  `10TP-QuenchLong-C3993`), each written as a function that builds the
  protocol's command trace.

The vendor API calls stay uninterpreted commands (`PickUp`, `PickUpAt`, `Drop`,
`Aspirate`, `Dispense`, `BlowOut`, `Transfer`, `Delay`, `Pause`). A small
state machine gives them meaning: each mount either holds a tip or not, and
holds some liquid. The pick-up of a second tip, a drop with no tip, an
aspirate past the pipette's capacity and a dispense of more than is held are
refused. Three per-place ledgers are read off a trace: what is dispensed
into a place, what is drawn from it, and what blow-outs return to it (the
liquid still in the tip at that moment). On top of that the model proves,
for each assay:

- the whole run completes with no refused command and ends with both
  pipettes bare;
- the volumes dispensed into and drawn from every reaction well,
  quench-plate well and tube, and the 10 µL blown back into the
  quench-buffer tube after each pre-filled column;
- the E+/E- tip-swap rule of the lysate loop;
- the one-to-one pairing of the timepoint delays with the pre-filled
  quench-plate columns.

Modules, one per file:

| module | file | contents |
|---|---|---|
| `Wrappers` | wrappers.dfy | `Result` |
| `Labels` | labels.dfy | Python's `needle in hay` on strings, and the E+/E- test of a well description |
| `TipDisposal` | tip_disposal.dfy | `defaultTipDisc`, `tipDisc` |
| `Deck` | deck.dfy | `LDef`, `deckRefs`, the Quenching10TP-C3694 deck table |
| `Pipetting` | pipetting.dfy | commands, tip and volume state machine, per-well flows, loops |
| `PlateLayout` | plate_layout.dfy | index formulas and volume budgets of template.py and Quenching10TP-C3694.py |
| `Assay` | assay.dfy | the phases both C3993 assays share: quench-plate fill, buffer, substrate, timepoints, cleanup |
| `Quench` | quench.dfy | 10TP-Quench-C3993.py: its lists, the E+/E- lysate loop, the whole run |
| `QuenchLong` | quench_long.dfy | 10TP-QuenchLong-C3993.py: its lists and the whole run, as written and corrected |

Conventions:

- Wells are 0-based (column, row). Column "1" of the vendor API is index 0.
- `wells()` runs down each column, so index k of an 8-row plate is column
  k / 8, row k % 8.
- A multi-channel pipette aimed at row r of a column reaches rows r..7 of
  that column.
- Delays are integer centiseconds (16.85 s is 1685).
- A `transfer` into a whole column draws its volume from the source once
  per destination well, so eight times.
- Volumes of a multi-channel pipette are per channel: a blow-out returns,
  at every well its channels reach, what one channel still holds.
- `pick_up_tip()` takes the rack's next tip (`PickUp`); a call that names
  a rack well, as `m20rack['A3']`, is `PickUpAt` with that well.

## Model

| member | source | states |
|---|---|---|
| TipDisposal.DefaultTipDisc | protocol/Quenching10TP-C3694.py:125-139 | the tip goes back to `destRack` exactly when the default is 'rack'; there is no warning exactly when the default is 'rack' or 'trash'; any other default gives one warning naming it and a drop to trash |
| TipDisposal.TipDisc | protocol/Quenching10TP-C3694.py:143-158 | the tip returns to `destRack` exactly when the tag is 'rack', or the tag is not 'trash' and the default is 'rack'; there are at most two warnings; for any tag other than 'rack' and 'trash' the warnings are exactly one naming an unknown tag, then one naming an invalid default, each present only when that value is invalid |
| TipDisposal.UnknownTagFallsBack | protocol/template.py:78-82 | a tag outside rack/trash/default disposes of the tip exactly as 'default' does, with one extra warning in front |
| TipDisposal.ExplicitTagIgnoresDefault | protocol/template.py:69-73 | 'rack' and 'trash' give the same disposal whatever the configured default |
| TipDisposal.DisposalReleasesTip | protocol/template.py:48-82 | for any tags the disposal is one release: it leaves a tip-holding pipette bare with the other mount untouched, and is refused on a bare pipette |
| Deck.DeckRefs | protocol/Quenching10TP-C3694.py:69-76 | the table has one more entry than `deckLabware`, with the sentinel at index 0; entry k is loaded exactly when row k-1 is used, and then with that row's name and slot |
| Deck.SlotIndexedResolves | protocol/Quenching10TP-C3694.py:53-65 | if row i describes slot i+1, all slots are distinct and on the deck, and `deckRefs[s]` is the labware of slot s |
| Deck.LoadedSlotsDistinct | protocol/Quenching10TP-C3694.py:71-76 | no two loaded `deckRefs` entries share a slot when the table's slots are distinct |
| Deck.C3694DeckSlotIndexed | protocol/Quenching10TP-C3694.py:53-65 | the configured table has `OT2_DECK_SLOTS` = 11 rows in slot order |
| Deck.C3694NamedLookups | protocol/Quenching10TP-C3694.py:82-98 | the lookups of slots 10, 11, 5, 4 and 1 each hit the labware loaded into that slot, never the sentinel |
| Pipetting.Step | protocol/10TP-Quench-C3993.py:132-135 | a pick-up, named or not, succeeds exactly when no tip is attached and attaches a fresh one; a drop or return succeeds exactly when one is, and leaves the pipette bare; aspirates stay within capacity; dispenses stay within what is held; the other mount is untouched |
| Pipetting.DrawAndDispenseReturns | protocol/10TP-Quench-C3993.py:115-120 | an aspirate of `v`, dispenses within it, then a blow-out: the blow-out returns `v` less what was dispensed to the place it is aimed at, and nothing elsewhere |
| PlateLayout.DiluentIndex | protocol/template.py:96 | dispense i of diluent iteration j lands in row A of column i + 3j |
| PlateLayout.DiluentTargets | protocol/Quenching10TP-C3694.py:168-171 | the diluent targets are pairwise distinct; each of the first `plateCol/3*3` columns is hit once in row A; every target lies in one of those columns, below 96 for up to 12 columns |
| PlateLayout.LysateIndex | protocol/template.py:108-117 | the 384-well index of dispense j in lysate iteration i lies in row i/3 % 2, column 6j + 3(i/3/2) + i % 3 |
| PlateLayout.LysateRoundTrip | protocol/template.py:104-117 | for 12 iterations of four dispenses, the loop counters can be read back from the 384-well index, which is below 384 |
| PlateLayout.LysateTargetsDistinct | protocol/template.py:104-117 | for `plateCol` ≤ 12, two lysate dispenses share a target exactly when they are the same (i, j) |
| PlateLayout.LysateLayoutEndsAtTwelve | protocol/template.py:19 | a thirteenth column would land on a well the first column's second dispense already uses |
| PlateLayout.SubstrateIndex | protocol/template.py:126-134 | dispense j of iteration i of substrate block k hits the target of lysate iteration 3i + j, dispense k |
| PlateLayout.SubstrateMatchesLysate | protocol/template.py:124-178 | for `plateCol` a multiple of 3, substrate block k fills exactly the wells lysate dispense k filled |
| PlateLayout.SubstrateBlocksDisjoint | protocol/template.py:130-176 | the four substrate blocks never share a well |
| PlateLayout.DiluentBlockWithinBudget | protocol/template.py:94-97 | a 300 µL aspirate fits the p300 and covers the three 90 µL dispenses, and the blow-out leaves the tip empty |
| PlateLayout.LysateBlockWithinBudget | protocol/template.py:110-113 | a 20 µL aspirate fits the p20 and covers the 10 µL dispense |
| PlateLayout.SubstrateBlockWithinBudget | protocol/template.py:127-135 | a 170 µL aspirate fits the p300 and covers the three 50 µL dispenses |
| PlateLayout.DiluentBlockReturns | protocol/template.py:94-97 | each channel blows the 30 µL left of its 300 µL back at trough well 12, and nothing elsewhere |
| PlateLayout.LysateBlockReturns | protocol/template.py:110-113 | each channel blows the 10 µL left of its 20 µL back into the 96-well column it drew from, and nothing elsewhere |
| PlateLayout.SubstrateBlockReturns | protocol/template.py:127-135 | each channel blows the 20 µL left of its 170 µL back at the trough well it drew from, and nothing elsewhere |
| PlateLayout.DiluentPhaseRuns | protocol/template.py:92-97 | the diluent phase runs from bare pipettes and leaves the left one holding its tip |
| PlateLayout.LysateIterationRuns | protocol/template.py:104-118 | a lysate iteration runs from bare pipettes and leaves the right one holding its tip |
| PlateLayout.SubstratePhaseRuns | protocol/template.py:124-135 | a substrate block runs from bare pipettes and leaves the left one holding its tip |
| PlateLayout.DiluentTips | protocol/template.py:92-97 | the diluent phase takes exactly one tip, from A1 of the 300 µL rack |
| PlateLayout.LysateIterationTips | protocol/template.py:104-117 | lysate iteration i takes exactly one tip, from A{i+1} of the 20 µL rack |
| PlateLayout.SubstratePhaseTips | protocol/template.py:124-135 | substrate block k takes exactly one tip, from A{k+2} of the 300 µL rack |
| PlateLayout.LoopTipEach | protocol/template.py:104-105 | a loop whose iteration k takes the one tip `tip(k)` takes those tips in iteration order, one per iteration |
| PlateLayout.LysateLoopTips | protocol/template.py:104-105 | the lysate loop takes `plateCol` tips, iteration i the one in column i + 1 of the 20 µL rack |
| PlateLayout.SubstratePhasesTips | protocol/template.py:124-166 | the four substrate blocks take four tips, block k the one in column k + 2 of the 300 µL rack |
| PlateLayout.TemplateTipsSplit | protocol/template.py:92-166 | the run's pick-ups are the diluent's A1, then the lysate loop's, then the substrate blocks'; the pause takes none |
| PlateLayout.TemplateTips | protocol/template.py:92-166 | the run picks up `plateCol` + 5 tips: A1 of the 300 µL rack, A1..A{plateCol} of the 20 µL rack, then A2..A5 of the 300 µL rack |
| PlateLayout.TemplateTipsFresh | protocol/template.py:92-166 | no tip of the run is picked up twice, and with at most 12 columns every one lies in row A of a 12-column rack |
| Labels.ContainsIffOccurs | protocol/10TP-Quench-C3993.py:130-131 | the substring test `needle in hay` holds exactly when the needle occurs at some position of the text |
| Assay.DeckTableValid | protocol/10TP-Quench-C3993.py:28-54 | the five labware slots (9, 10, 4, 1, 6) are distinct and within 1..11 |
| Assay.FillColumnRuns | protocol/10TP-Quench-C3993.py:113-120 | 8 × 25 µL out of a 210 µL draw runs on a fresh tip, and the blow-out empties the tip again |
| Assay.QuenchFillRuns | protocol/10TP-Quench-C3993.py:112-121 | the pre-fill runs when the single-channel pipette is bare and ends bare; it is refused at once if that pipette already holds a tip |
| Assay.FillRowsDeliveries | protocol/10TP-Quench-C3993.py:116-118 | the row loop puts 25 µL into each of the column's eight wells and nothing elsewhere |
| Assay.FillColumnDeliveries | protocol/10TP-Quench-C3993.py:115-120 | one column's fill dispenses 25 µL into each of its eight wells and nothing elsewhere |
| Assay.FillColumnReturns | protocol/10TP-Quench-C3993.py:111-120 | after 8 × 25 µL out of 210 µL, the tip holds exactly 10 µL, which the blow-out returns to the quench-buffer tube and nowhere else |
| Assay.FillColumnWithdrawals | protocol/10TP-Quench-C3993.py:115-120 | one column's fill draws 210 µL from the quench buffer and nothing from anywhere else |
| Assay.FillLoopDeliveries | protocol/10TP-Quench-C3993.py:113-120 | the column loop dispenses 25 µL into each well of the first `cols` columns and nothing elsewhere |
| Assay.QuenchFillDeliveries | protocol/10TP-Quench-C3993.py:111-121 | every well of quench-plate columns 0..cols-1, rows A-H, gets exactly one 25 µL dispense, and no other place gets any |
| Assay.QuenchFillReturns | protocol/10TP-Quench-C3993.py:111-121 | from a bare single-channel pipette, the pre-fill blows 10 µL back into the quench-buffer tube once per column, and nothing into any other place |
| Assay.QuenchFillWithdrawals | protocol/10TP-Quench-C3993.py:111-121 | the pre-fill draws 210 µL from the quench buffer once per column and nothing from anywhere else |
| Assay.QuenchFillSkipsReactionPlate | protocol/10TP-Quench-C3993.py:111-121 | the pre-fill neither fills nor draws from the reaction plate |
| Assay.BufferAddRuns | protocol/10TP-Quench-C3993.py:149-150 | the `new_tip='once'` buffer transfer runs exactly when the single-channel pipette is bare |
| Assay.SubstrateAddRuns | protocol/10TP-Quench-C3993.py:157-161 | the substrate addition runs from a bare multi-channel pipette and leaves it bare |
| Assay.BufferAddFlows | protocol/10TP-Quench-C3993.py:147-150 | the buffer reaches exactly the eight wells of the named column, 240 µL each; the reaction-buffer tube gives 240 µL eight times, once per well, and nothing else gives any |
| Assay.SubstrateAddFlows | protocol/10TP-Quench-C3993.py:157-159 | the eight channels draw 30 µL from each well of the substrate column and put 30 µL into the matching reaction well |
| Assay.Timepoints | protocol/10TP-Quench-C3993.py:163-169 | the loop builds exactly when its bound n is at most `len(delayTimes)`, else it fails with the out-of-range index; built, it has 2n commands, entry 2k waiting `delayTimes[k]` and entry 2k+1 moving 25 µL from the reaction column into quench-plate column k on a new tip |
| Assay.SamplePairs | protocol/10TP-Quench-C3993.py:164-169 | timepoints lo..n-1 take 2(n - lo) commands: timepoint lo + k waits `delayTimes[lo + k]` immediately before its own transfer into quench-plate column lo + k |
| Assay.TimepointPairs | protocol/10TP-Quench-C3993.py:164-169 | when the loop builds, timepoint k waits `delayTimes[k]` and then samples into quench-plate column k, for every k below the bound |
| Assay.TimepointSchedule | protocol/10TP-Quench-C3993.py:163-166 | with at least n delays the loop builds and waits the first n delays, in list order |
| Assay.TimepointWaits | protocol/10TP-Quench-C3993.py:164-166 | the loop waits exactly the listed delays, in list order |
| Assay.SampleRuns | protocol/10TP-Quench-C3993.py:166-169 | one timepoint runs exactly when the multi-channel pipette is bare, and leaves it bare |
| Assay.TimepointsRun | protocol/10TP-Quench-C3993.py:164-169 | all the timepoints run exactly when the multi-channel pipette starts bare (or there are none) |
| Assay.SampleFlows | protocol/10TP-Quench-C3993.py:168-169 | timepoint tp draws 25 µL from each reaction well the channels reach and puts 25 µL into each well of quench-plate column tp |
| Assay.TimepointDeliveries | protocol/10TP-Quench-C3993.py:164-169 | each quench-plate well of columns 0..n-1 receives exactly one 25 µL sample; no other well receives any |
| Assay.TimepointWithdrawals | protocol/10TP-Quench-C3993.py:164-169 | each well the channels reach gives n samples of 25 µL |
| Assay.SamplesLandInPrefilledWells | protocol/10TP-Quench-C3993.py:113-169 | the sample destinations are exactly the wells the pre-fill loaded with quench buffer |
| Assay.CleanupReleasesTips | protocol/10TP-Quench-C3993.py:171-175 | cleanup never fails, leaves both pipettes bare, and drops a tip exactly on the mounts that hold one |
| Assay.RunProtocolOutcome | protocol/10TP-Quench-C3993.py:171-176 | a run completes exactly when the script builds and its commands run from bare pipettes; it then ends bare after the completion pause |
| Assay.CleanRunCompletes | protocol/10TP-Quench-C3993.py:171-176 | commands that run from bare back to bare pipettes complete with only the completion pause appended |
| Assay.AssayRuns | protocol/10TP-Quench-C3993.py:109-169 | if the pre-fill and the lysate phase each return the pipettes to bare, the whole sequence runs from bare to bare |
| Assay.AssayDeliveriesAtReactionWell | protocol/10TP-Quench-C3993.py:147-159 | a reaction-plate well receives, in order, what the lysate phase gives it, 240 µL if it is in the buffer column, and 30 µL if it is in the reaction column |
| Assay.AssayWithdrawalsAtReactionWell | protocol/10TP-Quench-C3993.py:164-169 | a reaction-plate well outside the substrate column gives one 25 µL sample per timepoint if the channels reach it, and nothing otherwise |
| Quench.LysatePhase | protocol/10TP-Quench-C3993.py:125-145 | the lysate loop builds exactly when `rxnWells` has at least eight rows; otherwise it fails with the out-of-range index |
| Quench.LastLabelTests | protocol/10TP-Quench-C3993.py:126-138 | the initial label '0' is in neither 'E-' nor 'E+', so row A never swaps; after that, each test is true exactly when the class changes |
| Quench.LysateRowsAsLoop | protocol/10TP-Quench-C3993.py:126-143 | the loop threading `lastE` issues the same commands as a per-row block that compares each row's class with the previous row's |
| Quench.RowBlockRuns | protocol/10TP-Quench-C3993.py:130-143 | a row, swap included, keeps the single-channel pipette on a fresh tip |
| Quench.RowsRun | protocol/10TP-Quench-C3993.py:128-143 | the rows leave a fresh single-channel tip as they found it |
| Quench.LysatePhaseRuns | protocol/10TP-Quench-C3993.py:127-145 | the lysate phase runs when the single-channel pipette is bare and ends bare; it is refused at once if that pipette holds a tip |
| Quench.TipSwaps | protocol/10TP-Quench-C3993.py:128-143 | the rows drop and pick up one tip per change of enzyme class, and no more |
| Quench.RowBlockFlows | protocol/10TP-Quench-C3993.py:130-142 | a row puts 30 µL into its own well, drawn from the lysate tube if its label contains 'E+' and from the lysis buffer otherwise |
| Quench.RowsDeliveries | protocol/10TP-Quench-C3993.py:128-143 | a well receives 30 µL once for each row that names it |
| Quench.RowsWithdrawals | protocol/10TP-Quench-C3993.py:128-143 | a tube gives 30 µL once for each row it serves |
| Quench.LysateDeliveries | protocol/10TP-Quench-C3993.py:125-145 | the lysate phase puts 30 µL into a well once for each of the eight rows that names it |
| Quench.LysateWithdrawals | protocol/10TP-Quench-C3993.py:125-145 | the lysate phase draws 30 µL from a tube once for each of the eight rows it serves |
| Quench.SplitSwapsOnce | protocol/10TP-Quench-C3993.py:130-143 | when rows before k are E+ and the rest are not, the tip is swapped before row k only, once in all |
| Quench.SplitDraws | protocol/10TP-Quench-C3993.py:130-142 | with that split, the lysate tube serves k rows and the lysis buffer the other 8 - k |
| Quench.ColumnFills | protocol/10TP-Quench-C3993.py:128-142 | with the rows laid down one column, each well of that column is filled once and no other well is |
| Quench.RxnClasses | protocol/10TP-Quench-C3993.py:66-75 | rows A-E of `rxnWells` are labelled E+ and rows F-H are not |
| Quench.RxnColumn | protocol/10TP-Quench-C3993.py:66-75 | `rxnWells` lists column 1 of the reaction plate from A to H |
| Quench.SubstrateAndDelays | protocol/10TP-Quench-C3993.py:77-86 | `substrateWells` starts at row A of column 2, and `delayTimes` has as many entries as there are timepoints |
| Quench.ScriptFor | protocol/10TP-Quench-C3993.py:109-169 | the script builds exactly when `rxnWells` has at least eight rows, `substrateWells` at least one, and `delayTimes` covers the loop; each failure is the matching index error |
| Quench.ScriptForShape | protocol/10TP-Quench-C3993.py:125-169 | with the reactions in column 1, the lysate phase is one tip around the eight row blocks |
| Quench.RunForCompletes | protocol/10TP-Quench-C3993.py:109-176 | whenever the script builds, every command runs and the run ends with both pipettes bare after the completion pause |
| Quench.LysateIntoColumnWell | protocol/10TP-Quench-C3993.py:128-142 | the lysate phase puts one 30 µL dose into each well of the reactions' column |
| Quench.LysateDrawsNoWell | protocol/10TP-Quench-C3993.py:135-142 | the lysate phase draws from tubes only, never from a plate well |
| Quench.OtherTubesServeNoRow | protocol/10TP-Quench-C3993.py:135-142 | no tube other than the lysate and the lysis buffer serves a row |
| Quench.ReactionWellDeliveries | protocol/10TP-Quench-C3993.py:135-159 | each reaction well receives 30 µL lysate or lysis buffer, then 240 µL buffer, then 30 µL substrate, and nothing else |
| Quench.ReactionWellWithdrawals | protocol/10TP-Quench-C3993.py:164-169 | each reaction well gives one 25 µL sample per timepoint and nothing else |
| Quench.TubeWithdrawals | protocol/10TP-Quench-C3993.py:111-150 | the quench buffer gives 210 µL per filled column, the lysate and lysis tubes 30 µL per row they serve, the reaction buffer 240 µL once for each of the eight wells of column "1", and no other tube gives anything |
| Quench.SplitServes | protocol/10TP-Quench-C3993.py:130-142 | with the classes split at k, the lysate tube gives k doses, the lysis buffer 8 - k, and other tubes none |
| Quench.SplitTubeWithdrawals | protocol/10TP-Quench-C3993.py:111-150 | with the classes split at k: the quench buffer gives 210 µL per filled column, the lysate tube k × 30 µL, the lysis buffer (8 - k) × 30 µL, the reaction buffer 8 × 240 µL, and no other tube anything |
| Quench.QuenchWellDeliveries | protocol/10TP-Quench-C3993.py:111-169 | a quench-plate well receives 25 µL of buffer if its column was pre-filled and 25 µL of sample if its column was sampled |
| Quench.LysateTips | protocol/10TP-Quench-C3993.py:127-145 | the lysate phase picks up and drops one tip, plus one more per change of enzyme class |
| Quench.Configured | protocol/10TP-Quench-C3993.py:66-86 | the configured lists meet the layout the generic lemmas assume, with E+ rows A-E |
| Quench.RunCompletes | protocol/10TP-Quench-C3993.py:109-176 | the configured protocol builds, runs every command, and ends with both pipettes bare after the completion pause |
| Quench.ReactionVolumes | protocol/10TP-Quench-C3993.py:135-169 | each reaction well receives 30 + 240 + 30 µL in that order and gives ten 25 µL samples |
| Quench.TubeVolumes | protocol/10TP-Quench-C3993.py:111-150 | quench buffer 10 × 210 µL; lysate 5 × 30 µL; lysis buffer 3 × 30 µL; reaction buffer 8 × 240 µL, one draw per reaction |
| Quench.QuenchVolumes | protocol/10TP-Quench-C3993.py:111-169 | each well of quench-plate columns 1-10 receives its 25 µL of buffer and then its 25 µL sample |
| Quench.ReactionBudget | protocol/10TP-Quench-C3993.py:135-169 | each reaction receives 300 µL, which is 50 µL more than the 250 µL its samples take |
| Quench.BufferReachesReactions | protocol/10TP-Quench-C3993.py:147-150 | the buffer's column "1" holds every reaction well |
| Quench.SampleTimes | protocol/10TP-Quench-C3993.py:163-166 | the timepoint bound equals `len(delayTimes)`, the loop builds, and it waits each listed time in order |
| Quench.SamplePairing | protocol/10TP-Quench-C3993.py:163-169 | timepoint k waits `delayTimes[k]` and then moves 25 µL from the reaction column into quench-plate column k: ten delays, ten quench columns, one to one |
| Quench.LysateUsesTwoTips | protocol/10TP-Quench-C3993.py:126-145 | with the configured labels the lysate phase uses exactly two tips, so there is exactly one swap |
| QuenchLong.ScriptWith | protocol/10TP-QuenchLong-C3993.py:109-170 | the script builds exactly when `rxnWells` and `substrateWells` are non-empty and `delayTimes` covers the loop; each failure is the matching index error |
| QuenchLong.RunWithCompletes | protocol/10TP-QuenchLong-C3993.py:109-177 | whenever the script builds, every command runs and the run ends with both pipettes bare after the completion pause |
| QuenchLong.ReactionWellDeliveriesWith | protocol/10TP-QuenchLong-C3993.py:149-163 | a reaction-column well receives 240 µL of buffer only if the buffer column is the reaction column, then 30 µL of substrate |
| QuenchLong.ReactionWellWithdrawalsWith | protocol/10TP-QuenchLong-C3993.py:165-170 | a reaction-column well gives one 25 µL sample per timepoint |
| QuenchLong.QuenchWellDeliveriesWith | protocol/10TP-QuenchLong-C3993.py:111-170 | whichever column the buffer goes to, a quench-plate well receives 25 µL of quench buffer if its column is pre-filled, then one 25 µL sample if its column is a timepoint's |
| QuenchLong.Configured | protocol/10TP-QuenchLong-C3993.py:66-86 | reactions lie in column 3 and substrates in column 4, and `delayTimes` has exactly ten entries |
| QuenchLong.AsWrittenBufferMissesReactions | protocol/10TP-QuenchLong-C3993.py:149-150 | the buffer's column "1" holds none of the reaction wells |
| QuenchLong.AsWrittenReactionVolumes | protocol/10TP-QuenchLong-C3993.py:149-170 | as written, each reaction well receives only 30 µL of substrate and gives ten 25 µL samples |
| QuenchLong.AsWrittenShortfall | protocol/10TP-QuenchLong-C3993.py:149-170 | as written, the samples take 220 µL more from each reaction well than the script puts in |
| QuenchLong.BufferReachesReactions | protocol/10TP-QuenchLong-C3993.py:66-75 | with the buffer sent to the reaction column, every reaction well receives it |
| QuenchLong.RunCompletes | protocol/10TP-QuenchLong-C3993.py:109-177 | the corrected protocol builds, runs every command, and ends with both pipettes bare after the completion pause |
| QuenchLong.ReactionVolumes | protocol/10TP-QuenchLong-C3993.py:149-170 | corrected, each reaction well receives 240 µL then 30 µL and gives ten 25 µL samples |
| QuenchLong.ReactionBudget | protocol/10TP-QuenchLong-C3993.py:149-170 | corrected, each reaction receives 20 µL more than its samples take |
| QuenchLong.QuenchVolumes | protocol/10TP-QuenchLong-C3993.py:111-170 | corrected, each well of quench-plate columns 1-10 receives its 25 µL of quench buffer and then its 25 µL sample; columns 11 and 12 receive nothing |
| QuenchLong.SampleTimes | protocol/10TP-QuenchLong-C3993.py:164-168 | `delayTimes` has exactly ten entries, so every index of the loop is in range; the loop samples from A3, the top well of the reactions' column, and waits each listed time in order |
| QuenchLong.SamplePairing | protocol/10TP-QuenchLong-C3993.py:164-170 | timepoint k waits `delayTimes[k]` and then moves 25 µL from the reaction column into quench-plate column k: ten delays, ten quench columns, one to one |

## Left out

- Vendor API semantics are reduced to the state machine above. Left out:
  - motion and liquid physics;
  - flow rates and the aspirate rate argument 0.5;
  - `.bottom()` offsets and `mix`;
  - the `trash` argument of `transfer`.
- `transfer` is reduced to one uninterpreted command. With `new_tip='never'` it needs a tip and keeps it. With `'once'` it needs a bare pipette and leaves it bare. Its internal splitting of volumes larger than the pipette is not modelled.
- The multi-channel footprint is modelled only for 8-row plates: aimed at row r, it reaches rows r..7 of the column. The 384-well footprint is not modelled; the 384-well loops are modelled as index arithmetic only.
- The program bodies of Quenching10TP-C3694.py (from line 164) and template.py call names that are never defined: `left_pipette`, `m300rack`, `trough`, `left_tips`, `discard_tips`. Only their index arithmetic, per-iteration command blocks and named tip pick-ups are modelled. The undefined tip-discard calls are left out, so the template's trace runs from the diluent to the last substrate block without them.
- `PDef` is never instantiated, and the unused imports have no effect.
- The simulation smoke test `protocol/simulation/sim_basics.py` is not part of this model.
- The commented-out lysate loop of 10TP-QuenchLong-C3993.py (lines 125-145) is left out. The lysate that the pause message asks the operator to add by hand has a volume the script does not state, so it is not counted.
- `delay` and `pause` are modelled as trace entries, without real time. The float `delayTimes` become integer centiseconds.
- Console warnings become `Warning` log entries.
- Quench.ScriptFor: an out-of-range index is modelled as stopping the run before any command. In Python, the commands issued before the failing line would already have run.
- QuenchLong.ScriptWith: the same simplification applies.
- The per-row block of the lysate loop and the per-timepoint block of the sampling loop each carry a guard for indices past the end of their list. The guard only makes the functions total. It never fires, because the script stops with an index error first.
- Assay.BufferAddFlows: the buffer transfer targets column `bufferCol` of the reaction plate directly. The script reaches it through `rxnWells[0][0]`, which is that plate in both protocols.
- Quench.SampleTimes: equality between the waits and `delayTimes` is proved for the timepoint loop only. The pre-fill, lysate and buffer phases issue no waits either, but that is not stated as a lemma about the whole trace.

## Findings

| source | as written | input that shows it | evidently intended | confidence | as-written member | corrected member |
|---|---|---|---|---|---|---|
| protocol/10TP-QuenchLong-C3993.py:149-150 | the 240 µL of reaction buffer goes to `columns_by_name()['1']`, column index 0 (A1-H1), while `rxnWells` lie in column index 2 (A3-H3) | reaction well A3, that is well (column 2, row A) of the reaction plate: it receives no buffer, only 30 µL of substrate, yet its ten samples draw 250 µL | the buffer goes to the reactions' own column "3", as in 10TP-Quench-C3993.py where both are column "1" | medium; not executed (the hand-added lysate has an unstated volume) | QuenchLong.AsWrittenBufferMissesReactions | QuenchLong.BufferReachesReactions |

=== FILE: assay.dfy ===
/** What 10TP-Quench-C3993.py and 10TP-QuenchLong-C3993.py share: the
    deck, the tubes, the two pipettes, and the phases both run in the same
    order — pre-fill the quench plate, add reaction buffer, add substrate,
    take ten timed samples into the quench plate, clean up. */
module Assay {
  import opened Wrappers
  import opened Pipetting
  import Deck

  // ---------------------------------------------------------------------
  // Deck and pipettes

  const TipRack300A := Labware("opentrons_96_tiprack_300ul", 9)
  const TipRack300B := Labware("opentrons_96_tiprack_300ul", 10)
  const TubeRack := Labware("opentrons_10_tuberack_falcon_4x50ml_6x15ml_conical", 4)
  /** The 96-well plate the samples are quenched into. */
  const QuenchPlate := Labware("corning_96_wellplate_190ul", 1)
  /** The deep-well plate holding the reactions and the substrates. */
  const ReactionPlate := Labware("thermoscientificnunc_96_wellplate_1300ul", 6)

  /** The five `load_labware` calls as deck slot definitions. */
  function DeckTable(): seq<Deck.LDef>
  {
    [ Deck.LDef(TipRack300A.slot, TipRack300A.name, true),
      Deck.LDef(TipRack300B.slot, TipRack300B.name, true),
      Deck.LDef(TubeRack.slot, TubeRack.name, true),
      Deck.LDef(QuenchPlate.slot, QuenchPlate.name, true),
      Deck.LDef(ReactionPlate.slot, ReactionPlate.name, true) ]
  }

  lemma DeckTableValid()
    ensures |DeckTable()| == 5 && Deck.SlotsDistinctInRange(DeckTable())
  {
  }

  const ReactionBuffer := Tube(TubeRack, "A1")
  const QuenchBuffer := Tube(TubeRack, "A2")
  const LysateTube := Tube(TubeRack, "B1")
  const LysisBuffer := Tube(TubeRack, "C1")

  /** p300_single_gen2 on the left mount, p300_multi_gen2 on the right. */
  const Single: Mount := Left
  const Multi: Mount := Right
  const AssayRig := Rig(Instrument("p300_single_gen2", 1, 300), Instrument("p300_multi_gen2", 8, 300))

  /** An entry of `rxnWells` / `substrateWells`: plate, well, description. */
  datatype RxnWell = RxnWell(plate: Labware, well: WellLoc, desc: string)

  const ConfirmDeck := "Please confirm deck setup. Resume to start sequence."
  const Complete := "Sequence complete."

  /** `columns_by_name()['1']`: the first column, index 0. */
  const ColumnNamedOne := 0

  // ---------------------------------------------------------------------
  // Pre-filling the quench plate

  /** `range(10)`: the pre-fill loads quench-plate columns 1-10. */
  const FilledColumns := 10

  function FillRows(col: nat): nat -> seq<Cmd>
  {
    (row: nat) => [Dispense(Single, 25, Well(QuenchPlate, col, row))]
  }

  /** Draw 210 µL of quench buffer, dispense 25 µL down one column, blow the
      rest back into the tube. */
  function FillColumn(col: nat): seq<Cmd>
  {
    DrawAndDispense(Single, 210, QuenchBuffer, Loop(0, PlateRows, FillRows(col)), QuenchBuffer)
  }

  /** The pre-fill of quench-plate columns 0..cols-1 on one tip; the
      protocols run it with `cols` = `FilledColumns`. */
  function QuenchFill(cols: nat): seq<Cmd>
  {
    WithTip(Single, Loop(0, cols, FillColumn))
  }

  /** Each column dispenses 8 × 25 = 200 µL of the 210 µL drawn, so it runs
      on a fresh tip and leaves the tip empty. */
  lemma FillColumnRuns(s: State, col: nat)
    requires s.Get(Single) == Fresh
    ensures Execute(AssayRig, s, FillColumn(col)) == Ok(s)
  {
    var ds := Loop(0, PlateRows, FillRows(col));
    LoopDispensesBy(Single, 0, PlateRows, FillRows(col));
    LoopDispensed(25, 0, PlateRows, FillRows(col));
    assert DispensedVolume(ds) == 200;
    AspirateBudget(AssayRig, s, Single, 210, QuenchBuffer, ds, QuenchBuffer);
  }

  /** The pre-fill runs exactly when the single-channel pipette starts
      bare, and then leaves the machine as it found it. */
  lemma QuenchFillRuns(s: State, cols: nat)
    ensures s.Get(Single) == Bare ==> Execute(AssayRig, s, QuenchFill(cols)) == Ok(s)
    ensures s.Get(Single).hasTip ==> Execute(AssayRig, s, QuenchFill(cols)) == Err(Fault(PickUp(Single), TipAttached))
  {
    if s.Get(Single).hasTip {
      WithTipRefused(AssayRig, s, Single, Loop(0, cols, FillColumn));
    } else {
      var t := s.Set(Single, Fresh);
      forall k | 0 <= k < cols
        ensures Execute(AssayRig, t, FillColumn(k)) == Ok(t)
      {
        FillColumnRuns(t, k);
      }
      LoopNeutral(AssayRig, t, 0, cols, FillColumn);
      WithTipRuns(AssayRig, s, Single, Loop(0, cols, FillColumn));
    }
  }

  /** The row loop of one column dispenses 25 µL into each of its eight wells. */
  lemma FillRowsDeliveries(col: nat, w: Loc)
    ensures Deliveries(AssayRig, Loop(0, PlateRows, FillRows(col)), w)
            == if w.Well? && w.lw == QuenchPlate && w.col == col && w.row < PlateRows then [25] else []
  {
    var k0: nat := if w.Well? && w.lw == QuenchPlate && w.col == col && w.row < PlateRows then w.row else PlateRows;
    forall k | 0 <= k < PlateRows
      ensures Deliveries(AssayRig, FillRows(col)(k), w) == if k == k0 then [25] else []
    {
      FlowsSingle(AssayRig, Dispense(Single, 25, Well(QuenchPlate, col, k)), w);
    }
    LoopDeliveriesAt(AssayRig, 0, PlateRows, FillRows(col), w, k0, [25]);
  }

  /** One column's fill dispenses 25 µL into each of its eight wells and
      dispenses nothing anywhere else; what its blow-out returns to the
      tube is booked by `FillColumnReturns`. */
  lemma FillColumnDeliveries(col: nat, w: Loc)
    ensures Deliveries(AssayRig, FillColumn(col), w)
            == if w.Well? && w.lw == QuenchPlate && w.col == col && w.row < PlateRows then [25] else []
  {
    FillRowsDeliveries(col, w);
    DrawAndDispenseFlows(AssayRig, Single, 210, QuenchBuffer, Loop(0, PlateRows, FillRows(col)), QuenchBuffer, w);
  }

  /** One column's fill draws 210 µL from the quench buffer and nothing
      from anywhere else. */
  lemma FillColumnWithdrawals(col: nat, w: Loc)
    ensures Withdrawals(AssayRig, FillColumn(col), w) == if w == QuenchBuffer then [210] else []
  {
    forall k | 0 <= k < PlateRows
      ensures Withdrawals(AssayRig, FillRows(col)(k), w) == []
    {
      FlowsSingle(AssayRig, Dispense(Single, 25, Well(QuenchPlate, col, k)), w);
    }
    LoopWithdrawalsAt(AssayRig, 0, PlateRows, FillRows(col), w, PlateRows, []);
    DrawAndDispenseFlows(AssayRig, Single, 210, QuenchBuffer, Loop(0, PlateRows, FillRows(col)), QuenchBuffer, w);
  }

  /** Each column dispenses 200 of the 210 µL drawn, so the tip holds
      exactly 10 µL when it is blown out, and those 10 µL go back into the
      quench-buffer tube and nowhere else. */
  lemma FillColumnReturns(s: State, col: nat, w: Loc)
    requires s.Get(Single) == Fresh
    ensures Returns(AssayRig, s, FillColumn(col), w) == if w == QuenchBuffer then [10] else []
  {
    var ds := Loop(0, PlateRows, FillRows(col));
    LoopDispensesBy(Single, 0, PlateRows, FillRows(col));
    LoopDispensed(25, 0, PlateRows, FillRows(col));
    DrawAndDispenseReturns(AssayRig, s, Single, 210, QuenchBuffer, ds, QuenchBuffer, w);
  }

  /** The column loop dispenses 25 µL into each well of columns
      0..cols-1 and nothing elsewhere. */
  lemma FillLoopDeliveries(cols: nat, w: Loc)
    ensures Deliveries(AssayRig, Loop(0, cols, FillColumn), w)
            == if w.Well? && w.lw == QuenchPlate && w.col < cols && w.row < PlateRows then [25] else []
  {
    var k0: nat := if w.Well? && w.lw == QuenchPlate && w.col < cols && w.row < PlateRows then w.col else cols;
    forall k | 0 <= k < cols
      ensures Deliveries(AssayRig, FillColumn(k), w) == if k == k0 then [25] else []
    {
      FillColumnDeliveries(k, w);
    }
    LoopDeliveriesAt(AssayRig, 0, cols, FillColumn, w, k0, [25]);
  }

  /** Filling columns 0..cols-1 dispenses 25 µL into each of their wells
      and nothing anywhere else; the blow-outs are booked by
      `QuenchFillReturns`. */
  lemma QuenchFillDeliveries(cols: nat, w: Loc)
    ensures Deliveries(AssayRig, QuenchFill(cols), w)
            == if w.Well? && w.lw == QuenchPlate && w.col < cols && w.row < PlateRows then [25] else []
  {
    FillLoopDeliveries(cols, w);
    WithTipFlows(AssayRig, Single, Loop(0, cols, FillColumn), w);
  }

  /** Run from a bare single-channel pipette, filling columns 0..cols-1
      blows 10 µL back into the quench-buffer tube once per column, and
      nothing into any other place. */
  lemma QuenchFillReturns(s: State, cols: nat, w: Loc)
    requires s.Get(Single) == Bare
    ensures Returns(AssayRig, s, QuenchFill(cols), w) == if w == QuenchBuffer then Repeat(10, cols) else []
  {
    var t := s.Set(Single, Fresh);
    forall k | 0 <= k < cols
      ensures Execute(AssayRig, t, FillColumn(k)) == Ok(t)
      ensures Returns(AssayRig, t, FillColumn(k), w) == if w == QuenchBuffer then [10] else []
    {
      FillColumnRuns(t, k);
      FillColumnReturns(t, k, w);
    }
    LoopReturnsEach(AssayRig, t, 0, cols, FillColumn, w, w == QuenchBuffer, 10);
    WithTipReturns(AssayRig, s, Single, Loop(0, cols, FillColumn), w);
  }

  /** Filling columns 0..cols-1 draws 210 µL from the quench buffer once
      per column and nothing from anywhere else. */
  lemma QuenchFillWithdrawals(cols: nat, w: Loc)
    ensures Withdrawals(AssayRig, QuenchFill(cols), w) == if w == QuenchBuffer then Repeat(210, cols) else []
  {
    var body := Loop(0, cols, FillColumn);
    assert Withdrawals(AssayRig, body, w) == if w == QuenchBuffer then Repeat(210, cols) else [] by {
      if w == QuenchBuffer {
        forall k | 0 <= k < cols
          ensures Withdrawals(AssayRig, FillColumn(k), w) == [210]
        {
          FillColumnWithdrawals(k, w);
        }
        LoopWithdrawsEach(AssayRig, 0, cols, FillColumn, w, 210);
      } else {
        forall k | 0 <= k < cols
          ensures Withdrawals(AssayRig, FillColumn(k), w) == []
        {
          FillColumnWithdrawals(k, w);
        }
        LoopWithdrawalsAt(AssayRig, 0, cols, FillColumn, w, cols, []);
      }
    }
    WithTipFlows(AssayRig, Single, body, w);
  }

  // ---------------------------------------------------------------------
  // Reaction buffer and substrate

  /** 240 µL of reaction buffer into each well of one reaction-plate
      column, on a tip of its own. */
  function BufferAdd(col: nat): seq<Cmd>
  {
    [Transfer(Single, 240, ReactionBuffer, Column(ReactionPlate, col), Once)]
  }

  /** 30 µL of substrate from `src` into `dst` with the multi-channel, then
      five 150 µL mixes, on one tip. */
  function SubstrateAdd(src: Loc, dst: Loc): seq<Cmd>
  {
    WithTip(Multi, [Transfer(Multi, 30, src, dst, Never), Mix(Multi, 5, 150)])
  }

  lemma BufferAddRuns(s: State, col: nat)
    ensures Execute(AssayRig, s, BufferAdd(col)) == if s.Get(Single).hasTip
              then Err(Fault(BufferAdd(col)[0], TipAttached)) else Ok(s)
  {
    assert BufferAdd(col)[1..] == [];
  }

  lemma SubstrateAddRuns(s: State, src: Loc, dst: Loc)
    requires s.Get(Multi) == Bare
    ensures Execute(AssayRig, s, SubstrateAdd(src, dst)) == Ok(s)
  {
    var t := s.Set(Multi, Fresh);
    var mix: seq<Cmd> := [Mix(Multi, 5, 150)];
    var body: seq<Cmd> := [Transfer(Multi, 30, src, dst, Never)] + mix;
    assert Execute(AssayRig, t, mix) == Ok(t);
    assert body[1..] == mix;
    assert Execute(AssayRig, t, body) == Ok(t);
    assert SubstrateAdd(src, dst) == WithTip(Multi, body);
    WithTipRuns(AssayRig, s, Multi, body);
    assert s.Set(Multi, Bare) == s;
  }

  /** The buffer reaches exactly the eight wells of column `col`, 240 µL
      each, and the tube gives 240 µL once for each of them. */
  lemma BufferAddFlows(col: nat, w: Loc)
    ensures Deliveries(AssayRig, BufferAdd(col), w)
            == if w.Well? && w.lw == ReactionPlate && w.col == col && w.row < PlateRows then [240] else []
    ensures Withdrawals(AssayRig, BufferAdd(col), w) == if w == ReactionBuffer then Repeat(240, PlateRows) else []
  {
    assert BufferAdd(col)[1..] == [];
  }

  /** Aimed at row A, the eight channels draw from the whole source column
      and deliver into the whole destination column. */
  lemma SubstrateAddFlows(srcCol: nat, dstCol: nat, w: Loc)
    ensures Deliveries(AssayRig, SubstrateAdd(Well(ReactionPlate, srcCol, 0), Well(ReactionPlate, dstCol, 0)), w)
            == if w.Well? && w.lw == ReactionPlate && w.col == dstCol && w.row < PlateRows then [30] else []
    ensures Withdrawals(AssayRig, SubstrateAdd(Well(ReactionPlate, srcCol, 0), Well(ReactionPlate, dstCol, 0)), w)
            == if w.Well? && w.lw == ReactionPlate && w.col == srcCol && w.row < PlateRows then [30] else []
  {
    var move := Transfer(Multi, 30, Well(ReactionPlate, srcCol, 0), Well(ReactionPlate, dstCol, 0), Never);
    var mix := Mix(Multi, 5, 150);
    FlowsSingle(AssayRig, move, w);
    FlowsSingle(AssayRig, mix, w);
    FlowsAppend(AssayRig, [move], [mix], w);
    assert [move, mix] == [move] + [mix];
    WithTipFlows(AssayRig, Multi, [move, mix], w);
  }

  // ---------------------------------------------------------------------
  // Timepoints

  /** Iteration `tp` of the timepoint loop: wait `delays[tp]` centiseconds,
      then move 25 µL with the multi-channel from `src` into row A of
      quench-plate column tp, on a new tip that goes to the trash. An index
      past the end of `delays` never reaches this point (`Timepoints`
      stops first), so the guard only keeps the function total. */
  function Sample(delays: seq<nat>, src: Loc): nat -> seq<Cmd>
  {
    (tp: nat) => [Delay(if tp < |delays| then delays[tp] else 0), Transfer(Multi, 25, src, Well(QuenchPlate, tp, 0), Once)]
  }

  /** `for tp in range(n)` over `delayTimes[tp]`: an index past the list's
      end stops the script with an IndexError before anything runs. */
  function Timepoints(n: nat, delays: seq<nat>, src: Loc): (r: Result<seq<Cmd>, Failure>)
    ensures r.Ok? <==> n <= |delays|
    ensures r.Err? ==> r.error == IndexError(|delays|)
    ensures r.Ok? ==> |r.value| == 2 * n
    ensures r.Ok? ==> forall i :: 0 <= i < |r.value| ==>
              r.value[i] == if i % 2 == 0 then Delay(delays[i / 2])
                            else Transfer(Multi, 25, src, Well(QuenchPlate, i / 2, 0), Once)
  {
    if n > |delays| then Err(IndexError(|delays|))
    else
      SamplePairs(delays, src, 0, n);
      Ok(Loop(0, n, Sample(delays, src)))
  }

  /** Timepoints lo..n-1 as a command list: timepoint lo + k occupies
      entries 2k and 2k+1, its wait of `delays[lo + k]` immediately
      followed by its transfer into quench-plate column lo + k, so the
      k-th delay and the k-th quench column are paired one to one. */
  lemma {:induction false} SamplePairs(delays: seq<nat>, src: Loc, lo: nat, n: nat)
    requires lo <= n <= |delays|
    ensures |Loop(lo, n, Sample(delays, src))| == 2 * (n - lo)
    ensures forall i :: 0 <= i < 2 * (n - lo) ==>
              Loop(lo, n, Sample(delays, src))[i]
              == if i % 2 == 0 then Delay(delays[lo + i / 2])
                 else Transfer(Multi, 25, src, Well(QuenchPlate, lo + i / 2, 0), Once)
    decreases n - lo
  {
    if lo < n {
      var all, rest := Loop(lo, n, Sample(delays, src)), Loop(lo + 1, n, Sample(delays, src));
      SamplePairs(delays, src, lo + 1, n);
      assert all == Sample(delays, src)(lo) + rest;
      forall i | 2 <= i < 2 * (n - lo)
        ensures all[i] == if i % 2 == 0 then Delay(delays[lo + i / 2])
                          else Transfer(Multi, 25, src, Well(QuenchPlate, lo + i / 2, 0), Once)
      {
        assert all[i] == rest[i - 2];
        assert (i - 2) % 2 == i % 2 && lo + 1 + (i - 2) / 2 == lo + i / 2;
      }
    }
  }

  /** The waits of a trace, in order. */
  function Waits(cmds: seq<Cmd>): seq<nat>
    decreases |cmds|
  {
    if |cmds| == 0 then [] else (if cmds[0].Delay? then [cmds[0].centis] else []) + Waits(cmds[1..])
  }

  lemma {:induction false} WaitsAppend(a: seq<Cmd>, b: seq<Cmd>)
    ensures Waits(a + b) == Waits(a) + Waits(b)
    decreases |a|
  {
    if |a| == 0 {
      assert a + b == b;
    } else {
      var h := if a[0].Delay? then [a[0].centis] else [];
      assert (a + b)[0] == a[0] && (a + b)[1..] == a[1..] + b;
      WaitsAppend(a[1..], b);
      calc {
        Waits(a + b);
        h + Waits(a[1..] + b);
        h + (Waits(a[1..]) + Waits(b));
        (h + Waits(a[1..])) + Waits(b);
      }
    }
  }

  /** Timepoints lo..n-1 wait exactly the listed delays, in list order. */
  lemma {:induction false} TimepointWaits(delays: seq<nat>, lo: nat, n: nat, src: Loc)
    requires lo <= n <= |delays|
    ensures Waits(Loop(lo, n, Sample(delays, src))) == delays[lo..n]
    decreases n - lo
  {
    if lo < n {
      var head, rest := Sample(delays, src)(lo), Loop(lo + 1, n, Sample(delays, src));
      assert Loop(lo, n, Sample(delays, src)) == head + rest;
      assert head == [Delay(delays[lo]), head[1]] && head[1..] == [head[1]] && head[1..][1..] == [];
      assert Waits(head[1..]) == [];
      assert Waits(head) == [delays[lo]];
      TimepointWaits(delays, lo + 1, n, src);
      WaitsAppend(head, rest);
      assert delays[lo..n] == [delays[lo]] + delays[lo + 1..n];
    }
  }

  /** With enough delays the timepoint loop builds, and its waits are
      the first `n` delays in list order. */
  lemma TimepointSchedule(n: nat, delays: seq<nat>, src: Loc)
    requires n <= |delays|
    ensures Timepoints(n, delays, src).Ok?
    ensures Waits(Timepoints(n, delays, src).value) == delays[..n]
  {
    TimepointWaits(delays, 0, n, src);
  }

  /** The same pairing read per timepoint: timepoint k waits `delays[k]`
      and then samples into quench-plate column k. */
  lemma TimepointPairs(n: nat, delays: seq<nat>, src: Loc)
    requires n <= |delays|
    ensures Timepoints(n, delays, src).Ok?
    ensures var tps := Timepoints(n, delays, src).value;
            forall k :: 0 <= k < n ==>
              tps[2 * k] == Delay(delays[k])
              && tps[2 * k + 1] == Transfer(Multi, 25, src, Well(QuenchPlate, k, 0), Once)
  {
    var tps := Timepoints(n, delays, src).value;
    forall k | 0 <= k < n
      ensures tps[2 * k] == Delay(delays[k])
      ensures tps[2 * k + 1] == Transfer(Multi, 25, src, Well(QuenchPlate, k, 0), Once)
    {
      assert (2 * k) / 2 == k && (2 * k + 1) / 2 == k && (2 * k + 1) % 2 == 1;
    }
  }

  /** One timepoint takes its own tip, so it runs exactly when the
      multi-channel starts bare, and leaves the machine unchanged. */
  lemma SampleRuns(s: State, delays: seq<nat>, src: Loc, tp: nat)
    ensures Execute(AssayRig, s, Sample(delays, src)(tp))
            == if s.Get(Multi).hasTip then Err(Fault(Transfer(Multi, 25, src, Well(QuenchPlate, tp, 0), Once), TipAttached))
               else Ok(s)
  {
    var c := Transfer(Multi, 25, src, Well(QuenchPlate, tp, 0), Once);
    var body := Sample(delays, src)(tp);
    assert body == [body[0], c] && body[1..] == [c] && [c][1..] == [];
    assert Execute(AssayRig, s, [c]) == if s.Get(Multi).hasTip then Err(Fault(c, TipAttached)) else Ok(s);
  }

  /** The timepoints run exactly when the multi-channel starts bare (or
      there are none), and leave the machine unchanged. */
  lemma TimepointsRun(s: State, delays: seq<nat>, n: nat, src: Loc)
    ensures Execute(AssayRig, s, Loop(0, n, Sample(delays, src)))
            == if 0 < n && s.Get(Multi).hasTip then Err(Fault(Transfer(Multi, 25, src, Well(QuenchPlate, 0, 0), Once), TipAttached))
               else Ok(s)
  {
    if 0 < n && s.Get(Multi).hasTip {
      SampleRuns(s, delays, src, 0);
      ExecuteAppend(AssayRig, s, Sample(delays, src)(0), Loop(1, n, Sample(delays, src)));
    } else {
      forall k | 0 <= k < n
        ensures Execute(AssayRig, s, Sample(delays, src)(k)) == Ok(s)
      {
        SampleRuns(s, delays, src, k);
      }
      LoopNeutral(AssayRig, s, 0, n, Sample(delays, src));
    }
  }

  /** One timepoint delivers 25 µL into each well of quench-plate column tp
      and draws 25 µL from each well the channels reach at `src`. */
  lemma SampleFlows(delays: seq<nat>, src: Loc, tp: nat, w: Loc)
    ensures Deliveries(AssayRig, Sample(delays, src)(tp), w)
            == if w.Well? && w.lw == QuenchPlate && w.col == tp && w.row < PlateRows then [25] else []
    ensures Withdrawals(AssayRig, Sample(delays, src)(tp), w) == if Covers(AssayRig.On(Multi), src, w) then [25] else []
  {
    var c := Transfer(Multi, 25, src, Well(QuenchPlate, tp, 0), Once);
    var body := Sample(delays, src)(tp);
    assert body == [body[0], c] && body[1..] == [c] && [c][1..] == [];
    FlowsSingle(AssayRig, c, w);
  }

  /** The samples land 25 µL at a time in rows A-H of quench-plate columns
      0..n-1 and nowhere else. */
  lemma TimepointDeliveries(delays: seq<nat>, n: nat, src: Loc, w: Loc)
    ensures Deliveries(AssayRig, Loop(0, n, Sample(delays, src)), w)
            == if w.Well? && w.lw == QuenchPlate && w.col < n && w.row < PlateRows then [25] else []
  {
    var k0: nat := if w.Well? && w.lw == QuenchPlate && w.col < n && w.row < PlateRows then w.col else n;
    forall k | 0 <= k < n
      ensures Deliveries(AssayRig, Sample(delays, src)(k), w) == if k == k0 then [25] else []
    {
      SampleFlows(delays, src, k, w);
    }
    LoopDeliveriesAt(AssayRig, 0, n, Sample(delays, src), w, k0, [25]);
  }

  /** Each of the n samples draws 25 µL from every well the eight channels
      reach at `src`, and from nothing else. */
  lemma TimepointWithdrawals(delays: seq<nat>, n: nat, src: Loc, w: Loc)
    ensures Withdrawals(AssayRig, Loop(0, n, Sample(delays, src)), w)
            == if Covers(AssayRig.On(Multi), src, w) then Repeat(25, n) else []
  {
    forall k | 0 <= k < n
      ensures Withdrawals(AssayRig, Sample(delays, src)(k), w) == if Covers(AssayRig.On(Multi), src, w) then [25] else []
    {
      SampleFlows(delays, src, k, w);
    }
    if Covers(AssayRig.On(Multi), src, w) {
      LoopWithdrawsEach(AssayRig, 0, n, Sample(delays, src), w, 25);
    } else {
      LoopWithdrawalsAt(AssayRig, 0, n, Sample(delays, src), w, n, []);
    }
  }

  /** The samples of timepoints 0..cols-1 go into exactly the wells the
      pre-fill of columns 0..cols-1 loaded with quench buffer, 25 µL into
      each: the two phases deliver the same volumes well by well. */
  lemma SamplesLandInPrefilledWells(delays: seq<nat>, cols: nat, src: Loc, w: Loc)
    ensures Deliveries(AssayRig, Loop(0, cols, Sample(delays, src)), w) == Deliveries(AssayRig, QuenchFill(cols), w)
  {
    TimepointDeliveries(delays, cols, src, w);
    QuenchFillDeliveries(cols, w);
  }

  // ---------------------------------------------------------------------
  // Cleanup and the whole run

  /** Drop whatever tips are still attached, multi-channel first, then
      pause with the completion message. */
  function Cleanup(s: State): seq<Cmd>
  {
    (if s.Get(Multi).hasTip then [Drop(Multi)] else [])
    + (if s.Get(Single).hasTip then [Drop(Single)] else [])
    + [Pause(Complete)]
  }

  /** Cleanup never fails, drops exactly the tips that are attached, and
      leaves both pipettes without one. */
  lemma CleanupReleasesTips(rig: Rig, s: State)
    ensures Execute(rig, s, Cleanup(s)).Ok?
    ensures !Execute(rig, s, Cleanup(s)).value.left.hasTip && !Execute(rig, s, Cleanup(s)).value.right.hasTip
    ensures Drop(Multi) in Cleanup(s) <==> s.Get(Multi).hasTip
    ensures Drop(Single) in Cleanup(s) <==> s.Get(Single).hasTip
  {
    var a: seq<Cmd> := if s.Get(Multi).hasTip then [Drop(Multi)] else [];
    var b: seq<Cmd> := if s.Get(Single).hasTip then [Drop(Single)] else [];
    var t := if s.Get(Multi).hasTip then s.Set(Multi, Bare) else s;
    var u := if t.Get(Single).hasTip then t.Set(Single, Bare) else t;
    assert Execute(rig, s, a) == Ok(t);
    assert Execute(rig, t, b) == Ok(u);
    assert Execute(rig, u, [Pause(Complete)]) == Ok(u);
    ExecuteChain(rig, s, a, t, b, u);
    ExecuteChain(rig, s, a + b, u, [Pause(Complete)], u);
  }

  /** The commands issued and the state the pipettes end in. */
  datatype Outcome = Outcome(trace: seq<Cmd>, final: State)

  /** A whole protocol: build the command list (a script error stops it
      first), run it from two bare pipettes, then clean up. */
  function RunProtocol(rig: Rig, body: Result<seq<Cmd>, Failure>): Result<Outcome, Failure>
  {
    var cmds :- body;
    var s :- Execute(rig, Idle, cmds);
    var tail := Cleanup(s);
    var t :- Execute(rig, s, tail);
    Ok(Outcome(cmds + tail, t))
  }

  /** A protocol completes exactly when its script builds and its commands
      run; it then ends with the completion pause and no tip attached. */
  lemma RunProtocolOutcome(rig: Rig, body: Result<seq<Cmd>, Failure>)
    ensures RunProtocol(rig, body).Ok? <==> body.Ok? && Execute(rig, Idle, body.value).Ok?
    ensures body.Err? ==> RunProtocol(rig, body) == Err(body.error)
    ensures RunProtocol(rig, body).Ok? ==>
              var o := RunProtocol(rig, body).value;
              && o.trace[..|body.value|] == body.value
              && o.trace[|o.trace| - 1] == Pause(Complete)
              && !o.final.left.hasTip && !o.final.right.hasTip
  {
    if body.Ok? && Execute(rig, Idle, body.value).Ok? {
      CleanupReleasesTips(rig, Execute(rig, Idle, body.value).value);
    }
  }

  /** A command list that runs from bare pipettes back to bare pipettes
      completes with only the completion pause appended. */
  lemma CleanRunCompletes(rig: Rig, cmds: seq<Cmd>)
    requires Execute(rig, Idle, cmds) == Ok(Idle)
    ensures RunProtocol(rig, Ok(cmds)) == Ok(Outcome(cmds + [Pause(Complete)], Idle))
  {
    assert Cleanup(Idle) == [Pause(Complete)];
    assert Execute(rig, Idle, [Pause(Complete)]) == Ok(Idle);
  }

  /** The trace both protocols issue: the pre-fill `fill`, the lysate
      phase (empty in the long variant), the reaction buffer into column
      `bufferCol`, the substrate from `sub` into `rxn`, then the samples. */
  function AssayTrace(fill: seq<Cmd>, lysate: seq<Cmd>, bufferCol: nat, checkMsg: string, sub: Loc, rxn: Loc,
                      samples: seq<Cmd>): seq<Cmd>
  {
    [Pause(ConfirmDeck)] + fill + lysate + BufferAdd(bufferCol)
    + [Pause(checkMsg)] + SubstrateAdd(sub, rxn) + samples
  }

  /** With a pre-fill and a lysate phase that each return the pipettes to
      bare, the whole assay runs from bare pipettes and leaves them bare. */
  lemma AssayRuns(fill: seq<Cmd>, lysate: seq<Cmd>, bufferCol: nat, checkMsg: string, sub: Loc, rxn: Loc,
                  delays: seq<nat>, n: nat)
    requires Execute(AssayRig, Idle, fill) == Ok(Idle)
    requires Execute(AssayRig, Idle, lysate) == Ok(Idle)
    ensures Execute(AssayRig, Idle, AssayTrace(fill, lysate, bufferCol, checkMsg, sub, rxn, Loop(0, n, Sample(delays, rxn))))
            == Ok(Idle)
  {
    var p1: seq<Cmd> := [Pause(ConfirmDeck)];
    var p2: seq<Cmd> := [Pause(checkMsg)];
    var samples := Loop(0, n, Sample(delays, rxn));
    assert Execute(AssayRig, Idle, p1) == Ok(Idle);
    assert Execute(AssayRig, Idle, p2) == Ok(Idle);
    BufferAddRuns(Idle, bufferCol);
    SubstrateAddRuns(Idle, sub, rxn);
    TimepointsRun(Idle, delays, n, rxn);
    ExecuteChain(AssayRig, Idle, p1, Idle, fill, Idle);
    ExecuteChain(AssayRig, Idle, p1 + fill, Idle, lysate, Idle);
    ExecuteChain(AssayRig, Idle, p1 + fill + lysate, Idle, BufferAdd(bufferCol), Idle);
    ExecuteChain(AssayRig, Idle, p1 + fill + lysate + BufferAdd(bufferCol), Idle, p2, Idle);
    ExecuteChain(AssayRig, Idle, p1 + fill + lysate + BufferAdd(bufferCol) + p2, Idle, SubstrateAdd(sub, rxn), Idle);
    ExecuteChain(AssayRig, Idle, p1 + fill + lysate + BufferAdd(bufferCol) + p2 + SubstrateAdd(sub, rxn), Idle, samples, Idle);
  }

  lemma PauseMovesNothing(msg: string, w: Loc)
    ensures Deliveries(AssayRig, [Pause(msg)], w) == [] && Withdrawals(AssayRig, [Pause(msg)], w) == []
  {
    assert [Pause(msg)][1..] == [];
  }

  /** The per-well flows of the whole assay are those of its phases, in
      order; the two pauses move nothing. */
  lemma AssayDeliveriesSplit(fill: seq<Cmd>, lysate: seq<Cmd>, bufferCol: nat, checkMsg: string, sub: Loc, rxn: Loc,
                        samples: seq<Cmd>, w: Loc)
    ensures Deliveries(AssayRig, AssayTrace(fill, lysate, bufferCol, checkMsg, sub, rxn, samples), w)
            == Deliveries(AssayRig, fill, w) + Deliveries(AssayRig, lysate, w) + Deliveries(AssayRig, BufferAdd(bufferCol), w)
               + Deliveries(AssayRig, SubstrateAdd(sub, rxn), w) + Deliveries(AssayRig, samples, w)
  {
    var p1: seq<Cmd> := [Pause(ConfirmDeck)];
    var p2: seq<Cmd> := [Pause(checkMsg)];
    var t1 := p1 + fill;
    var t2 := t1 + lysate;
    var t3 := t2 + BufferAdd(bufferCol);
    var t4 := t3 + p2;
    var t5 := t4 + SubstrateAdd(sub, rxn);
    assert AssayTrace(fill, lysate, bufferCol, checkMsg, sub, rxn, samples) == t5 + samples;
    assert Deliveries(AssayRig, t1, w) == Deliveries(AssayRig, fill, w) by {
      PauseMovesNothing(ConfirmDeck, w);
      FlowsAppend(AssayRig, p1, fill, w);
    }
    assert Deliveries(AssayRig, t2, w) == Deliveries(AssayRig, fill, w) + Deliveries(AssayRig, lysate, w) by {
      FlowsAppend(AssayRig, t1, lysate, w);
    }
    assert Deliveries(AssayRig, t3, w)
           == Deliveries(AssayRig, fill, w) + Deliveries(AssayRig, lysate, w) + Deliveries(AssayRig, BufferAdd(bufferCol), w) by {
      FlowsAppend(AssayRig, t2, BufferAdd(bufferCol), w);
    }
    assert Deliveries(AssayRig, t4, w) == Deliveries(AssayRig, t3, w) by {
      PauseMovesNothing(checkMsg, w);
      FlowsAppend(AssayRig, t3, p2, w);
    }
    assert Deliveries(AssayRig, t5, w) == Deliveries(AssayRig, t3, w) + Deliveries(AssayRig, SubstrateAdd(sub, rxn), w) by {
      FlowsAppend(AssayRig, t4, SubstrateAdd(sub, rxn), w);
    }
    FlowsAppend(AssayRig, t5, samples, w);
  }

  lemma AssayWithdrawalsSplit(fill: seq<Cmd>, lysate: seq<Cmd>, bufferCol: nat, checkMsg: string, sub: Loc, rxn: Loc,
                        samples: seq<Cmd>, w: Loc)
    ensures Withdrawals(AssayRig, AssayTrace(fill, lysate, bufferCol, checkMsg, sub, rxn, samples), w)
            == Withdrawals(AssayRig, fill, w) + Withdrawals(AssayRig, lysate, w) + Withdrawals(AssayRig, BufferAdd(bufferCol), w)
               + Withdrawals(AssayRig, SubstrateAdd(sub, rxn), w) + Withdrawals(AssayRig, samples, w)
  {
    var p1: seq<Cmd> := [Pause(ConfirmDeck)];
    var p2: seq<Cmd> := [Pause(checkMsg)];
    var t1 := p1 + fill;
    var t2 := t1 + lysate;
    var t3 := t2 + BufferAdd(bufferCol);
    var t4 := t3 + p2;
    var t5 := t4 + SubstrateAdd(sub, rxn);
    assert AssayTrace(fill, lysate, bufferCol, checkMsg, sub, rxn, samples) == t5 + samples;
    assert Withdrawals(AssayRig, t1, w) == Withdrawals(AssayRig, fill, w) by {
      PauseMovesNothing(ConfirmDeck, w);
      FlowsAppend(AssayRig, p1, fill, w);
    }
    assert Withdrawals(AssayRig, t2, w) == Withdrawals(AssayRig, fill, w) + Withdrawals(AssayRig, lysate, w) by {
      FlowsAppend(AssayRig, t1, lysate, w);
    }
    assert Withdrawals(AssayRig, t3, w)
           == Withdrawals(AssayRig, fill, w) + Withdrawals(AssayRig, lysate, w) + Withdrawals(AssayRig, BufferAdd(bufferCol), w) by {
      FlowsAppend(AssayRig, t2, BufferAdd(bufferCol), w);
    }
    assert Withdrawals(AssayRig, t4, w) == Withdrawals(AssayRig, t3, w) by {
      PauseMovesNothing(checkMsg, w);
      FlowsAppend(AssayRig, t3, p2, w);
    }
    assert Withdrawals(AssayRig, t5, w) == Withdrawals(AssayRig, t3, w) + Withdrawals(AssayRig, SubstrateAdd(sub, rxn), w) by {
      FlowsAppend(AssayRig, t4, SubstrateAdd(sub, rxn), w);
    }
    FlowsAppend(AssayRig, t5, samples, w);
  }

  /** The pre-fill neither delivers to nor draws from the reaction plate. */
  lemma QuenchFillSkipsReactionPlate(cols: nat, w: Loc)
    requires w.Well? && w.lw == ReactionPlate
    ensures Deliveries(AssayRig, QuenchFill(cols), w) == [] && Withdrawals(AssayRig, QuenchFill(cols), w) == []
  {
    QuenchFillDeliveries(cols, w);
    QuenchFillWithdrawals(cols, w);
  }

  /** At any reaction-plate well `w`, with a pre-fill that leaves it
      alone, the whole assay delivers whatever the
      lysate phase does, then the reaction buffer if `w` is in the buffer
      column and the substrate if it is in the reaction column. */
  lemma AssayDeliveriesAtReactionWell(fill: seq<Cmd>, lysate: seq<Cmd>, bufferCol: nat, checkMsg: string, subCol: nat, rxnCol: nat,
                                      delays: seq<nat>, n: nat, w: Loc)
    requires w.Well? && w.lw == ReactionPlate && w.row < PlateRows
    requires Deliveries(AssayRig, fill, w) == []
    ensures Deliveries(AssayRig, AssayTrace(fill, lysate, bufferCol, checkMsg, Well(ReactionPlate, subCol, 0), Well(ReactionPlate, rxnCol, 0),
                                            Loop(0, n, Sample(delays, Well(ReactionPlate, rxnCol, 0)))), w)
            == Deliveries(AssayRig, lysate, w) + (if w.col == bufferCol then [240] else []) + (if w.col == rxnCol then [30] else [])
  {
    var sub := Well(ReactionPlate, subCol, 0);
    var rxn := Well(ReactionPlate, rxnCol, 0);
    var samples := Loop(0, n, Sample(delays, rxn));
    var l := Deliveries(AssayRig, lysate, w);
    var b := Deliveries(AssayRig, BufferAdd(bufferCol), w);
    var c := Deliveries(AssayRig, SubstrateAdd(sub, rxn), w);
    var tr := AssayTrace(fill, lysate, bufferCol, checkMsg, sub, rxn, samples);
    assert Deliveries(AssayRig, tr, w) == l + b + c by {
      AssayDeliveriesSplit(fill, lysate, bufferCol, checkMsg, sub, rxn, samples, w);
      assert Deliveries(AssayRig, samples, w) == [] by {
        TimepointDeliveries(delays, n, rxn, w);
      }
      DropEmpty([], l, b, c, []);
    }
    assert b == if w.col == bufferCol then [240] else [] by {
      BufferAddFlows(bufferCol, w);
    }
    assert c == if w.col == rxnCol then [30] else [] by {
      SubstrateAddFlows(subCol, rxnCol, w);
    }
  }

  /** From a reaction-plate well `w` outside the substrate column, with a
      pre-fill that leaves it alone, the whole assay draws whatever the
      lysate phase draws and then one 25 µL sample per timepoint if `w` is
      in the reaction column. */
  lemma AssayWithdrawalsAtReactionWell(fill: seq<Cmd>, lysate: seq<Cmd>, bufferCol: nat, checkMsg: string, subCol: nat, rxnCol: nat,
                                       delays: seq<nat>, n: nat, w: Loc)
    requires w.Well? && w.lw == ReactionPlate && w.row < PlateRows && w.col != subCol
    requires Withdrawals(AssayRig, fill, w) == []
    ensures Withdrawals(AssayRig, AssayTrace(fill, lysate, bufferCol, checkMsg, Well(ReactionPlate, subCol, 0), Well(ReactionPlate, rxnCol, 0),
                                             Loop(0, n, Sample(delays, Well(ReactionPlate, rxnCol, 0)))), w)
            == Withdrawals(AssayRig, lysate, w) + (if w.col == rxnCol then Repeat(25, n) else [])
  {
    var sub := Well(ReactionPlate, subCol, 0);
    var rxn := Well(ReactionPlate, rxnCol, 0);
    var samples := Loop(0, n, Sample(delays, rxn));
    var l := Withdrawals(AssayRig, lysate, w);
    var d := Withdrawals(AssayRig, samples, w);
    var tr := AssayTrace(fill, lysate, bufferCol, checkMsg, sub, rxn, samples);
    assert Withdrawals(AssayRig, tr, w) == l + d by {
      AssayWithdrawalsSplit(fill, lysate, bufferCol, checkMsg, sub, rxn, samples, w);
      assert Withdrawals(AssayRig, BufferAdd(bufferCol), w) == [] by {
        BufferAddFlows(bufferCol, w);
      }
      assert Withdrawals(AssayRig, SubstrateAdd(sub, rxn), w) == [] by {
        SubstrateAddFlows(subCol, rxnCol, w);
      }
      DropEmpty([], l, [], [], d);
    }
    assert d == if w.col == rxnCol then Repeat(25, n) else [] by {
      TimepointWithdrawals(delays, n, rxn, w);
    }
  }
}

=== FILE: deck.dfy ===
/** The labware table of Quenching10TP-C3694.py (`LDef` entries) and the
    `deckRefs` resolver built from it, plus the slot-validity predicate the
    other protocols' fixed `load_labware` slots are checked against. */
module Deck {

  /** Usable deck slots on an OT-2; slot 12 is the fixed trash. */
  const Ot2DeckSlots := 11

  /** One deck slot definition: slot number, labware type name, in-use flag. */
  datatype LDef = LDef(slot: int, name: string, used: bool)

  /** An entry of `deckRefs`: the "\0" marker of an unused slot, or the
      labware that `load_labware(name, slot)` returned. */
  datatype DeckRef = Sentinel | Loaded(name: string, slot: int)

  /** `deckRefs`: a sentinel at index 0, then one entry per table row in
      order, loaded when the row is in use and the sentinel otherwise. */
  function DeckRefs(deckLabware: seq<LDef>): (refs: seq<DeckRef>)
    ensures |refs| == |deckLabware| + 1
    ensures refs[0] == Sentinel
    ensures forall k :: 1 <= k < |refs| ==> (refs[k].Loaded? <==> deckLabware[k - 1].used)
    ensures forall k :: 1 <= k < |refs| && refs[k].Loaded? ==>
              refs[k] == Loaded(deckLabware[k - 1].name, deckLabware[k - 1].slot)
  {
    if |deckLabware| == 0 then [Sentinel]
    else
      var e := deckLabware[|deckLabware| - 1];
      DeckRefs(deckLabware[..|deckLabware| - 1]) + [if e.used then Loaded(e.name, e.slot) else Sentinel]
  }

  /** Every slot number lies on the deck and no slot is named twice. */
  predicate SlotsDistinctInRange(deck: seq<LDef>)
  {
    && (forall i :: 0 <= i < |deck| ==> 1 <= deck[i].slot <= Ot2DeckSlots)
    && (forall i, j :: 0 <= i < j < |deck| ==> deck[i].slot != deck[j].slot)
  }

  /** The table lists slots in order: entry i describes slot i + 1. */
  predicate SlotIndexed(deck: seq<LDef>)
  {
    |deck| <= Ot2DeckSlots && forall i :: 0 <= i < |deck| ==> deck[i].slot == i + 1
  }

  /** For a slot-indexed table the slots are valid and distinct, and
      `deckRefs[s]` is the labware of slot s itself (or the sentinel). */
  lemma SlotIndexedResolves(deck: seq<LDef>)
    requires SlotIndexed(deck)
    ensures SlotsDistinctInRange(deck)
    ensures forall s :: 1 <= s <= |deck| ==>
              DeckRefs(deck)[s] == if deck[s - 1].used then Loaded(deck[s - 1].name, s) else Sentinel
  {
  }

  /** No two loaded entries of `deckRefs` occupy the same slot, whenever the
      table's slots are distinct. */
  lemma LoadedSlotsDistinct(deck: seq<LDef>)
    requires SlotsDistinctInRange(deck)
    ensures forall k1, k2 :: 1 <= k1 < k2 < |DeckRefs(deck)| && DeckRefs(deck)[k1].Loaded? && DeckRefs(deck)[k2].Loaded?
              ==> DeckRefs(deck)[k1].slot != DeckRefs(deck)[k2].slot
  {
    var refs := DeckRefs(deck);
    forall k1, k2 | 1 <= k1 < k2 < |refs| && refs[k1].Loaded? && refs[k2].Loaded?
      ensures refs[k1].slot != refs[k2].slot
    {
      assert refs[k1].slot == deck[k1 - 1].slot && refs[k2].slot == deck[k2 - 1].slot;
    }
  }

  /** The deck table of Quenching10TP-C3694.py. */
  function C3694Deck(): seq<LDef>
  {
    [ LDef(1, "corning_96_wellplate_halfarea_190ul_flat", true),
      LDef(2, "", false),
      LDef(3, "", false),
      LDef(4, "opentrons_10_tuberack_falcon_4x50ml_6x15ml_conical", true),
      LDef(5, "opentrons_24_tuberack_eppendorf_1.5ml_safelock_snapcap", true),
      LDef(6, "", false),
      LDef(7, "", false),
      LDef(8, "", false),
      LDef(9, "", false),
      LDef(10, "opentrons_96_tiprack_300ul", true),
      LDef(11, "opentrons_96_tiprack_1000ul", true) ]
  }

  /** The table fills the whole deck in slot order. */
  lemma C3694DeckSlotIndexed()
    ensures |C3694Deck()| == Ot2DeckSlots && SlotIndexed(C3694Deck())
  {
  }

  /** The readability names (tip racks in 10 and 11, tube racks in 5 and 4,
      the plate in 1) all resolve to loaded labware of their own slot. */
  lemma C3694NamedLookups()
    ensures DeckRefs(C3694Deck())[10] == Loaded("opentrons_96_tiprack_300ul", 10)
    ensures DeckRefs(C3694Deck())[11] == Loaded("opentrons_96_tiprack_1000ul", 11)
    ensures DeckRefs(C3694Deck())[5] == Loaded("opentrons_24_tuberack_eppendorf_1.5ml_safelock_snapcap", 5)
    ensures DeckRefs(C3694Deck())[4] == Loaded("opentrons_10_tuberack_falcon_4x50ml_6x15ml_conical", 4)
    ensures DeckRefs(C3694Deck())[1] == Loaded("corning_96_wellplate_halfarea_190ul_flat", 1)
  {
    SlotIndexedResolves(C3694Deck());
  }
}

=== FILE: labels.dfy ===
/** Free-text reaction-well descriptions such as "A1 E+ S+ rep1" and the
    substring test the protocols branch on. */
module Labels {

  /** `needle` is a prefix of `hay`, compared character by character. */
  predicate StartsWith(hay: string, needle: string)
    decreases |needle|
  {
    |needle| == 0 || (|hay| > 0 && needle[0] == hay[0] && StartsWith(hay[1..], needle[1..]))
  }

  /** Python's `needle in hay` on strings, as a left-to-right scan: the
      needle is a prefix here or occurs further on. */
  predicate Contains(hay: string, needle: string)
    decreases |hay|
  {
    StartsWith(hay, needle) || (|hay| > 0 && Contains(hay[1..], needle))
  }

  /** The positional definition of a substring occurrence. */
  ghost predicate OccursAt(hay: string, needle: string, i: nat)
  {
    i + |needle| <= |hay| && hay[i..i + |needle|] == needle
  }

  lemma {:induction false} StartsWithIffPrefix(hay: string, needle: string)
    ensures StartsWith(hay, needle) <==> OccursAt(hay, needle, 0)
    decreases |needle|
  {
    if |needle| > 0 && |hay| > 0 {
      StartsWithIffPrefix(hay[1..], needle[1..]);
      if |needle| <= |hay| {
        assert hay[..|needle|] == [hay[0]] + hay[1..][..|needle| - 1];
        assert needle == [needle[0]] + needle[1..];
      }
    }
  }

  /** The scan agrees with the positional definition, in both directions. */
  lemma {:induction false} ContainsIffOccurs(hay: string, needle: string)
    ensures Contains(hay, needle) <==> exists i: nat :: OccursAt(hay, needle, i)
    decreases |hay|
  {
    StartsWithIffPrefix(hay, needle);
    if |hay| > 0 {
      ContainsIffOccurs(hay[1..], needle);
      if Contains(hay[1..], needle) {
        var i: nat :| OccursAt(hay[1..], needle, i);
        assert hay[i + 1..i + 1 + |needle|] == hay[1..][i..i + |needle|];
        assert OccursAt(hay, needle, i + 1);
      }
      if exists i: nat :: OccursAt(hay, needle, i) {
        var i: nat :| OccursAt(hay, needle, i);
        if i > 0 {
          assert hay[1..][i - 1..i - 1 + |needle|] == hay[i..i + |needle|];
          assert OccursAt(hay[1..], needle, i - 1);
        }
      }
    } else {
      if exists i: nat :: OccursAt(hay, needle, i) {
        var i: nat :| OccursAt(hay, needle, i);
        assert i == 0;
      }
    }
  }

  /** A description marks an enzyme-present well when it contains "E+". */
  predicate EnzymePresent(desc: string)
  {
    Contains(desc, "E+")
  }

  /** Descriptions of the form "X1 E+ ..." are enzyme-present. */
  lemma PlusDescription(desc: string)
    requires |desc| >= 5 && desc[3] == 'E' && desc[4] == '+'
    ensures EnzymePresent(desc)
  {
    ContainsIffOccurs(desc, "E+");
    assert desc[3..5] == "E+";
    assert OccursAt(desc, "E+", 3);
  }

  /** Descriptions of the form "X1 E- ..." with no other capital E are not. */
  lemma MinusDescription(desc: string)
    requires |desc| >= 5 && desc[3] == 'E' && desc[4] == '-'
    requires 'E' !in desc[..3] && 'E' !in desc[5..]
    ensures !EnzymePresent(desc)
  {
    ContainsIffOccurs(desc, "E+");
  }
}

=== FILE: pipetting.dfy ===
/** Abstract pipetting commands as the protocols issue them to the vendor
    runtime, the has-tip / volume-held state machine each pipette follows,
    and per-well accounting of the liquid the commands move. Motion, flow
    rates, offsets and liquid physics are not modelled. */
module Pipetting {
  import opened Wrappers

  /** Every protocol loads one pipette on each mount. */
  datatype Mount = Left | Right

  function Other(m: Mount): Mount
  {
    if m == Left then Right else Left
  }

  /** A loaded pipette model: its channel count and maximum volume in µL. */
  datatype Instrument = Instrument(model: string, channels: nat, maxVolume: nat)

  datatype Rig = Rig(left: Instrument, right: Instrument) {
    function On(m: Mount): Instrument
    {
      if m == Left then left else right
    }
  }

  /** A labware item loaded into a deck slot. */
  datatype Labware = Labware(name: string, slot: nat)

  /** Rows of the 96-well plates the multi-channel pipettes work on. */
  const PlateRows := 8

  /** Where a pipette is aimed: a well by 0-based column and row, a whole
      column used as a list of destination wells, or a named tube. */
  datatype Loc =
    | Well(lw: Labware, col: nat, row: nat)
    | Column(lw: Labware, col: nat)
    | Tube(lw: Labware, name: string)

  /** A single well, as one entry of `wells()` or `columns()[c]` is. */
  type WellLoc = l: Loc | l.Well? witness Well(Labware("", 0), 0, 0)

  /** Position `k` of a plate's `wells()` list, which runs down each column
      before moving to the next one. */
  function WellAt(lw: Labware, rows: nat, k: nat): (w: Loc)
    requires rows > 0
    ensures w.Well? && w.lw == lw && w.row < rows
    ensures w.col * rows + w.row == k
  {
    Well(lw, k / rows, k % rows)
  }

  /** The `new_tip` argument of a transfer. */
  datatype TipPolicy = Never | Once

  /** The vendor calls the protocols make, as uninterpreted trace entries.
      `pick_up_tip()` takes the rack's next tip; `pick_up_tip(rack['A1'])`
      names the rack well the tip comes from. */
  datatype Cmd =
    | PickUp(m: Mount)
    | PickUpAt(m: Mount, tip: Loc)
    | Drop(m: Mount)
    | ReturnTip(m: Mount)
    | Aspirate(m: Mount, vol: nat, loc: Loc)
    | Dispense(m: Mount, vol: nat, loc: Loc)
    | BlowOut(m: Mount, loc: Loc)
    | Mix(m: Mount, reps: nat, vol: nat)
    | Transfer(m: Mount, vol: nat, src: Loc, dst: Loc, newTip: TipPolicy)
    | Delay(centis: nat)
    | Pause(msg: string)
  {
    predicate UsesPipette()
    {
      !(Delay? || Pause?)
    }

    /** Commands that the vendor refuses unless a tip is attached. */
    predicate NeedsTip()
    {
      Drop? || ReturnTip? || Aspirate? || Dispense? || BlowOut? || Mix? || (Transfer? && newTip == Never)
    }
  }

  /** Whether a tip is attached and how much liquid (µL) it holds. */
  datatype PipState = PipState(hasTip: bool, held: nat)

  const Bare := PipState(false, 0)
  const Fresh := PipState(true, 0)

  datatype State = State(left: PipState, right: PipState) {
    function Get(m: Mount): PipState
    {
      if m == Left then left else right
    }

    function Set(m: Mount, p: PipState): (r: State)
      ensures r.Get(m) == p && r.Get(Other(m)) == Get(Other(m))
    {
      if m == Left then this.(left := p) else this.(right := p)
    }
  }

  /** Neither pipette holds a tip. */
  const Idle := State(Bare, Bare)

  /** Why the vendor runtime refuses a command. */
  datatype Reason = TipAttached | NoTip | OverCapacity | NotEnoughLiquid

  /** Why a protocol run stops: an out-of-range list index in the script, or
      a command the vendor runtime refuses. */
  datatype Failure = IndexError(index: nat) | Fault(cmd: Cmd, reason: Reason)

  /** One command of the state machine. A transfer with new_tip='never'
      works with the attached tip and leaves it attached; with 'once' it
      picks up its own tip and discards it at the end, so it needs a bare
      pipette and leaves one. */
  function Step(rig: Rig, s: State, c: Cmd): (r: Result<State, Reason>)
    ensures !c.UsesPipette() ==> r == Ok(s)
    ensures c.UsesPipette() && r.Ok? ==> r.value.Get(Other(c.m)) == s.Get(Other(c.m))
    ensures (c.PickUp? || c.PickUpAt?) ==> (r.Ok? <==> !s.Get(c.m).hasTip)
    ensures (c.PickUp? || c.PickUpAt?) && r.Ok? ==> r.value.Get(c.m) == Fresh
    ensures c.UsesPipette() && c.NeedsTip() && r.Ok? ==> s.Get(c.m).hasTip
    ensures (c.Drop? || c.ReturnTip?) ==> (r.Ok? <==> s.Get(c.m).hasTip)
    ensures (c.Drop? || c.ReturnTip?) && r.Ok? ==> r.value.Get(c.m) == Bare
    ensures c.Aspirate? && r.Ok? ==> s.Get(c.m).held + c.vol <= rig.On(c.m).maxVolume
    ensures c.Dispense? && r.Ok? ==> c.vol <= s.Get(c.m).held
    ensures c.Transfer? && c.newTip == Once ==> (r.Ok? <==> !s.Get(c.m).hasTip)
  {
    match c
    case PickUp(m) =>
      if s.Get(m).hasTip then Err(TipAttached) else Ok(s.Set(m, Fresh))
    case PickUpAt(m, _) =>
      if s.Get(m).hasTip then Err(TipAttached) else Ok(s.Set(m, Fresh))
    case Drop(m) =>
      if !s.Get(m).hasTip then Err(NoTip) else Ok(s.Set(m, Bare))
    case ReturnTip(m) =>
      if !s.Get(m).hasTip then Err(NoTip) else Ok(s.Set(m, Bare))
    case Aspirate(m, v, _) =>
      var p := s.Get(m);
      if !p.hasTip then Err(NoTip)
      else if p.held + v > rig.On(m).maxVolume then Err(OverCapacity)
      else Ok(s.Set(m, PipState(true, p.held + v)))
    case Dispense(m, v, _) =>
      var p := s.Get(m);
      if !p.hasTip then Err(NoTip)
      else if v > p.held then Err(NotEnoughLiquid)
      else Ok(s.Set(m, PipState(true, p.held - v)))
    case BlowOut(m, _) =>
      if !s.Get(m).hasTip then Err(NoTip) else Ok(s.Set(m, Fresh))
    case Mix(m, _, v) =>
      var p := s.Get(m);
      if !p.hasTip then Err(NoTip)
      else if p.held + v > rig.On(m).maxVolume then Err(OverCapacity)
      else Ok(s)
    case Transfer(m, _, _, _, newTip) =>
      if newTip == Never then
        if !s.Get(m).hasTip then Err(NoTip) else Ok(s)
      else
        if s.Get(m).hasTip then Err(TipAttached) else Ok(s)
    case Delay(_) => Ok(s)
    case Pause(_) => Ok(s)
  }

  /** Runs a command sequence; the first refused command stops the run. */
  function Execute(rig: Rig, s: State, cmds: seq<Cmd>): (r: Result<State, Failure>)
    ensures r.Err? ==> r.error.Fault? && r.error.cmd in cmds
    decreases |cmds|
  {
    if |cmds| == 0 then Ok(s)
    else
      match Step(rig, s, cmds[0])
      case Err(why) => Err(Fault(cmds[0], why))
      case Ok(next) => Execute(rig, next, cmds[1..])
  }

  /** Running a concatenation runs the first part, then the second from
      where the first left off. */
  lemma {:induction false} ExecuteAppend(rig: Rig, s: State, a: seq<Cmd>, b: seq<Cmd>)
    ensures Execute(rig, s, a + b) ==
            (match Execute(rig, s, a)
             case Ok(t) => Execute(rig, t, b)
             case Err(e) => Err(e))
    decreases |a|
  {
    if |a| == 0 {
      assert a + b == b;
    } else {
      assert (a + b)[0] == a[0];
      assert (a + b)[1..] == a[1..] + b;
      match Step(rig, s, a[0])
      case Err(_) =>
      case Ok(next) => ExecuteAppend(rig, next, a[1..], b);
    }
  }

  lemma ExecuteChain(rig: Rig, s: State, a: seq<Cmd>, t: State, b: seq<Cmd>, u: State)
    requires Execute(rig, s, a) == Ok(t) && Execute(rig, t, b) == Ok(u)
    ensures Execute(rig, s, a + b) == Ok(u)
  {
    ExecuteAppend(rig, s, a, b);
  }

  /** Picking up a named tip on a bare pipette attaches a fresh tip. */
  lemma PickUpAtRuns(rig: Rig, s: State, m: Mount, tip: Loc)
    requires !s.Get(m).hasTip
    ensures Execute(rig, s, [PickUpAt(m, tip)]) == Ok(s.Set(m, Fresh))
  {
    assert [PickUpAt(m, tip)][1..] == [];
  }

  /** Phases that move nothing drop out of a five-phase volume list. */
  lemma DropEmpty(a: seq<nat>, b: seq<nat>, c: seq<nat>, d: seq<nat>, e: seq<nat>)
    ensures a == [] && e == [] ==> a + b + c + d + e == b + c + d
    ensures a == [] && c == [] && d == [] ==> a + b + c + d + e == b + e
    ensures d == [] && e == [] ==> a + b + c + d + e == a + b + c
    ensures b == [] && c == [] && d == [] ==> a + b + c + d + e == a + e
  {
  }

  /** The trace of `for k in range(lo, hi): body(k)`. */
  function Loop(lo: nat, hi: nat, body: nat -> seq<Cmd>): seq<Cmd>
    decreases hi - lo
  {
    if lo >= hi then [] else body(lo) + Loop(lo + 1, hi, body)
  }

  /** A loop whose every iteration returns the machine to `s` does so too. */
  lemma {:induction false} LoopNeutral(rig: Rig, s: State, lo: nat, hi: nat, body: nat -> seq<Cmd>)
    requires forall k :: lo <= k < hi ==> Execute(rig, s, body(k)) == Ok(s)
    ensures Execute(rig, s, Loop(lo, hi, body)) == Ok(s)
    decreases hi - lo
  {
    if lo < hi {
      LoopNeutral(rig, s, lo + 1, hi, body);
      ExecuteChain(rig, s, body(lo), s, Loop(lo + 1, hi, body), s);
    }
  }

  /** `pick_up_tip()`, the block, `drop_tip()`. */
  function WithTip(m: Mount, body: seq<Cmd>): seq<Cmd>
  {
    [PickUp(m)] + body + [Drop(m)]
  }

  /** A block that keeps its fresh tip runs on a bare pipette and leaves
      the pipette bare again. */
  lemma WithTipRuns(rig: Rig, s: State, m: Mount, body: seq<Cmd>)
    requires !s.Get(m).hasTip
    requires Execute(rig, s.Set(m, Fresh), body) == Ok(s.Set(m, Fresh))
    ensures Execute(rig, s, WithTip(m, body)) == Ok(s.Set(m, Bare))
  {
    var t := s.Set(m, Fresh);
    assert Execute(rig, s, [PickUp(m)]) == Ok(t);
    assert Execute(rig, t, [Drop(m)]) == Ok(t.Set(m, Bare));
    assert t.Set(m, Bare) == s.Set(m, Bare);
    ExecuteChain(rig, s, [PickUp(m)], t, body, t);
    ExecuteChain(rig, s, [PickUp(m)] + body, t, [Drop(m)], s.Set(m, Bare));
  }

  /** With a tip already attached the pick-up is refused and nothing runs. */
  lemma WithTipRefused(rig: Rig, s: State, m: Mount, body: seq<Cmd>)
    requires s.Get(m).hasTip
    ensures Execute(rig, s, WithTip(m, body)) == Err(Fault(PickUp(m), TipAttached))
  {
    assert WithTip(m, body) == [PickUp(m)] + (body + [Drop(m)]);
    ExecuteAppend(rig, s, [PickUp(m)], body + [Drop(m)]);
  }

  /** Picking up and dropping a tip moves no liquid. */
  lemma WithTipFlows(rig: Rig, m: Mount, body: seq<Cmd>, w: Loc)
    ensures Deliveries(rig, WithTip(m, body), w) == Deliveries(rig, body, w)
    ensures Withdrawals(rig, WithTip(m, body), w) == Withdrawals(rig, body, w)
  {
    FlowsSingle(rig, PickUp(m), w);
    FlowsSingle(rig, Drop(m), w);
    FlowsAppend(rig, [PickUp(m)], body, w);
    FlowsAppend(rig, [PickUp(m)] + body, [Drop(m)], w);
  }

  /** A tip block adds exactly one pick-up and one drop on its mount. */
  lemma WithTipTips(m: Mount, body: seq<Cmd>)
    ensures multiset(WithTip(m, body))[PickUp(m)] == multiset(body)[PickUp(m)] + 1
    ensures multiset(WithTip(m, body))[Drop(m)] == multiset(body)[Drop(m)] + 1
  {
    assert multiset(WithTip(m, body)) == multiset([PickUp(m)]) + multiset(body) + multiset([Drop(m)]);
  }

  // ---------------------------------------------------------------------
  // One aspirate followed by dispenses and a blow-out

  predicate DispensesBy(m: Mount, ds: seq<Cmd>)
  {
    forall i :: 0 <= i < |ds| ==> ds[i].Dispense? && ds[i].m == m
  }

  function DispensedVolume(ds: seq<Cmd>): nat
  {
    if |ds| == 0 then 0
    else (if ds[0].Dispense? then ds[0].vol else 0) + DispensedVolume(ds[1..])
  }

  /** A run of dispenses succeeds exactly when the tip holds enough liquid
      for all of them, and leaves the rest in the tip. */
  lemma {:induction false} DispenseRun(rig: Rig, s: State, m: Mount, ds: seq<Cmd>)
    requires DispensesBy(m, ds) && s.Get(m).hasTip
    ensures Execute(rig, s, ds).Ok? <==> DispensedVolume(ds) <= s.Get(m).held
    ensures Execute(rig, s, ds).Ok? ==>
              Execute(rig, s, ds).value == s.Set(m, PipState(true, s.Get(m).held - DispensedVolume(ds)))
    decreases |ds|
  {
    if |ds| == 0 {
      assert s.Set(m, PipState(true, s.Get(m).held)) == s;
    } else {
      var p := s.Get(m);
      if ds[0].vol <= p.held {
        var next := s.Set(m, PipState(true, p.held - ds[0].vol));
        assert Step(rig, s, ds[0]) == Ok(next);
        assert DispensesBy(m, ds[1..]);
        DispenseRun(rig, next, m, ds[1..]);
        if DispensedVolume(ds[1..]) <= next.Get(m).held {
          assert next.Set(m, PipState(true, next.Get(m).held - DispensedVolume(ds[1..])))
              == s.Set(m, PipState(true, p.held - DispensedVolume(ds)));
        }
      }
    }
  }

  lemma {:induction false} DispensedVolumeAppend(a: seq<Cmd>, b: seq<Cmd>)
    ensures DispensedVolume(a + b) == DispensedVolume(a) + DispensedVolume(b)
    decreases |a|
  {
    if |a| == 0 {
      assert a + b == b;
    } else {
      assert (a + b)[0] == a[0];
      assert (a + b)[1..] == a[1..] + b;
      DispensedVolumeAppend(a[1..], b);
    }
  }

  lemma DispensesByAppend(m: Mount, a: seq<Cmd>, b: seq<Cmd>)
    requires DispensesBy(m, a) && DispensesBy(m, b)
    ensures DispensesBy(m, a + b)
  {
    forall i | 0 <= i < |a + b|
      ensures (a + b)[i].Dispense? && (a + b)[i].m == m
    {
      if i < |a| { assert (a + b)[i] == a[i]; } else { assert (a + b)[i] == b[i - |a|]; }
    }
  }

  /** A loop of iterations that each issue only dispenses by `m` issues
      only dispenses by `m`. */
  lemma {:induction false} LoopDispensesBy(m: Mount, lo: nat, hi: nat, body: nat -> seq<Cmd>)
    requires forall k :: lo <= k < hi ==> DispensesBy(m, body(k))
    ensures DispensesBy(m, Loop(lo, hi, body))
    decreases hi - lo
  {
    if lo < hi {
      LoopDispensesBy(m, lo + 1, hi, body);
      DispensesByAppend(m, body(lo), Loop(lo + 1, hi, body));
    }
  }

  /** A loop of iterations that each dispense `v` in total dispenses `v`
      times the iteration count. */
  lemma {:induction false} LoopDispensed(v: nat, lo: nat, hi: nat, body: nat -> seq<Cmd>)
    requires lo <= hi
    requires forall k :: lo <= k < hi ==> DispensedVolume(body(k)) == v
    ensures DispensedVolume(Loop(lo, hi, body)) == v * (hi - lo)
    decreases hi - lo
  {
    if lo < hi {
      LoopDispensed(v, lo + 1, hi, body);
      DispensedVolumeAppend(body(lo), Loop(lo + 1, hi, body));
      assert v * (hi - lo) == v + v * (hi - (lo + 1));
    }
  }

  /** The loop body the protocols repeat: draw `v` from `src`, dispense,
      blow the remainder out at `dst`. */
  function DrawAndDispense(m: Mount, v: nat, src: Loc, ds: seq<Cmd>, dst: Loc): seq<Cmd>
  {
    [Aspirate(m, v, src)] + ds + [BlowOut(m, dst)]
  }

  /** Volume budget: the block runs exactly when the aspirate fits the
      pipette and covers every dispense; it ends with an empty tip. */
  /** Dispensing and then blowing out succeeds exactly when the tip holds
      enough for the dispenses, and ends with an empty tip. */
  lemma DispenseThenBlowOut(rig: Rig, t: State, m: Mount, ds: seq<Cmd>, dst: Loc)
    requires DispensesBy(m, ds) && t.Get(m).hasTip
    ensures Execute(rig, t, ds + [BlowOut(m, dst)]).Ok? <==> DispensedVolume(ds) <= t.Get(m).held
    ensures Execute(rig, t, ds + [BlowOut(m, dst)]).Ok? ==> Execute(rig, t, ds + [BlowOut(m, dst)]).value == t.Set(m, Fresh)
  {
    ExecuteAppend(rig, t, ds, [BlowOut(m, dst)]);
    DispenseRun(rig, t, m, ds);
    if DispensedVolume(ds) <= t.Get(m).held {
      var u := t.Set(m, PipState(true, t.Get(m).held - DispensedVolume(ds)));
      assert Execute(rig, u, [BlowOut(m, dst)]) == Ok(u.Set(m, Fresh));
      assert u.Set(m, Fresh) == t.Set(m, Fresh);
    }
  }

  lemma AspirateBudget(rig: Rig, s: State, m: Mount, v: nat, src: Loc, ds: seq<Cmd>, dst: Loc)
    requires DispensesBy(m, ds) && s.Get(m) == Fresh
    ensures Execute(rig, s, DrawAndDispense(m, v, src, ds, dst)).Ok? <==>
              v <= rig.On(m).maxVolume && DispensedVolume(ds) <= v
    ensures Execute(rig, s, DrawAndDispense(m, v, src, ds, dst)).Ok? ==>
              Execute(rig, s, DrawAndDispense(m, v, src, ds, dst)).value == s
  {
    var draw: seq<Cmd> := [Aspirate(m, v, src)];
    var rest := ds + [BlowOut(m, dst)];
    assert DrawAndDispense(m, v, src, ds, dst) == draw + rest;
    ExecuteAppend(rig, s, draw, rest);
    if v <= rig.On(m).maxVolume {
      var t := s.Set(m, PipState(true, v));
      assert Execute(rig, s, draw) == Ok(t);
      DispenseThenBlowOut(rig, t, m, ds, dst);
      assert t.Set(m, Fresh) == s;
    } else {
      assert Execute(rig, s, draw).Err?;
    }
  }

  // ---------------------------------------------------------------------
  // Per-well accounting

  /** Whether a command aimed at `at` by `inst` reaches well `w`. A
      multi-channel pipette aimed at row r of an 8-row plate reaches rows
      r..7 of that column; a column used as a destination list stands for
      its eight wells. */
  predicate Covers(inst: Instrument, at: Loc, w: Loc)
  {
    match at
    case Well(lw, c, r) =>
      if inst.channels <= 1 then w == at
      else w.Well? && w.lw == lw && w.col == c && r <= w.row < PlateRows && w.row < r + inst.channels
    case Column(lw, c) => w.Well? && w.lw == lw && w.col == c && w.row < PlateRows
    case Tube(_, _) => w == at
  }

  /** Volume the command adds to `w`, as a list of zero or one entry. */
  function Delivered(rig: Rig, c: Cmd, w: Loc): seq<nat>
  {
    match c
    case Dispense(m, v, loc) => if Covers(rig.On(m), loc, w) then [v] else []
    case Transfer(m, v, _, dst, _) => if Covers(rig.On(m), dst, w) then [v] else []
    case _ => []
  }

  /** What one transfer draws from its source: `v` once per destination
      well, so eight times when the destination is a whole column. */
  function Draws(v: nat, dst: Loc): seq<nat>
  {
    if dst.Column? then Repeat(v, PlateRows) else [v]
  }

  /** Volumes the command draws from `w`, in the order drawn. */
  function Withdrawn(rig: Rig, c: Cmd, w: Loc): seq<nat>
  {
    match c
    case Aspirate(m, v, loc) => if Covers(rig.On(m), loc, w) then [v] else []
    case Transfer(m, v, src, dst, _) => if Covers(rig.On(m), src, w) then Draws(v, dst) else []
    case _ => []
  }

  /** The volumes delivered into `w`, in trace order. */
  function Deliveries(rig: Rig, cmds: seq<Cmd>, w: Loc): seq<nat>
    decreases |cmds|
  {
    if |cmds| == 0 then [] else Delivered(rig, cmds[0], w) + Deliveries(rig, cmds[1..], w)
  }

  /** The volumes drawn from `w`, in trace order. */
  function Withdrawals(rig: Rig, cmds: seq<Cmd>, w: Loc): seq<nat>
    decreases |cmds|
  {
    if |cmds| == 0 then [] else Withdrawn(rig, cmds[0], w) + Withdrawals(rig, cmds[1..], w)
  }

  lemma FlowsSingle(rig: Rig, c: Cmd, w: Loc)
    ensures Deliveries(rig, [c], w) == Delivered(rig, c, w)
    ensures Withdrawals(rig, [c], w) == Withdrawn(rig, c, w)
  {
    assert [c][1..] == [];
  }

  lemma {:induction false} DeliveriesAppend(rig: Rig, a: seq<Cmd>, b: seq<Cmd>, w: Loc)
    ensures Deliveries(rig, a + b, w) == Deliveries(rig, a, w) + Deliveries(rig, b, w)
    decreases |a|
  {
    if |a| == 0 {
      assert a + b == b;
    } else {
      assert (a + b)[1..] == a[1..] + b;
      DeliveriesAppend(rig, a[1..], b, w);
    }
  }

  lemma {:induction false} WithdrawalsAppend(rig: Rig, a: seq<Cmd>, b: seq<Cmd>, w: Loc)
    ensures Withdrawals(rig, a + b, w) == Withdrawals(rig, a, w) + Withdrawals(rig, b, w)
    decreases |a|
  {
    if |a| == 0 {
      assert a + b == b;
    } else {
      assert (a + b)[1..] == a[1..] + b;
      WithdrawalsAppend(rig, a[1..], b, w);
    }
  }

  /** The flows of a concatenation are those of its parts, in order. */
  lemma FlowsAppend(rig: Rig, a: seq<Cmd>, b: seq<Cmd>, w: Loc)
    ensures Deliveries(rig, a + b, w) == Deliveries(rig, a, w) + Deliveries(rig, b, w)
    ensures Withdrawals(rig, a + b, w) == Withdrawals(rig, a, w) + Withdrawals(rig, b, w)
  {
    DeliveriesAppend(rig, a, b, w);
    WithdrawalsAppend(rig, a, b, w);
  }

  /** In the dispensed and drawn ledgers, aspirate and blow-out book
      nothing: the block delivers exactly what its dispenses deliver and
      draws `v` from what `src` covers. What the blow-out returns is booked
      by `Returns`. */
  lemma DrawAndDispenseFlows(rig: Rig, m: Mount, v: nat, src: Loc, ds: seq<Cmd>, dst: Loc, w: Loc)
    ensures Deliveries(rig, DrawAndDispense(m, v, src, ds, dst), w) == Deliveries(rig, ds, w)
    ensures Withdrawals(rig, DrawAndDispense(m, v, src, ds, dst), w)
            == (if Covers(rig.On(m), src, w) then [v] else []) + Withdrawals(rig, ds, w)
  {
    FlowsAppend(rig, [Aspirate(m, v, src)], ds, w);
    FlowsAppend(rig, [Aspirate(m, v, src)] + ds, [BlowOut(m, dst)], w);
    assert Deliveries(rig, [BlowOut(m, dst)], w) == [];
    assert Withdrawals(rig, [BlowOut(m, dst)], w) == [];
  }

  // ---------------------------------------------------------------------
  // What blow-outs return

  /** Volume a command returns to `w` from state `s`: a blow-out aimed at
      `w` empties whatever the tip still holds there. */
  function Returned(rig: Rig, s: State, c: Cmd, w: Loc): seq<nat>
  {
    if c.BlowOut? && Covers(rig.On(c.m), c.loc, w) then [s.Get(c.m).held] else []
  }

  /** The volumes blown back into `w`, in trace order, up to the first
      refused command. */
  function Returns(rig: Rig, s: State, cmds: seq<Cmd>, w: Loc): seq<nat>
    decreases |cmds|
  {
    if |cmds| == 0 then []
    else
      match Step(rig, s, cmds[0])
      case Err(_) => []
      case Ok(next) => Returned(rig, s, cmds[0], w) + Returns(rig, next, cmds[1..], w)
  }

  /** The returns of a concatenation are those of the first part, then
      those of the second from where the first left off. */
  lemma {:induction false} ReturnsAppend(rig: Rig, s: State, a: seq<Cmd>, b: seq<Cmd>, w: Loc)
    ensures Returns(rig, s, a + b, w)
            == Returns(rig, s, a, w) + (match Execute(rig, s, a) case Ok(t) => Returns(rig, t, b, w) case Err(_) => [])
    decreases |a|
  {
    if |a| == 0 {
      assert a + b == b;
    } else {
      assert (a + b)[0] == a[0];
      assert (a + b)[1..] == a[1..] + b;
      match Step(rig, s, a[0])
      case Err(_) =>
      case Ok(next) => ReturnsAppend(rig, next, a[1..], b, w);
    }
  }

  /** A trace without a blow-out returns nothing. */
  lemma {:induction false} NoBlowOutReturnsNothing(rig: Rig, s: State, cmds: seq<Cmd>, w: Loc)
    requires forall i :: 0 <= i < |cmds| ==> !cmds[i].BlowOut?
    ensures Returns(rig, s, cmds, w) == []
    decreases |cmds|
  {
    if |cmds| > 0 {
      match Step(rig, s, cmds[0])
      case Err(_) =>
      case Ok(next) => NoBlowOutReturnsNothing(rig, next, cmds[1..], w);
    }
  }

  /** Dispensing within what the tip holds and then blowing out returns
      the rest to the place the blow-out is aimed at. */
  lemma BlowOutReturns(rig: Rig, t: State, m: Mount, ds: seq<Cmd>, dst: Loc, w: Loc)
    requires DispensesBy(m, ds) && t.Get(m).hasTip && DispensedVolume(ds) <= t.Get(m).held
    ensures Returns(rig, t, ds + [BlowOut(m, dst)], w)
            == if Covers(rig.On(m), dst, w) then [t.Get(m).held - DispensedVolume(ds)] else []
  {
    ReturnsAppend(rig, t, ds, [BlowOut(m, dst)], w);
    NoBlowOutReturnsNothing(rig, t, ds, w);
    DispenseRun(rig, t, m, ds);
    var u := Execute(rig, t, ds).value;
    assert Execute(rig, t, ds) == Ok(u);
    assert u.Get(m) == PipState(true, t.Get(m).held - DispensedVolume(ds));
    assert Returns(rig, u, [BlowOut(m, dst)], w) == Returned(rig, u, BlowOut(m, dst), w) by {
      assert [BlowOut(m, dst)][1..] == [];
      assert Step(rig, u, BlowOut(m, dst)) == Ok(u.Set(m, Fresh));
    }
  }

  /** Within its budget, the block blows the `v` µL it drew less what it
      dispensed back out at `dst`, and returns nothing anywhere else. */
  lemma DrawAndDispenseReturns(rig: Rig, s: State, m: Mount, v: nat, src: Loc, ds: seq<Cmd>, dst: Loc, w: Loc)
    requires DispensesBy(m, ds) && s.Get(m) == Fresh
    requires v <= rig.On(m).maxVolume && DispensedVolume(ds) <= v
    ensures Returns(rig, s, DrawAndDispense(m, v, src, ds, dst), w)
            == if Covers(rig.On(m), dst, w) then [v - DispensedVolume(ds)] else []
  {
    var draw: seq<Cmd> := [Aspirate(m, v, src)];
    var t := s.Set(m, PipState(true, v));
    assert DrawAndDispense(m, v, src, ds, dst) == draw + (ds + [BlowOut(m, dst)]);
    ReturnsAppend(rig, s, draw, ds + [BlowOut(m, dst)], w);
    assert Execute(rig, s, draw) == Ok(t);
    assert Returns(rig, s, draw, w) == [];
    BlowOutReturns(rig, t, m, ds, dst, w);
  }

  /** Picking up and dropping a tip returns nothing; the block returns
      what its body returns on the fresh tip. */
  lemma WithTipReturns(rig: Rig, s: State, m: Mount, body: seq<Cmd>, w: Loc)
    requires !s.Get(m).hasTip
    ensures Returns(rig, s, WithTip(m, body), w) == Returns(rig, s.Set(m, Fresh), body, w)
  {
    var t := s.Set(m, Fresh);
    assert WithTip(m, body) == [PickUp(m)] + (body + [Drop(m)]);
    ReturnsAppend(rig, s, [PickUp(m)], body + [Drop(m)], w);
    assert Execute(rig, s, [PickUp(m)]) == Ok(t);
    assert Returns(rig, s, [PickUp(m)], w) == [];
    ReturnsAppend(rig, t, body, [Drop(m)], w);
    match Execute(rig, t, body)
    case Err(_) =>
    case Ok(x) => NoBlowOutReturnsNothing(rig, x, [Drop(m)], w);
  }

  /** A loop whose every iteration returns the machine to `s` and blows
      `v` back into `w` (when `hit`) returns `v` once per iteration. */
  lemma {:induction false} LoopReturnsEach(rig: Rig, s: State, lo: nat, hi: nat, body: nat -> seq<Cmd>, w: Loc, hit: bool, v: nat)
    requires lo <= hi
    requires forall k :: lo <= k < hi ==> Execute(rig, s, body(k)) == Ok(s)
    requires forall k :: lo <= k < hi ==> Returns(rig, s, body(k), w) == if hit then [v] else []
    ensures Returns(rig, s, Loop(lo, hi, body), w) == if hit then Repeat(v, hi - lo) else []
    decreases hi - lo
  {
    if lo < hi {
      LoopReturnsEach(rig, s, lo + 1, hi, body, w, hit, v);
      ReturnsAppend(rig, s, body(lo), Loop(lo + 1, hi, body), w);
    }
  }

  /** A loop whose every iteration draws `v` from `w` once draws `v` once
      per iteration. */
  lemma {:induction false} LoopWithdrawsEach(rig: Rig, lo: nat, hi: nat, body: nat -> seq<Cmd>, w: Loc, v: nat)
    requires lo <= hi
    requires forall k :: lo <= k < hi ==> Withdrawals(rig, body(k), w) == [v]
    ensures Withdrawals(rig, Loop(lo, hi, body), w) == Repeat(v, hi - lo)
    decreases hi - lo
  {
    if lo < hi {
      var head, rest := body(lo), Loop(lo + 1, hi, body);
      assert Loop(lo, hi, body) == head + rest;
      LoopWithdrawsEach(rig, lo + 1, hi, body, w, v);
      WithdrawalsAppend(rig, head, rest, w);
      assert Repeat(v, hi - lo) == [v] + Repeat(v, hi - (lo + 1));
    }
  }

  /** How many k in lo..hi-1 satisfy `p`. */
  function CountWhere(p: nat -> bool, lo: nat, hi: nat): nat
    decreases hi - lo
  {
    if lo >= hi then 0 else (if p(lo) then 1 else 0) + CountWhere(p, lo + 1, hi)
  }

  /** When `p` holds exactly on a..b-1 within lo..hi-1, it holds b - a
      times there. */
  lemma {:induction false} CountWhereRange(p: nat -> bool, lo: nat, hi: nat, a: nat, b: nat)
    requires lo <= a <= b <= hi
    requires forall k :: lo <= k < hi ==> (p(k) <==> a <= k < b)
    ensures CountWhere(p, lo, hi) == b - a
    decreases hi - lo
  {
    if lo < hi {
      if lo == a && a < b {
        CountWhereRange(p, lo + 1, hi, a + 1, b);
      } else if lo == a {
        CountWhereRange(p, lo + 1, hi, lo + 1, lo + 1);
      } else {
        CountWhereRange(p, lo + 1, hi, a, b);
      }
    }
  }

  /** A loop whose iterations each deliver `v` into `w` or nothing delivers
      `v` once per iteration that does. */
  lemma {:induction false} LoopDeliveriesCount(rig: Rig, lo: nat, hi: nat, body: nat -> seq<Cmd>, w: Loc, v: nat, p: nat -> bool)
    requires forall k :: lo <= k < hi ==> Deliveries(rig, body(k), w) == if p(k) then [v] else []
    ensures Deliveries(rig, Loop(lo, hi, body), w) == Repeat(v, CountWhere(p, lo, hi))
    decreases hi - lo
  {
    if lo < hi {
      var head, rest := body(lo), Loop(lo + 1, hi, body);
      assert Loop(lo, hi, body) == head + rest;
      DeliveriesAppend(rig, head, rest, w);
      LoopDeliveriesCount(rig, lo + 1, hi, body, w, v, p);
      var c := CountWhere(p, lo + 1, hi);
      if p(lo) {
        assert Repeat(v, c + 1) == [v] + Repeat(v, c);
      }
    }
  }

  /** The same for what the loop draws from `w`. */
  lemma {:induction false} LoopWithdrawalsCount(rig: Rig, lo: nat, hi: nat, body: nat -> seq<Cmd>, w: Loc, v: nat, p: nat -> bool)
    requires forall k :: lo <= k < hi ==> Withdrawals(rig, body(k), w) == if p(k) then [v] else []
    ensures Withdrawals(rig, Loop(lo, hi, body), w) == Repeat(v, CountWhere(p, lo, hi))
    decreases hi - lo
  {
    if lo < hi {
      var head, rest := body(lo), Loop(lo + 1, hi, body);
      assert Loop(lo, hi, body) == head + rest;
      WithdrawalsAppend(rig, head, rest, w);
      LoopWithdrawalsCount(rig, lo + 1, hi, body, w, v, p);
      var c := CountWhere(p, lo + 1, hi);
      if p(lo) {
        assert Repeat(v, c + 1) == [v] + Repeat(v, c);
      }
    }
  }

  function Sum(xs: seq<nat>): nat
  {
    if |xs| == 0 then 0 else xs[0] + Sum(xs[1..])
  }

  /** `n` copies of `v`. */
  function Repeat(v: nat, n: nat): (r: seq<nat>)
    ensures |r| == n && forall i :: 0 <= i < n ==> r[i] == v
  {
    if n == 0 then [] else [v] + Repeat(v, n - 1)
  }

  lemma {:induction false} SumRepeat(v: nat, n: nat)
    ensures Sum(Repeat(v, n)) == v * n
  {
    if n > 0 {
      assert Repeat(v, n)[1..] == Repeat(v, n - 1);
      SumRepeat(v, n - 1);
    }
  }

  /** A loop in which only iteration `k0` delivers into `w` (none, when
      `k0` is out of range) delivers exactly what that iteration does. */
  lemma {:induction false} LoopDeliveriesAt(rig: Rig, lo: nat, hi: nat, body: nat -> seq<Cmd>, w: Loc, k0: nat, ins: seq<nat>)
    requires forall k :: lo <= k < hi ==> Deliveries(rig, body(k), w) == if k == k0 then ins else []
    ensures Deliveries(rig, Loop(lo, hi, body), w) == if lo <= k0 < hi then ins else []
    decreases hi - lo
  {
    if lo < hi {
      var head, rest := body(lo), Loop(lo + 1, hi, body);
      assert Loop(lo, hi, body) == head + rest;
      DeliveriesAppend(rig, head, rest, w);
      LoopDeliveriesAt(rig, lo + 1, hi, body, w, k0, ins);
      var h, r := Deliveries(rig, head, w), Deliveries(rig, rest, w);
      assert Deliveries(rig, Loop(lo, hi, body), w) == h + r;
      if k0 == lo {
        assert h == ins && r == [];
        assert h + r == ins;
      } else {
        assert h == [];
        assert h + r == r;
      }
    }
  }

  /** The same for what the loop draws from `w`. */
  lemma {:induction false} LoopWithdrawalsAt(rig: Rig, lo: nat, hi: nat, body: nat -> seq<Cmd>, w: Loc, k0: nat, outs: seq<nat>)
    requires forall k :: lo <= k < hi ==> Withdrawals(rig, body(k), w) == if k == k0 then outs else []
    ensures Withdrawals(rig, Loop(lo, hi, body), w) == if lo <= k0 < hi then outs else []
    decreases hi - lo
  {
    if lo < hi {
      var head, rest := body(lo), Loop(lo + 1, hi, body);
      assert Loop(lo, hi, body) == head + rest;
      WithdrawalsAppend(rig, head, rest, w);
      LoopWithdrawalsAt(rig, lo + 1, hi, body, w, k0, outs);
      var h, r := Withdrawals(rig, head, w), Withdrawals(rig, rest, w);
      assert Withdrawals(rig, Loop(lo, hi, body), w) == h + r;
      if k0 == lo {
        assert h == outs && r == [];
        assert h + r == outs;
      } else {
        assert h == [];
        assert h + r == r;
      }
    }
  }
}

=== FILE: plate_layout.dfy ===
/** The well-index arithmetic of template.py (repeated from line 164 of
    Quenching10TP-C3694.py): the diluent loop into the 96-well plate, the
    lysate loop from the 96-well plate into the 384-well plate, and the four
    substrate blocks into the 384-well plate, with the per-iteration command
    blocks whose volume budgets the pipettes must meet. `wells()` lists run
    down each column, so index k of a plate with R rows is column k / R,
    row k % R. Python's `//` on the non-negative counters here is Dafny's
    `/`. */
module PlateLayout {
  import opened Wrappers
  import opened Pipetting

  /** Columns of the 96-well plate in use, in triplicates: 3, 6, 9 or 12. */
  predicate ValidPlateCol(plateCol: nat)
  {
    plateCol == 3 || plateCol == 6 || plateCol == 9 || plateCol == 12
  }

  const PlateCol := 12

  // ---------------------------------------------------------------------
  // Diluent: `for j in range(plateCol//3): for i in range(3): wells()[i*8+j*24]`

  /** Dispense i of diluent iteration j lands in row A of column i + 3j. */
  function DiluentIndex(i: nat, j: nat): (k: nat)
    ensures k % 8 == 0 && k / 8 == i + 3 * j
  {
    i * 8 + j * 24
  }

  /** The diluent loop hits row A of each of the first `plateCol/3*3`
      columns exactly once and nothing else; with the configured 12 it
      stays on the 96-well plate. */
  lemma DiluentTargets(plateCol: nat)
    ensures forall i: nat, j: nat, i': nat, j': nat :: i < 3 && i' < 3 && DiluentIndex(i, j) == DiluentIndex(i', j') ==> i == i' && j == j'
    ensures forall c: nat :: 0 <= c < plateCol / 3 * 3 ==> c / 3 < plateCol / 3 && DiluentIndex(c % 3, c / 3) == 8 * c
    ensures forall i: nat, j: nat :: i < 3 && j < plateCol / 3 ==> DiluentIndex(i, j) / 8 < plateCol / 3 * 3
    ensures plateCol <= 12 ==> forall i: nat, j: nat :: i < 3 && j < plateCol / 3 ==> DiluentIndex(i, j) < 96
  {
  }

  // ---------------------------------------------------------------------
  // Lysate into the 384-well plate (16 rows, 24 columns)

  /** The 384-well index of dispense j in lysate iteration i, as written:
      `i*16+j*96-i//3//2*48` for even triplicate groups and
      `(i-3)*16+j*96+1-i//3//2*48` for odd ones. The triplicate group i/3
      picks row A or B by its parity and a half of the six-column block by
      its half; j picks the six-column block. */
  function LysateIndex(i: nat, j: nat): (k: nat)
    ensures k / 16 == 6 * j + 3 * (i / 3 / 2) + i % 3
    ensures k % 16 == i / 3 % 2
  {
    var g := i / 3;
    assert i == 3 * g + i % 3;
    assert g == 2 * (g / 2) + g % 2;
    if g % 2 < 1 then i * 16 + j * 96 - g / 2 * 48
    else (i - 3) * 16 + j * 96 + 1 - g / 2 * 48
  }

  /** Reads the loop counters (i, j) back from a lysate 384-well index:
      the six-column block gives j, the column within it gives the half and
      position of the triplicate, the row gives the group's parity. */
  function LysateDecode(k: nat): (ij: (nat, nat))
  {
    var col, row := k / 16, k % 16;
    var c6 := col % 6;
    (3 * (2 * (c6 / 3) + row) + c6 % 3, col / 6)
  }

  /** Round trip: for the 12 lysate iterations and the four dispenses each,
      decoding the 384 index recovers the counters, and the index is on the
      plate. */
  lemma LysateRoundTrip(i: nat, j: nat)
    requires i < 12 && j < 4
    ensures LysateDecode(LysateIndex(i, j)) == (i, j)
    ensures LysateIndex(i, j) < 384
  {
    var k := LysateIndex(i, j);
    var h, p := i / 3 / 2, i % 3;
    assert h < 2 && p < 3;
    var col := k / 16;
    assert col == 6 * j + (3 * h + p) && 3 * h + p < 6;
    assert col / 6 == j && col % 6 == 3 * h + p;
    assert (3 * h + p) / 3 == h && (3 * h + p) % 3 == p;
    assert i / 3 == 2 * h + i / 3 % 2;
    assert i == 3 * (i / 3) + p;
  }

  /** With at most 12 columns the lysate dispenses are pairwise distinct. */
  lemma LysateTargetsDistinct(plateCol: nat, i: nat, j: nat, i': nat, j': nat)
    requires plateCol <= 12
    requires i < plateCol && i' < plateCol && j < 4 && j' < 4
    ensures LysateIndex(i, j) == LysateIndex(i', j') <==> i == i' && j == j'
  {
    LysateRoundTrip(i, j);
    LysateRoundTrip(i', j');
  }

  /** Past 12 columns the formula wraps onto the next block: iteration 12
      would dispense into the well iteration 0 uses for its second block. */
  lemma LysateLayoutEndsAtTwelve()
    ensures LysateIndex(12, 0) == LysateIndex(0, 1)
  {
  }

  // ---------------------------------------------------------------------
  // Substrate blocks: block k uses trough well k and adds `96*k`

  /** The 384 index of dispense j in iteration i of substrate block k, as
      written: `j*16+i*3//3//2*48` (+1 for odd i) plus the block offset.
      Since `i*3//3` is i, this is the well lysate iteration 3i+j filled in
      its k-th dispense. */
  function SubstrateIndex(k: nat, i: nat, j: nat): (r: nat)
    ensures j < 3 ==> r == LysateIndex(3 * i + j, k)
  {
    assert i * 3 / 3 == i;
    assert (3 * i + j) % 3 == j % 3 && (3 * i + j) / 3 == i + j / 3;
    if i * 3 / 3 % 2 < 1 then j * 16 + i * 3 / 3 / 2 * 48 + 96 * k
    else j * 16 + 1 + i * 3 / 3 / 2 * 48 + 96 * k
  }

  function LysateTargets(plateCol: nat, j: nat): set<nat>
  {
    set i: nat | i < plateCol :: LysateIndex(i, j)
  }

  function SubstrateTargets(plateCol: nat, k: nat): set<nat>
  {
    set i: nat, j: nat | i < plateCol / 3 && j < 3 :: SubstrateIndex(k, i, j)
  }

  /** Substrate block k dispenses into exactly the wells the lysate loop
      filled with its k-th dispense, when the columns come in triplicates. */
  lemma SubstrateMatchesLysate(plateCol: nat, k: nat)
    requires plateCol % 3 == 0
    ensures SubstrateTargets(plateCol, k) == LysateTargets(plateCol, k)
  {
    forall x | x in LysateTargets(plateCol, k)
      ensures x in SubstrateTargets(plateCol, k)
    {
      var i: nat :| i < plateCol && x == LysateIndex(i, k);
      assert i == 3 * (i / 3) + i % 3;
      assert SubstrateIndex(k, i / 3, i % 3) == x;
    }
  }

  /** The four substrate blocks never share a well: each lies in its own
      six-column block of the 384-well plate. */
  lemma SubstrateBlocksDisjoint(plateCol: nat, k: nat, k': nat)
    requires plateCol <= 12 && k < 4 && k' < 4 && k != k'
    ensures SubstrateTargets(plateCol, k) !! SubstrateTargets(plateCol, k')
  {
    forall x | x in SubstrateTargets(plateCol, k)
      ensures LysateDecode(x).1 == k
    {
      var i: nat, j: nat :| i < plateCol / 3 && j < 3 && x == SubstrateIndex(k, i, j);
      LysateRoundTrip(3 * i + j, k);
    }
    forall x | x in SubstrateTargets(plateCol, k')
      ensures LysateDecode(x).1 == k'
    {
      var i: nat, j: nat :| i < plateCol / 3 && j < 3 && x == SubstrateIndex(k', i, j);
      LysateRoundTrip(3 * i + j, k');
    }
  }

  // ---------------------------------------------------------------------
  // Command blocks and their volume budgets (template.py deck and pipettes)

  const M300Rack := Labware("opentrons_96_tiprack_300ul", 1)
  const M20Rack := Labware("opentrons_96_tiprack_20ul", 4)
  const Plate96 := Labware("opentrons_96_aluminumblock_generic_pcr_strip_200ul", 2)
  const Plate96b := Labware("opentrons_96_aluminumblock_generic_pcr_strip_200ul", 5)
  const Plate384 := Labware("corning_384_wellplate_112ul_flat", 3)
  const Trough := Labware("usascientific_12_reservoir_22ml", 6)

  /** p300_multi on the left, p20_multi_gen2 on the right. */
  const TemplateRig := Rig(Instrument("p300_multi", 8, 300), Instrument("p20_multi_gen2", 8, 20))

  /** `trough.wells()[n]` of the one-row, twelve-well reservoir. */
  function TroughWell(n: nat): Loc
  {
    WellAt(Trough, 1, n)
  }

  /** One diluent iteration: 300 µL from trough well 11, three 90 µL
      dispenses, blow-out back into the trough. */
  function DiluentBlock(j: nat): seq<Cmd>
  {
    DrawAndDispense(Left, 300, TroughWell(11),
                    Loop(0, 3, (i: nat) => [Dispense(Left, 90, WellAt(Plate96, 8, DiluentIndex(i, j)))]),
                    TroughWell(11))
  }

  /** One of the four dispenses of lysate iteration i: 20 µL drawn from the
      column's top well, 10 µL into the 384-well plate, rest blown out. */
  function LysateBlock(i: nat, j: nat): seq<Cmd>
  {
    DrawAndDispense(Right, 20, WellAt(Plate96, 8, i * 8),
                    [Dispense(Right, 10, WellAt(Plate384, 16, LysateIndex(i, j)))],
                    WellAt(Plate96, 8, i * 8))
  }

  /** Iteration i of substrate block k: 170 µL from trough well k, three
      50 µL dispenses, blow-out back into the trough. */
  function SubstrateBlock(k: nat, i: nat): seq<Cmd>
  {
    DrawAndDispense(Left, 170, TroughWell(k),
                    Loop(0, 3, (j: nat) => [Dispense(Left, 50, WellAt(Plate384, 16, SubstrateIndex(k, i, j)))]),
                    TroughWell(k))
  }

  /** The diluent phase up to its (unmodelled) tip disposal. */
  function DiluentPhase(plateCol: nat): seq<Cmd>
  {
    [PickUpAt(Left, RackA(M300Rack, 1))] + Loop(0, plateCol / 3, DiluentBlock)
  }

  /** Lysate iteration i up to its (unmodelled) tip disposal: a fresh tip,
      a 10 µL transfer into the column with the tip kept, four dispenses. */
  function LysateIteration(i: nat): seq<Cmd>
  {
    [PickUpAt(Right, RackA(M20Rack, i + 1)), Transfer(Right, 10, WellAt(Plate96b, 8, i * 8), WellAt(Plate96, 8, i * 8), Never)]
    + Loop(0, 4, (j: nat) => LysateBlock(i, j))
  }

  /** Substrate block k up to its (unmodelled) tip disposal. */
  function SubstratePhase(k: nat, plateCol: nat): seq<Cmd>
  {
    [PickUpAt(Left, RackA(M300Rack, k + 2)), Mix(Left, 3, 300)] + Loop(0, plateCol / 3, (i: nat) => SubstrateBlock(k, i))
  }

  /** `rack['A'+str(n)]`: row A of the rack's 1-based column n. */
  function RackA(rack: Labware, n: nat): (w: Loc)
    requires n >= 1
    ensures w.Well? && w.lw == rack && w.row == 0 && w.col + 1 == n
  {
    Well(rack, n - 1, 0)
  }

  /** The diluent budget: 300 µL fits the p300 and covers 3 × 90 µL, so
      the block runs and ends with an empty tip. */
  lemma DiluentBlockWithinBudget(s: State, j: nat)
    requires s.left == Fresh
    ensures Execute(TemplateRig, s, DiluentBlock(j)) == Ok(s)
  {
    var body := (i: nat) => [Dispense(Left, 90, WellAt(Plate96, 8, DiluentIndex(i, j)))];
    LoopDispensesBy(Left, 0, 3, body);
    LoopDispensed(90, 0, 3, body);
    AspirateBudget(TemplateRig, s, Left, 300, TroughWell(11), Loop(0, 3, body), TroughWell(11));
  }

  /** The lysate budget: 20 µL fits the p20 and covers the 10 µL dispense. */
  lemma LysateBlockWithinBudget(s: State, i: nat, j: nat)
    requires s.right == Fresh
    ensures Execute(TemplateRig, s, LysateBlock(i, j)) == Ok(s)
  {
    var ds := [Dispense(Right, 10, WellAt(Plate384, 16, LysateIndex(i, j)))];
    assert DispensedVolume(ds) == 10;
    AspirateBudget(TemplateRig, s, Right, 20, WellAt(Plate96, 8, i * 8), ds, WellAt(Plate96, 8, i * 8));
  }

  /** The substrate budget: 170 µL fits the p300 and covers 3 × 50 µL. */
  lemma SubstrateBlockWithinBudget(s: State, k: nat, i: nat)
    requires s.left == Fresh
    ensures Execute(TemplateRig, s, SubstrateBlock(k, i)) == Ok(s)
  {
    var body := (j: nat) => [Dispense(Left, 50, WellAt(Plate384, 16, SubstrateIndex(k, i, j)))];
    LoopDispensesBy(Left, 0, 3, body);
    LoopDispensed(50, 0, 3, body);
    AspirateBudget(TemplateRig, s, Left, 170, TroughWell(k), Loop(0, 3, body), TroughWell(k));
  }

  /** Each diluent iteration dispenses 270 of its 300 µL, so every
      channel blows 30 µL back at trough well 12, and nothing elsewhere. */
  lemma DiluentBlockReturns(s: State, j: nat, w: Loc)
    requires s.left == Fresh
    ensures Returns(TemplateRig, s, DiluentBlock(j), w) == if Covers(TemplateRig.On(Left), TroughWell(11), w) then [30] else []
  {
    var body := (i: nat) => [Dispense(Left, 90, WellAt(Plate96, 8, DiluentIndex(i, j)))];
    LoopDispensesBy(Left, 0, 3, body);
    LoopDispensed(90, 0, 3, body);
    DrawAndDispenseReturns(TemplateRig, s, Left, 300, TroughWell(11), Loop(0, 3, body), TroughWell(11), w);
  }

  /** Each lysate dispense leaves 10 of its 20 µL, which every channel
      blows back into the 96-well column it drew from. */
  lemma LysateBlockReturns(s: State, i: nat, j: nat, w: Loc)
    requires s.right == Fresh
    ensures Returns(TemplateRig, s, LysateBlock(i, j), w) == if Covers(TemplateRig.On(Right), WellAt(Plate96, 8, i * 8), w) then [10] else []
  {
    var ds := [Dispense(Right, 10, WellAt(Plate384, 16, LysateIndex(i, j)))];
    assert DispensedVolume(ds) == 10;
    DrawAndDispenseReturns(TemplateRig, s, Right, 20, WellAt(Plate96, 8, i * 8), ds, WellAt(Plate96, 8, i * 8), w);
  }

  /** Each substrate iteration dispenses 150 of its 170 µL, so every
      channel blows 20 µL back at the trough well it drew from. */
  lemma SubstrateBlockReturns(s: State, k: nat, i: nat, w: Loc)
    requires s.left == Fresh
    ensures Returns(TemplateRig, s, SubstrateBlock(k, i), w) == if Covers(TemplateRig.On(Left), TroughWell(k), w) then [20] else []
  {
    var body := (j: nat) => [Dispense(Left, 50, WellAt(Plate384, 16, SubstrateIndex(k, i, j)))];
    LoopDispensesBy(Left, 0, 3, body);
    LoopDispensed(50, 0, 3, body);
    DrawAndDispenseReturns(TemplateRig, s, Left, 170, TroughWell(k), Loop(0, 3, body), TroughWell(k), w);
  }

  /** The diluent phase runs from idle pipettes without a refused command
      and ends with the left pipette holding an empty tip. */
  lemma DiluentPhaseRuns(plateCol: nat)
    ensures Execute(TemplateRig, Idle, DiluentPhase(plateCol)) == Ok(Idle.Set(Left, Fresh))
  {
    var l := Idle.Set(Left, Fresh);
    forall j | 0 <= j < plateCol / 3
      ensures Execute(TemplateRig, l, DiluentBlock(j)) == Ok(l)
    {
      DiluentBlockWithinBudget(l, j);
    }
    LoopNeutral(TemplateRig, l, 0, plateCol / 3, DiluentBlock);
    PickUpAtRuns(TemplateRig, Idle, Left, RackA(M300Rack, 1));
    ExecuteChain(TemplateRig, Idle, [PickUpAt(Left, RackA(M300Rack, 1))], l, Loop(0, plateCol / 3, DiluentBlock), l);
  }

  /** A lysate iteration runs from idle pipettes and ends with the right
      pipette holding an empty tip. */
  lemma LysateIterationRuns(i: nat)
    ensures Execute(TemplateRig, Idle, LysateIteration(i)) == Ok(Idle.Set(Right, Fresh))
  {
    var r := Idle.Set(Right, Fresh);
    var body := (j: nat) => LysateBlock(i, j);
    forall j | 0 <= j < 4
      ensures Execute(TemplateRig, r, body(j)) == Ok(r)
    {
      LysateBlockWithinBudget(r, i, j);
    }
    LoopNeutral(TemplateRig, r, 0, 4, body);
    var head := [PickUpAt(Right, RackA(M20Rack, i + 1)), Transfer(Right, 10, WellAt(Plate96b, 8, i * 8), WellAt(Plate96, 8, i * 8), Never)];
    assert Execute(TemplateRig, r, head[1..]) == Ok(r);
    ExecuteChain(TemplateRig, Idle, head, r, Loop(0, 4, body), r);
  }

  /** A substrate block runs from idle pipettes and ends with the left
      pipette holding an empty tip. */
  lemma SubstratePhaseRuns(k: nat, plateCol: nat)
    ensures Execute(TemplateRig, Idle, SubstratePhase(k, plateCol)) == Ok(Idle.Set(Left, Fresh))
  {
    var l := Idle.Set(Left, Fresh);
    var body := (i: nat) => SubstrateBlock(k, i);
    forall i | 0 <= i < plateCol / 3
      ensures Execute(TemplateRig, l, body(i)) == Ok(l)
    {
      SubstrateBlockWithinBudget(l, k, i);
    }
    LoopNeutral(TemplateRig, l, 0, plateCol / 3, body);
    var head := [PickUpAt(Left, RackA(M300Rack, k + 2)), Mix(Left, 3, 300)];
    assert Execute(TemplateRig, l, head[1..]) == Ok(l);
    ExecuteChain(TemplateRig, Idle, head, l, Loop(0, plateCol / 3, body), l);
  }

  // ---------------------------------------------------------------------
  // Tips: `m300rack['A1']` for the diluent, `m20rack['A'+str(i+1)]` per
  // lysate iteration, `m300rack['A'+str(k+2)]` for substrate block k

  /** The template's pipetting from the diluent to the last substrate
      block, with the tip disposals between phases left out. */
  function TemplateTrace(plateCol: nat): seq<Cmd>
  {
    DiluentPhase(plateCol) + LysatePhase(plateCol) + [Pause("Add substrates!")]
    + SubstratePhases(plateCol)
  }

  /** The lysate loop, one iteration per column. */
  function LysatePhase(plateCol: nat): seq<Cmd>
  {
    Loop(0, plateCol, LysateIteration)
  }

  /** The four substrate blocks, from trough wells 0..3 in turn. */
  function SubstratePhases(plateCol: nat): seq<Cmd>
  {
    Loop(0, 4, (k: nat) => SubstratePhase(k, plateCol))
  }

  /** The rack wells a trace's named pick-ups take their tips from, in
      order. */
  function TipsPicked(cmds: seq<Cmd>): seq<Loc>
    decreases |cmds|
  {
    if |cmds| == 0 then [] else (if cmds[0].PickUpAt? then [cmds[0].tip] else []) + TipsPicked(cmds[1..])
  }

  lemma {:induction false} TipsPickedAppend(a: seq<Cmd>, b: seq<Cmd>)
    ensures TipsPicked(a + b) == TipsPicked(a) + TipsPicked(b)
    decreases |a|
  {
    if |a| == 0 {
      assert a + b == b;
    } else {
      var h := if a[0].PickUpAt? then [a[0].tip] else [];
      assert (a + b)[0] == a[0] && (a + b)[1..] == a[1..] + b;
      TipsPickedAppend(a[1..], b);
      calc {
        TipsPicked(a + b);
        h + TipsPicked(a[1..] + b);
        h + (TipsPicked(a[1..]) + TipsPicked(b));
        (h + TipsPicked(a[1..])) + TipsPicked(b);
      }
    }
  }

  /** A trace without a named pick-up takes no tip from a rack. */
  lemma {:induction false} NoTipsTaken(cmds: seq<Cmd>)
    requires forall i :: 0 <= i < |cmds| ==> !cmds[i].PickUpAt?
    ensures TipsPicked(cmds) == []
    decreases |cmds|
  {
    if |cmds| > 0 {
      NoTipsTaken(cmds[1..]);
    }
  }

  /** A draw-and-dispense block whose dispenses are all by one pipette
      takes no tip. */
  lemma DrawTakesNoTip(m: Mount, v: nat, src: Loc, ds: seq<Cmd>, dst: Loc)
    requires DispensesBy(m, ds)
    ensures TipsPicked(DrawAndDispense(m, v, src, ds, dst)) == []
  {
    var cmds := DrawAndDispense(m, v, src, ds, dst);
    forall i | 0 <= i < |cmds|
      ensures !cmds[i].PickUpAt?
    {
      if 0 < i < |cmds| - 1 { assert cmds[i] == ds[i - 1]; }
    }
    NoTipsTaken(cmds);
  }

  /** A loop whose iteration k takes exactly the tip `tip(k)` takes the
      tips `tip(lo)`, ..., `tip(hi - 1)`, in that order. */
  lemma {:induction false} LoopTipEach(lo: nat, hi: nat, body: nat -> seq<Cmd>, tip: nat -> Loc)
    requires lo <= hi
    requires forall k :: lo <= k < hi ==> TipsPicked(body(k)) == [tip(k)]
    ensures |TipsPicked(Loop(lo, hi, body))| == hi - lo
    ensures forall x :: 0 <= x < hi - lo ==> TipsPicked(Loop(lo, hi, body))[x] == tip(lo + x)
    decreases hi - lo
  {
    if lo < hi {
      var rest := Loop(lo + 1, hi, body);
      LoopTipEach(lo + 1, hi, body, tip);
      TipsPickedAppend(body(lo), rest);
      var t := TipsPicked(Loop(lo, hi, body));
      assert t == [tip(lo)] + TipsPicked(rest);
      forall x | 1 <= x < hi - lo
        ensures t[x] == tip(lo + x)
      {
        assert t[x] == TipsPicked(rest)[x - 1];
      }
    }
  }

  /** A loop whose iterations take no tip takes none. */
  lemma {:induction false} LoopNoTips(lo: nat, hi: nat, body: nat -> seq<Cmd>)
    requires forall k :: lo <= k < hi ==> TipsPicked(body(k)) == []
    ensures TipsPicked(Loop(lo, hi, body)) == []
    decreases hi - lo
  {
    if lo < hi {
      LoopNoTips(lo + 1, hi, body);
      TipsPickedAppend(body(lo), Loop(lo + 1, hi, body));
    }
  }

  /** The diluent phase takes one tip, A1 of the 300 µL rack. */
  lemma {:induction false} DiluentTips(plateCol: nat)
    ensures TipsPicked(DiluentPhase(plateCol)) == [RackA(M300Rack, 1)]
  {
    forall j | 0 <= j < plateCol / 3
      ensures TipsPicked(DiluentBlock(j)) == []
    {
      var body := (i: nat) => [Dispense(Left, 90, WellAt(Plate96, 8, DiluentIndex(i, j)))];
      LoopDispensesBy(Left, 0, 3, body);
      DrawTakesNoTip(Left, 300, TroughWell(11), Loop(0, 3, body), TroughWell(11));
    }
    LoopNoTips(0, plateCol / 3, DiluentBlock);
    TipsPickedAppend([PickUpAt(Left, RackA(M300Rack, 1))], Loop(0, plateCol / 3, DiluentBlock));
  }

  /** Lysate iteration i takes one tip, column i + 1 of the 20 µL rack. */
  lemma {:induction false} LysateIterationTips(i: nat)
    ensures TipsPicked(LysateIteration(i)) == [RackA(M20Rack, i + 1)]
  {
    var body := (j: nat) => LysateBlock(i, j);
    forall j | 0 <= j < 4
      ensures TipsPicked(body(j)) == []
    {
      var ds := [Dispense(Right, 10, WellAt(Plate384, 16, LysateIndex(i, j)))];
      DrawTakesNoTip(Right, 20, WellAt(Plate96, 8, i * 8), ds, WellAt(Plate96, 8, i * 8));
    }
    LoopNoTips(0, 4, body);
    var head := [PickUpAt(Right, RackA(M20Rack, i + 1)), Transfer(Right, 10, WellAt(Plate96b, 8, i * 8), WellAt(Plate96, 8, i * 8), Never)];
    NoTipsTaken(head[1..]);
    TipsPickedAppend(head, Loop(0, 4, body));
  }

  /** Substrate block k takes one tip, column k + 2 of the 300 µL rack. */
  lemma {:induction false} SubstratePhaseTips(k: nat, plateCol: nat)
    ensures TipsPicked(SubstratePhase(k, plateCol)) == [RackA(M300Rack, k + 2)]
  {
    var body := (i: nat) => SubstrateBlock(k, i);
    forall i | 0 <= i < plateCol / 3
      ensures TipsPicked(body(i)) == []
    {
      var ds := (j: nat) => [Dispense(Left, 50, WellAt(Plate384, 16, SubstrateIndex(k, i, j)))];
      LoopDispensesBy(Left, 0, 3, ds);
      DrawTakesNoTip(Left, 170, TroughWell(k), Loop(0, 3, ds), TroughWell(k));
    }
    LoopNoTips(0, plateCol / 3, body);
    var head := [PickUpAt(Left, RackA(M300Rack, k + 2)), Mix(Left, 3, 300)];
    NoTipsTaken(head[1..]);
    TipsPickedAppend(head, Loop(0, plateCol / 3, body));
  }

  /** The tip lysate iteration i names. */
  function LysateTip(i: nat): Loc
  {
    RackA(M20Rack, i + 1)
  }

  /** The tip substrate block k names. */
  function SubstrateTip(k: nat): Loc
  {
    RackA(M300Rack, k + 2)
  }

  /** The lysate loop takes tip column i + 1 of the 20 µL rack in
      iteration i. */
  lemma {:induction false} LysateLoopTips(plateCol: nat)
    ensures |TipsPicked(LysatePhase(plateCol))| == plateCol
    ensures forall x :: 0 <= x < plateCol ==> TipsPicked(LysatePhase(plateCol))[x] == LysateTip(x)
  {
    forall i | 0 <= i < plateCol
      ensures TipsPicked(LysateIteration(i)) == [LysateTip(i)]
    {
      LysateIterationTips(i);
    }
    LoopTipEach(0, plateCol, LysateIteration, LysateTip);
  }

  /** Substrate block k takes tip column k + 2 of the 300 µL rack. */
  lemma {:induction false} SubstratePhasesTips(plateCol: nat)
    ensures |TipsPicked(SubstratePhases(plateCol))| == 4
    ensures forall x :: 0 <= x < 4 ==> TipsPicked(SubstratePhases(plateCol))[x] == SubstrateTip(x)
  {
    var phase := (k: nat) => SubstratePhase(k, plateCol);
    assert SubstratePhases(plateCol) == Loop(0, 4, phase);
    forall k | 0 <= k < 4
      ensures TipsPicked(phase(k)) == [SubstrateTip(k)]
    {
      SubstratePhaseTips(k, plateCol);
    }
    LoopTipEach(0, 4, phase, SubstrateTip);
  }

  /** The whole trace's pick-ups are the diluent's, the lysate loop's and
      the substrate blocks', in that order. */
  lemma {:induction false} TemplateTipsSplit(plateCol: nat)
    ensures TipsPicked(TemplateTrace(plateCol))
            == [RackA(M300Rack, 1)] + TipsPicked(LysatePhase(plateCol)) + TipsPicked(SubstratePhases(plateCol))
  {
    var dil, lys, pause, subs := DiluentPhase(plateCol), LysatePhase(plateCol), [Pause("Add substrates!")], SubstratePhases(plateCol);
    assert TipsPicked(dil) == [RackA(M300Rack, 1)] by { DiluentTips(plateCol); }
    assert TipsPicked(pause) == [] by { NoTipsTaken(pause); }
    TipsOfParts(dil, lys, pause, subs, RackA(M300Rack, 1));
  }

  /** Four trace pieces, the first taking the one tip `x` and the third
      none. */
  lemma TipsOfParts(a: seq<Cmd>, b: seq<Cmd>, c: seq<Cmd>, d: seq<Cmd>, x: Loc)
    requires TipsPicked(a) == [x] && TipsPicked(c) == []
    ensures TipsPicked(a + b + c + d) == [x] + TipsPicked(b) + TipsPicked(d)
  {
    TipsPickedAppend(a, b);
    TipsPickedAppend(a + b, c);
    TipsPickedAppend(a + b + c, d);
  }

  /** The template's pick-ups in order: A1 of the 300 µL rack, then
      A1..A{plateCol} of the 20 µL rack, one per lysate iteration, then
      A2..A5 of the 300 µL rack, one per substrate block. */
  lemma {:induction false} TemplateTips(plateCol: nat)
    ensures |TipsPicked(TemplateTrace(plateCol))| == plateCol + 5
    ensures forall a :: 0 <= a < plateCol + 5 ==>
              TipsPicked(TemplateTrace(plateCol))[a]
              == if a == 0 then RackA(M300Rack, 1)
                 else if a <= plateCol then LysateTip(a - 1)
                 else SubstrateTip(a - plateCol - 1)
  {
    var lys, subs := TipsPicked(LysatePhase(plateCol)), TipsPicked(SubstratePhases(plateCol));
    TemplateTipsSplit(plateCol);
    LysateLoopTips(plateCol);
    SubstratePhasesTips(plateCol);
    var t := TipsPicked(TemplateTrace(plateCol));
    forall a | 0 <= a < plateCol + 5
      ensures t[a] == if a == 0 then RackA(M300Rack, 1)
                      else if a <= plateCol then LysateTip(a - 1)
                      else SubstrateTip(a - plateCol - 1)
    {
      if 0 < a <= plateCol {
        assert t[a] == lys[a - 1] == LysateTip(a - 1);
      } else if a > plateCol {
        assert t[a] == subs[a - 1 - plateCol] == SubstrateTip(a - 1 - plateCol);
      }
    }
  }

  /** No tip is picked up twice, and with at most 12 columns every
      pick-up lies in row A of the 12-column racks. */
  lemma {:induction false} TemplateTipsFresh(plateCol: nat)
    requires plateCol <= 12
    ensures forall a, b :: 0 <= a < b < |TipsPicked(TemplateTrace(plateCol))| ==>
              TipsPicked(TemplateTrace(plateCol))[a] != TipsPicked(TemplateTrace(plateCol))[b]
    ensures forall a :: 0 <= a < |TipsPicked(TemplateTrace(plateCol))| ==>
              TipsPicked(TemplateTrace(plateCol))[a].Well? && TipsPicked(TemplateTrace(plateCol))[a].row == 0
              && TipsPicked(TemplateTrace(plateCol))[a].col < 12
  {
    TemplateTips(plateCol);
  }
}

=== FILE: quench.dfy ===
/** 10TP-Quench-C3993.py: eight reactions in column 1 of the deep-well
    plate, each started from 30 µL of lysate (enzyme-present wells) or
    lysis buffer (enzyme-free wells), 240 µL of reaction buffer and 30 µL
    of substrate, then sampled ten times into the pre-filled quench plate. */
module Quench {
  import opened Wrappers
  import opened Labels
  import opened Pipetting
  import opened Assay

  /** An entry of `rxnWells`: row `row` of reaction-plate column 1. */
  function Rxn(row: nat, desc: string): RxnWell
  {
    RxnWell(ReactionPlate, Well(ReactionPlate, 0, row), desc)
  }

  const RxnWells: seq<RxnWell> :=
    [ Rxn(0, "A1 E+ S+ rep1"), Rxn(1, "B1 E+ S+ rep2"), Rxn(2, "C1 E+ S+ rep3"), Rxn(3, "D1 E+ S- rep1"),
      Rxn(4, "E1 E+ S- rep2"), Rxn(5, "F1 E- S+ rep1"), Rxn(6, "G1 E- S+ rep2"), Rxn(7, "H1 E- S- rep1") ]

  /** An entry of `substrateWells`: row `row` of reaction-plate column 2. */
  function Sub(row: nat, desc: string): RxnWell
  {
    RxnWell(ReactionPlate, Well(ReactionPlate, 1, row), desc)
  }

  const SubstrateWells: seq<RxnWell> :=
    [ Sub(0, "A2 10uM Sub"), Sub(1, "B2 10uM Sub"), Sub(2, "C2 10uM Sub"), Sub(3, "D2 10% DMSO"),
      Sub(4, "E2 10% DMSO"), Sub(5, "F2 10uM Sub"), Sub(6, "G2 10uM Sub"), Sub(7, "H2 10% DMSO") ]

  /** `delayTimes` in centiseconds: 16.85 s, then nine times 35.3 s. */
  const DelayTimes: seq<nat> := [1685, 3530, 3530, 3530, 3530, 3530, 3530, 3530, 3530, 3530]

  /** `for tp in range(10)`. */
  const TimepointCount := 10

  const CheckReady := "Check if mixture and plate are ready. Resuming will start pipetting substrate."

  // ---------------------------------------------------------------------
  // The lysate phase, as the script writes it

  /** `for row in range(lo, 8)` with `lastE` the label the previous row
      recorded ("0" before the first): an enzyme-present row takes lysate,
      any other row lysis buffer, and the tip is swapped when `lastE in
      'E-'` (respectively `'E+'`) holds. */
  function LysateRows(rxn: seq<RxnWell>, row: nat, lastE: string): seq<Cmd>
    requires row <= PlateRows <= |rxn|
    decreases PlateRows - row
  {
    if row == PlateRows then []
    else if Contains(rxn[row].desc, "E+") then
      (if Contains("E-", lastE) then [Drop(Single), PickUp(Single)] else [])
      + [Transfer(Single, 30, LysateTube, rxn[row].well, Never)]
      + LysateRows(rxn, row + 1, "E+")
    else
      (if Contains("E+", lastE) then [Drop(Single), PickUp(Single)] else [])
      + [Transfer(Single, 30, LysisBuffer, rxn[row].well, Never)]
      + LysateRows(rxn, row + 1, "E-")
  }

  /** The phase: one tip for the eight rows; indexing `rxnWells` past its
      end stops the script with an IndexError. */
  function LysatePhase(rxn: seq<RxnWell>): (r: Result<seq<Cmd>, Failure>)
    ensures r.Ok? <==> PlateRows <= |rxn|
    ensures r.Err? ==> r.error == IndexError(|rxn|)
  {
    if |rxn| < PlateRows then Err(IndexError(|rxn|)) else Ok(WithTip(Single, LysateRows(rxn, 0, "0")))
  }

  // ---------------------------------------------------------------------
  // The same phase, stated row by row

  /** The label the loop records for a row. */
  function Label(desc: string): string
  {
    if EnzymePresent(desc) then "E+" else "E-"
  }

  /** Where a row's 30 µL comes from. */
  function Source(desc: string): Loc
  {
    if EnzymePresent(desc) then LysateTube else LysisBuffer
  }

  /** Row r starts a new run of enzyme-present or enzyme-free wells. */
  predicate SwapBefore(rxn: seq<RxnWell>, r: nat)
  {
    0 < r < |rxn| && EnzymePresent(rxn[r].desc) != EnzymePresent(rxn[r - 1].desc)
  }

  /** Row r: a fresh tip when the enzyme class changes, then 30 µL from the
      row's source into its well with the tip kept. Rows past the end of
      `rxn` never run (the script stops first); the guard only keeps the
      function total. */
  function RowBlock(rxn: seq<RxnWell>): nat -> seq<Cmd>
  {
    (r: nat) =>
      (if SwapBefore(rxn, r) then [Drop(Single), PickUp(Single)] else [])
      + (if r < |rxn| then [Transfer(Single, 30, Source(rxn[r].desc), rxn[r].well, Never)] else [])
  }

  /** What `lastE in 'E-'` and `lastE in 'E+'` evaluate to for the three
      values `lastE` takes. */
  lemma LastLabelTests()
    ensures !Contains("E-", "0") && !Contains("E+", "0")
    ensures Contains("E-", "E-") && !Contains("E-", "E+")
    ensures Contains("E+", "E+") && !Contains("E+", "E-")
  {
  }

  /** The script's loop and the row-by-row statement issue the same
      commands: the tip is swapped exactly before a row whose enzyme class
      differs from the previous row's. */
  lemma {:induction false} LysateRowsAsLoop(rxn: seq<RxnWell>, lo: nat, lastE: string)
    requires lo <= PlateRows <= |rxn|
    requires lastE == if lo == 0 then "0" else Label(rxn[lo - 1].desc)
    ensures LysateRows(rxn, lo, lastE) == Loop(lo, PlateRows, RowBlock(rxn))
    decreases PlateRows - lo
  {
    if lo < PlateRows {
      LastLabelTests();
      var d := rxn[lo].desc;
      LysateRowsAsLoop(rxn, lo + 1, Label(d));
      var swap := if Contains(d, "E+") then Contains("E-", lastE) else Contains("E+", lastE);
      assert swap == SwapBefore(rxn, lo);
      assert LysateRows(rxn, lo, lastE)
             == (if swap then [Drop(Single), PickUp(Single)] else [])
                + [Transfer(Single, 30, Source(d), rxn[lo].well, Never)]
                + LysateRows(rxn, lo + 1, Label(d));
      assert RowBlock(rxn)(lo)
             == (if swap then [Drop(Single), PickUp(Single)] else [])
                + [Transfer(Single, 30, Source(d), rxn[lo].well, Never)];
    }
  }

  /** A row keeps the single-channel pipette on a fresh tip: a swap drops
      the tip and takes a new one, the transfer works with the tip it has. */
  lemma RowBlockRuns(s: State, rxn: seq<RxnWell>, r: nat)
    requires s.Get(Single) == Fresh
    ensures Execute(AssayRig, s, RowBlock(rxn)(r)) == Ok(s)
  {
    var swap: seq<Cmd> := if SwapBefore(rxn, r) then [Drop(Single), PickUp(Single)] else [];
    var move: seq<Cmd> := if r < |rxn| then [Transfer(Single, 30, Source(rxn[r].desc), rxn[r].well, Never)] else [];
    assert RowBlock(rxn)(r) == swap + move;
    assert Execute(AssayRig, s, swap) == Ok(s) by {
      if SwapBefore(rxn, r) {
        var b := s.Set(Single, Bare);
        assert Execute(AssayRig, b, swap[1..]) == Ok(b.Set(Single, Fresh));
        assert b.Set(Single, Fresh) == s;
      }
    }
    assert Execute(AssayRig, s, move) == Ok(s);
    ExecuteChain(AssayRig, s, swap, s, move, s);
  }

  /** Rows 0..n-1 leave a fresh single-channel tip as they found it. */
  lemma RowsRun(t: State, rxn: seq<RxnWell>, n: nat)
    requires t.Get(Single) == Fresh
    ensures Execute(AssayRig, t, Loop(0, n, RowBlock(rxn))) == Ok(t)
  {
    forall k | 0 <= k < n
      ensures Execute(AssayRig, t, RowBlock(rxn)(k)) == Ok(t)
    {
      RowBlockRuns(t, rxn, k);
    }
    LoopNeutral(AssayRig, t, 0, n, RowBlock(rxn));
  }

  /** The lysate phase runs exactly when the single-channel pipette starts
      bare (given the eight rows), and then leaves the machine as it found
      it. */
  lemma LysatePhaseRuns(s: State, rxn: seq<RxnWell>)
    requires PlateRows <= |rxn|
    ensures s.Get(Single) == Bare ==> Execute(AssayRig, s, LysatePhase(rxn).value) == Ok(s)
    ensures s.Get(Single).hasTip ==> Execute(AssayRig, s, LysatePhase(rxn).value) == Err(Fault(PickUp(Single), TipAttached))
  {
    var rows := Loop(0, PlateRows, RowBlock(rxn));
    LysateRowsAsLoop(rxn, 0, "0");
    if s.Get(Single).hasTip {
      WithTipRefused(AssayRig, s, Single, rows);
    } else {
      RowsRun(s.Set(Single, Fresh), rxn, PlateRows);
      WithTipRuns(AssayRig, s, Single, rows);
    }
  }

  /** The rows whose tip is swapped before them. */
  function SwapRows(rxn: seq<RxnWell>): nat -> bool
  {
    (r: nat) => SwapBefore(rxn, r)
  }

  /** The rows lo..hi-1 drop one tip per change of enzyme class and pick up
      one fresh tip for it. */
  lemma {:induction false} TipSwaps(rxn: seq<RxnWell>, lo: nat, hi: nat)
    ensures multiset(Loop(lo, hi, RowBlock(rxn)))[Drop(Single)] == CountWhere(SwapRows(rxn), lo, hi)
    ensures multiset(Loop(lo, hi, RowBlock(rxn)))[PickUp(Single)] == CountWhere(SwapRows(rxn), lo, hi)
    decreases hi - lo
  {
    if lo < hi {
      var head, rest := RowBlock(rxn)(lo), Loop(lo + 1, hi, RowBlock(rxn));
      assert Loop(lo, hi, RowBlock(rxn)) == head + rest;
      TipSwaps(rxn, lo + 1, hi);
      var swap: seq<Cmd> := if SwapBefore(rxn, lo) then [Drop(Single), PickUp(Single)] else [];
      var move: seq<Cmd> := if lo < |rxn| then [Transfer(Single, 30, Source(rxn[lo].desc), rxn[lo].well, Never)] else [];
      assert head == swap + move;
      assert multiset(head)[Drop(Single)] == multiset(head)[PickUp(Single)] == if SwapBefore(rxn, lo) then 1 else 0;
    }
  }

  /** The rows that deliver into `w`. */
  function FillsWell(rxn: seq<RxnWell>, w: Loc): nat -> bool
  {
    (r: nat) => r < |rxn| && Covers(AssayRig.On(Single), rxn[r].well, w)
  }

  /** The rows that draw from `w`. */
  function DrawsFrom(rxn: seq<RxnWell>, w: Loc): nat -> bool
  {
    (r: nat) => r < |rxn| && Source(rxn[r].desc) == w
  }

  lemma RowBlockFlows(rxn: seq<RxnWell>, r: nat, w: Loc)
    ensures Deliveries(AssayRig, RowBlock(rxn)(r), w) == if FillsWell(rxn, w)(r) then [30] else []
    ensures Withdrawals(AssayRig, RowBlock(rxn)(r), w) == if DrawsFrom(rxn, w)(r) then [30] else []
  {
    var swap: seq<Cmd> := if SwapBefore(rxn, r) then [Drop(Single), PickUp(Single)] else [];
    var move: seq<Cmd> := if r < |rxn| then [Transfer(Single, 30, Source(rxn[r].desc), rxn[r].well, Never)] else [];
    assert RowBlock(rxn)(r) == swap + move;
    FlowsAppend(AssayRig, swap, move, w);
    if SwapBefore(rxn, r) {
      assert swap[1..][1..] == [];
    }
    if r < |rxn| {
      FlowsSingle(AssayRig, move[0], w);
    }
  }

  /** Rows 0..n-1 deliver 30 µL into a well once per row whose single
      channel reaches it. */
  lemma RowsDeliveries(rxn: seq<RxnWell>, n: nat, w: Loc)
    ensures Deliveries(AssayRig, Loop(0, n, RowBlock(rxn)), w) == Repeat(30, CountWhere(FillsWell(rxn, w), 0, n))
  {
    forall k | 0 <= k < n
      ensures Deliveries(AssayRig, RowBlock(rxn)(k), w) == if FillsWell(rxn, w)(k) then [30] else []
    {
      RowBlockFlows(rxn, k, w);
    }
    LoopDeliveriesCount(AssayRig, 0, n, RowBlock(rxn), w, 30, FillsWell(rxn, w));
  }

  /** Rows 0..n-1 draw 30 µL from a tube once per row whose source it is. */
  lemma RowsWithdrawals(rxn: seq<RxnWell>, n: nat, w: Loc)
    ensures Withdrawals(AssayRig, Loop(0, n, RowBlock(rxn)), w) == Repeat(30, CountWhere(DrawsFrom(rxn, w), 0, n))
  {
    forall k | 0 <= k < n
      ensures Withdrawals(AssayRig, RowBlock(rxn)(k), w) == if DrawsFrom(rxn, w)(k) then [30] else []
    {
      RowBlockFlows(rxn, k, w);
    }
    LoopWithdrawalsCount(AssayRig, 0, n, RowBlock(rxn), w, 30, DrawsFrom(rxn, w));
  }

  /** The lysate phase delivers 30 µL into each well once per row that
      names it. */
  lemma LysateDeliveries(rxn: seq<RxnWell>, w: Loc)
    requires PlateRows <= |rxn|
    ensures Deliveries(AssayRig, LysatePhase(rxn).value, w) == Repeat(30, CountWhere(FillsWell(rxn, w), 0, PlateRows))
  {
    RowsDeliveries(rxn, PlateRows, w);
    LysateRowsAsLoop(rxn, 0, "0");
    WithTipFlows(AssayRig, Single, Loop(0, PlateRows, RowBlock(rxn)), w);
  }

  /** The lysate tube gives 30 µL per enzyme-present row and the lysis
      buffer 30 µL per other row. */
  lemma LysateWithdrawals(rxn: seq<RxnWell>, w: Loc)
    requires PlateRows <= |rxn|
    ensures Withdrawals(AssayRig, LysatePhase(rxn).value, w) == Repeat(30, CountWhere(DrawsFrom(rxn, w), 0, PlateRows))
  {
    RowsWithdrawals(rxn, PlateRows, w);
    LysateRowsAsLoop(rxn, 0, "0");
    WithTipFlows(AssayRig, Single, Loop(0, PlateRows, RowBlock(rxn)), w);
  }

  // ---------------------------------------------------------------------
  // Reaction layouts: enzyme classes by row, one plate column

  /** The first `k` rows of `rxn` are enzyme-present and its other plate
      rows are not. */
  predicate ClassesSplitAt(rxn: seq<RxnWell>, k: nat)
  {
    PlateRows <= |rxn| && forall r :: 0 <= r < PlateRows ==> (EnzymePresent(rxn[r].desc) <==> r < k)
  }

  /** Row r of `rxn` is row r of plate column `c`, for every plate row. */
  predicate InColumn(rxn: seq<RxnWell>, c: nat)
  {
    PlateRows <= |rxn| && forall r :: 0 <= r < PlateRows ==> rxn[r].well == Well(ReactionPlate, c, r)
  }

  /** With the classes split at an inner row `k`, the tip is swapped once,
      just before row `k`. */
  lemma SplitSwapsOnce(rxn: seq<RxnWell>, k: nat)
    requires ClassesSplitAt(rxn, k) && 0 < k < PlateRows
    ensures forall r :: 0 <= r < PlateRows ==> (SwapBefore(rxn, r) <==> r == k)
    ensures CountWhere(SwapRows(rxn), 0, PlateRows) == 1
  {
    CountWhereRange(SwapRows(rxn), 0, PlateRows, k, k + 1);
  }

  /** With the classes split at `k`, the lysate tube serves `k` rows and
      the lysis buffer the others. */
  lemma SplitDraws(rxn: seq<RxnWell>, k: nat)
    requires ClassesSplitAt(rxn, k) && k <= PlateRows
    ensures CountWhere(DrawsFrom(rxn, LysateTube), 0, PlateRows) == k
    ensures CountWhere(DrawsFrom(rxn, LysisBuffer), 0, PlateRows) == PlateRows - k
  {
    CountWhereRange(DrawsFrom(rxn, LysateTube), 0, PlateRows, 0, k);
    CountWhereRange(DrawsFrom(rxn, LysisBuffer), 0, PlateRows, k, PlateRows);
  }

  /** With the rows laid down one plate column, the single channel fills
      each well of that column once and no other well. */
  lemma ColumnFills(rxn: seq<RxnWell>, c: nat, w: Loc)
    requires InColumn(rxn, c)
    ensures CountWhere(FillsWell(rxn, w), 0, PlateRows)
            == if w.Well? && w.lw == ReactionPlate && w.col == c && w.row < PlateRows then 1 else 0
  {
    if w.Well? && w.lw == ReactionPlate && w.col == c && w.row < PlateRows {
      CountWhereRange(FillsWell(rxn, w), 0, PlateRows, w.row, w.row + 1);
    } else {
      CountWhereRange(FillsWell(rxn, w), 0, PlateRows, 0, 0);
    }
  }

  // ---------------------------------------------------------------------
  // The configured reactions

  /** The three enzyme-free descriptions of `rxnWells`. */
  lemma EnzymeFreeDescriptions(d: string)
    requires d == "F1 E- S+ rep1" || d == "G1 E- S+ rep2" || d == "H1 E- S- rep1"
    ensures !EnzymePresent(d)
  {
    MinusDescription(d);
  }

  /** Rows A-E of `rxnWells` are enzyme-present, rows F-H are not. */
  lemma RxnClasses()
    ensures ClassesSplitAt(RxnWells, 5)
  {
    forall r | 0 <= r < 5
      ensures EnzymePresent(RxnWells[r].desc)
    {
      PlusDescription(RxnWells[r].desc);
    }
    forall r | 5 <= r < PlateRows
      ensures !EnzymePresent(RxnWells[r].desc)
    {
      EnzymeFreeDescriptions(RxnWells[r].desc);
    }
  }

  /** `rxnWells` lists column 1 of the reaction plate from A to H. */
  lemma RxnColumn()
    ensures InColumn(RxnWells, 0)
  {
  }


  /** `substrateWells` starts at row A of reaction-plate column 2, and
      `delayTimes` has one entry per timepoint. */
  lemma SubstrateAndDelays()
    ensures 0 < |SubstrateWells| && SubstrateWells[0].well == Well(ReactionPlate, 1, 0)
    ensures |DelayTimes| == TimepointCount
  {
  }

  // ---------------------------------------------------------------------
  // The whole script

  /** The script with `cols` pre-filled quench columns, reaction wells
      `rxn`, substrate wells `sub` and `n` timepoints timed by `delays`:
      the pre-fill, the lysate phase, 240 µL of reaction buffer into column
      "1" of the reaction plate, the substrate from `sub[0]` into `rxn[0]`,
      and the timepoints. An index past the end of a list stops the script
      with an IndexError. */
  function ScriptFor(cols: nat, n: nat, rxn: seq<RxnWell>, sub: seq<RxnWell>, delays: seq<nat>): (r: Result<seq<Cmd>, Failure>)
    ensures r.Ok? <==> PlateRows <= |rxn| && 0 < |sub| && n <= |delays|
    ensures |rxn| < PlateRows ==> r == Err(IndexError(|rxn|))
    ensures PlateRows <= |rxn| && |sub| == 0 ==> r == Err(IndexError(0))
    ensures PlateRows <= |rxn| && 0 < |sub| && |delays| < n ==> r == Err(IndexError(|delays|))
  {
    var lysate :- LysatePhase(rxn);
    if |sub| == 0 then Err(IndexError(0))
    else
      var samples :- Timepoints(n, delays, rxn[0].well);
      Ok(AssayTrace(QuenchFill(cols), lysate, ColumnNamedOne, CheckReady, sub[0].well, rxn[0].well, samples))
  }

  /** The reaction wells fill plate column 1 and the first substrate well
      is row A of column 2: the layout the script's column-wide steps
      assume. */
  predicate Laid(rxn: seq<RxnWell>, sub: seq<RxnWell>)
  {
    InColumn(rxn, 0) && 0 < |sub| && sub[0].well == Well(ReactionPlate, 1, 0)
  }

  /** With that layout the script is the pre-fill, the row-by-row lysate
      loop on one tip, and the column-wide steps on columns 1 and 2. */
  lemma ScriptForShape(cols: nat, n: nat, rxn: seq<RxnWell>, sub: seq<RxnWell>, delays: seq<nat>)
    requires Laid(rxn, sub) && n <= |delays|
    ensures ScriptFor(cols, n, rxn, sub, delays)
            == Ok(AssayTrace(QuenchFill(cols), WithTip(Single, Loop(0, PlateRows, RowBlock(rxn))), ColumnNamedOne,
                             CheckReady, Well(ReactionPlate, 1, 0), Well(ReactionPlate, 0, 0),
                             Loop(0, n, Sample(delays, Well(ReactionPlate, 0, 0)))))
  {
    LysateRowsAsLoop(rxn, 0, "0");
  }

  /** Whenever the script builds, the run completes: every command
      succeeds, the cleanup has no tip to drop, and the trace ends with the
      completion pause. */
  lemma RunForCompletes(cols: nat, n: nat, rxn: seq<RxnWell>, sub: seq<RxnWell>, delays: seq<nat>)
    requires ScriptFor(cols, n, rxn, sub, delays).Ok?
    ensures RunProtocol(AssayRig, ScriptFor(cols, n, rxn, sub, delays))
            == Ok(Outcome(ScriptFor(cols, n, rxn, sub, delays).value + [Pause(Complete)], Idle))
  {
    var lysate := LysatePhase(rxn).value;
    var trace := ScriptFor(cols, n, rxn, sub, delays).value;
    assert Execute(AssayRig, Idle, trace) == Ok(Idle) by {
      QuenchFillRuns(Idle, cols);
      LysatePhaseRuns(Idle, rxn);
      AssayRuns(QuenchFill(cols), lysate, ColumnNamedOne, CheckReady, sub[0].well, rxn[0].well, delays, n);
    }
    CleanRunCompletes(AssayRig, trace);
  }

  /** With that layout the script is the pre-fill, the lysate phase, and
      the column-wide steps on columns 1 and 2. */
  lemma LaidScript(cols: nat, n: nat, rxn: seq<RxnWell>, sub: seq<RxnWell>, delays: seq<nat>)
    requires Laid(rxn, sub) && n <= |delays|
    ensures ScriptFor(cols, n, rxn, sub, delays)
            == Ok(AssayTrace(QuenchFill(cols), LysatePhase(rxn).value, ColumnNamedOne, CheckReady, Well(ReactionPlate, 1, 0),
                             Well(ReactionPlate, 0, 0), Loop(0, n, Sample(delays, Well(ReactionPlate, 0, 0)))))
  {
  }

  /** The lysate phase puts 30 µL into each well of the rows' column. */
  lemma LysateIntoColumnWell(rxn: seq<RxnWell>, c: nat, w: Loc)
    requires InColumn(rxn, c)
    requires w.Well? && w.lw == ReactionPlate && w.col == c && w.row < PlateRows
    ensures Deliveries(AssayRig, LysatePhase(rxn).value, w) == [30]
  {
    LysateDeliveries(rxn, w);
    ColumnFills(rxn, c, w);
  }

  /** The lysate phase draws only from tubes. */
  lemma LysateDrawsNoWell(rxn: seq<RxnWell>, w: Loc)
    requires PlateRows <= |rxn| && w.Well?
    ensures Withdrawals(AssayRig, LysatePhase(rxn).value, w) == []
  {
    LysateWithdrawals(rxn, w);
    forall r | 0 <= r < PlateRows
      ensures !DrawsFrom(rxn, w)(r)
    {
      assert Source(rxn[r].desc).Tube?;
    }
    CountWhereRange(DrawsFrom(rxn, w), 0, PlateRows, 0, 0);
  }

  /** Only the lysate tube and the lysis buffer serve rows. */
  lemma OtherTubesServeNoRow(rxn: seq<RxnWell>, t: Loc)
    requires t != LysateTube && t != LysisBuffer
    ensures CountWhere(DrawsFrom(rxn, t), 0, PlateRows) == 0
  {
    CountWhereRange(DrawsFrom(rxn, t), 0, PlateRows, 0, 0);
  }

  /** Each well of reaction-plate column 1 receives 30 µL of lysate or
      lysis buffer, then 240 µL of reaction buffer, then 30 µL of
      substrate. */
  lemma ReactionWellDeliveries(cols: nat, n: nat, rxn: seq<RxnWell>, sub: seq<RxnWell>, delays: seq<nat>, w: Loc)
    requires Laid(rxn, sub) && n <= |delays|
    requires w.Well? && w.lw == ReactionPlate && w.col == 0 && w.row < PlateRows
    ensures Deliveries(AssayRig, ScriptFor(cols, n, rxn, sub, delays).value, w) == [30, 240, 30]
  {
    assert [30] + [240] + [30] == [30, 240, 30];
    var lysate := LysatePhase(rxn).value;
    LaidScript(cols, n, rxn, sub, delays);
    LysateIntoColumnWell(rxn, 0, w);
    QuenchFillSkipsReactionPlate(cols, w);
    AssayDeliveriesAtReactionWell(QuenchFill(cols), lysate, ColumnNamedOne, CheckReady, 1, 0, delays, n, w);
  }

  /** Each well of reaction-plate column 1 gives one 25 µL sample per
      timepoint and nothing else. */
  lemma ReactionWellWithdrawals(cols: nat, n: nat, rxn: seq<RxnWell>, sub: seq<RxnWell>, delays: seq<nat>, w: Loc)
    requires Laid(rxn, sub) && n <= |delays|
    requires w.Well? && w.lw == ReactionPlate && w.col == 0 && w.row < PlateRows
    ensures Withdrawals(AssayRig, ScriptFor(cols, n, rxn, sub, delays).value, w) == Repeat(25, n)
  {
    LaidScript(cols, n, rxn, sub, delays);
    LysateDrawsNoWell(rxn, w);
    QuenchFillSkipsReactionPlate(cols, w);
    AssayWithdrawalsAtReactionWell(QuenchFill(cols), LysatePhase(rxn).value, ColumnNamedOne, CheckReady, 1, 0, delays, n, w);
  }

  /** A tube gives 210 µL per pre-filled column if it is the quench
      buffer, 30 µL per row it serves in the lysate phase, and 240 µL for
      each of the eight buffered wells if it is the reaction buffer. */
  lemma TubeWithdrawals(cols: nat, n: nat, rxn: seq<RxnWell>, sub: seq<RxnWell>, delays: seq<nat>, t: Loc)
    requires Laid(rxn, sub) && n <= |delays| && t.Tube?
    ensures Withdrawals(AssayRig, ScriptFor(cols, n, rxn, sub, delays).value, t)
            == (if t == QuenchBuffer then Repeat(210, cols) else []) + Repeat(30, CountWhere(DrawsFrom(rxn, t), 0, PlateRows))
               + (if t == ReactionBuffer then Repeat(240, PlateRows) else [])
  {
    var fill := QuenchFill(cols);
    var lysate := LysatePhase(rxn).value;
    var subWell := Well(ReactionPlate, 1, 0);
    var rxnWell := Well(ReactionPlate, 0, 0);
    var samples := Loop(0, n, Sample(delays, rxnWell));
    assert ScriptFor(cols, n, rxn, sub, delays).value
           == AssayTrace(fill, lysate, ColumnNamedOne, CheckReady, subWell, rxnWell, samples);
    AssayWithdrawalsSplit(fill, lysate, ColumnNamedOne, CheckReady, subWell, rxnWell, samples, t);
    QuenchFillWithdrawals(cols, t);
    LysateWithdrawals(rxn, t);
    BufferAddFlows(ColumnNamedOne, t);
    SubstrateAddFlows(1, 0, t);
    TimepointWithdrawals(delays, n, rxnWell, t);
    DropEmpty(Withdrawals(AssayRig, fill, t), Withdrawals(AssayRig, lysate, t), Withdrawals(AssayRig, BufferAdd(ColumnNamedOne), t), [], []);
  }

  /** With the classes split at `k`, what each tube gives the lysate
      phase. */
  lemma SplitServes(rxn: seq<RxnWell>, k: nat, t: Loc)
    requires ClassesSplitAt(rxn, k) && k <= PlateRows
    ensures Repeat(30, CountWhere(DrawsFrom(rxn, t), 0, PlateRows))
            == if t == LysateTube then Repeat(30, k) else if t == LysisBuffer then Repeat(30, PlateRows - k) else []
  {
    SplitDraws(rxn, k);
    if t != LysateTube && t != LysisBuffer {
      OtherTubesServeNoRow(rxn, t);
    }
  }

  /** With the classes split at `k`, the lysate tube gives 30 µL to each
      of the first `k` reactions and the lysis buffer 30 µL to each of the
      others. */
  lemma SplitTubeWithdrawals(cols: nat, n: nat, rxn: seq<RxnWell>, sub: seq<RxnWell>, delays: seq<nat>, k: nat, t: Loc)
    requires Laid(rxn, sub) && n <= |delays| && ClassesSplitAt(rxn, k) && k <= PlateRows && t.Tube?
    ensures Withdrawals(AssayRig, ScriptFor(cols, n, rxn, sub, delays).value, t)
            == (if t == QuenchBuffer then Repeat(210, cols) else [])
               + (if t == LysateTube then Repeat(30, k) else if t == LysisBuffer then Repeat(30, PlateRows - k) else [])
               + (if t == ReactionBuffer then Repeat(240, PlateRows) else [])
  {
    SplitServes(rxn, k, t);
    TubeWithdrawals(cols, n, rxn, sub, delays, t);
  }

  /** A quench-plate well receives 25 µL of quench buffer if its column is
      pre-filled and one 25 µL sample if its column is a timepoint's. */
  lemma QuenchWellDeliveries(cols: nat, n: nat, rxn: seq<RxnWell>, sub: seq<RxnWell>, delays: seq<nat>, w: Loc)
    requires Laid(rxn, sub) && n <= |delays|
    requires w.Well? && w.lw == QuenchPlate && w.row < PlateRows
    ensures Deliveries(AssayRig, ScriptFor(cols, n, rxn, sub, delays).value, w)
            == (if w.col < cols then [25] else []) + (if w.col < n then [25] else [])
  {
    var fill := QuenchFill(cols);
    var lysate := LysatePhase(rxn).value;
    var subWell := Well(ReactionPlate, 1, 0);
    var rxnWell := Well(ReactionPlate, 0, 0);
    var samples := Loop(0, n, Sample(delays, rxnWell));
    assert ScriptFor(cols, n, rxn, sub, delays).value
           == AssayTrace(fill, lysate, ColumnNamedOne, CheckReady, subWell, rxnWell, samples);
    AssayDeliveriesSplit(fill, lysate, ColumnNamedOne, CheckReady, subWell, rxnWell, samples, w);
    QuenchFillDeliveries(cols, w);
    assert Deliveries(AssayRig, lysate, w) == [] by {
      LysateDeliveries(rxn, w);
      ColumnFills(rxn, 0, w);
    }
    BufferAddFlows(ColumnNamedOne, w);
    SubstrateAddFlows(1, 0, w);
    TimepointDeliveries(delays, n, rxnWell, w);
    DropEmpty(Deliveries(AssayRig, fill, w), [], [], [], Deliveries(AssayRig, samples, w));
  }

  /** The lysate phase picks up one tip, plus one per change of enzyme
      class, and drops each of them. */
  lemma LysateTips(rxn: seq<RxnWell>)
    requires PlateRows <= |rxn|
    ensures multiset(LysatePhase(rxn).value)[PickUp(Single)] == 1 + CountWhere(SwapRows(rxn), 0, PlateRows)
    ensures multiset(LysatePhase(rxn).value)[Drop(Single)] == 1 + CountWhere(SwapRows(rxn), 0, PlateRows)
  {
    var rows := Loop(0, PlateRows, RowBlock(rxn));
    LysateRowsAsLoop(rxn, 0, "0");
    TipSwaps(rxn, 0, PlateRows);
    WithTipTips(Single, rows);
  }

  // ---------------------------------------------------------------------
  // The script as configured

  /** The script: ten pre-filled quench columns, the eight configured
      reactions, and ten timepoints. */
  function Script(): Result<seq<Cmd>, Failure>
  {
    ScriptFor(FilledColumns, TimepointCount, RxnWells, SubstrateWells, DelayTimes)
  }

  /** The script run on the rig, followed by the cleanup. */
  function Run(): Result<Outcome, Failure>
  {
    RunProtocol(AssayRig, Script())
  }

  /** The configured lists meet every assumption of the lemmas above. */
  lemma Configured()
    ensures Laid(RxnWells, SubstrateWells) && TimepointCount <= |DelayTimes|
    ensures ClassesSplitAt(RxnWells, 5)
  {
    RxnClasses();
    RxnColumn();
    SubstrateAndDelays();
  }

  /** The script builds and runs to the completion pause with both
      pipettes bare. */
  lemma RunCompletes()
    ensures Run() == Ok(Outcome(Script().value + [Pause(Complete)], Idle))
  {
    Configured();
    RunForCompletes(FilledColumns, TimepointCount, RxnWells, SubstrateWells, DelayTimes);
  }

  /** Every reaction ends with 300 µL put in, in the order lysate or
      lysis buffer, reaction buffer, substrate, and gives ten 25 µL
      samples. */
  lemma ReactionVolumes(w: Loc)
    requires w.Well? && w.lw == ReactionPlate && w.col == 0 && w.row < PlateRows
    ensures Deliveries(AssayRig, Script().value, w) == [30, 240, 30]
    ensures Withdrawals(AssayRig, Script().value, w) == Repeat(25, TimepointCount)
  {
    Configured();
    ReactionWellDeliveries(FilledColumns, TimepointCount, RxnWells, SubstrateWells, DelayTimes, w);
    ReactionWellWithdrawals(FilledColumns, TimepointCount, RxnWells, SubstrateWells, DelayTimes, w);
  }

  /** The quench buffer gives 210 µL per pre-filled column, the lysate
      tube 30 µL to each of the five enzyme-present reactions, the lysis
      buffer 30 µL to each of the three others, and the reaction buffer
      240 µL to each of the eight reactions; no other tube is drawn from. */
  lemma TubeVolumes(t: Loc)
    requires t.Tube?
    ensures Withdrawals(AssayRig, Script().value, t)
            == (if t == QuenchBuffer then Repeat(210, FilledColumns) else [])
               + (if t == LysateTube then Repeat(30, 5) else if t == LysisBuffer then Repeat(30, 3) else [])
               + (if t == ReactionBuffer then Repeat(240, PlateRows) else [])
  {
    Configured();
    SplitTubeWithdrawals(FilledColumns, TimepointCount, RxnWells, SubstrateWells, DelayTimes, 5, t);
  }

  /** Every well of quench-plate columns 1-10 holds its 25 µL of quench
      buffer before its 25 µL sample arrives. */
  lemma QuenchVolumes(w: Loc)
    requires w.Well? && w.lw == QuenchPlate && w.col < FilledColumns && w.row < PlateRows
    ensures Deliveries(AssayRig, Script().value, w) == [25, 25]
  {
    assert (if w.col < FilledColumns then [25] else []) + (if w.col < TimepointCount then [25] else []) == [25, 25];
    Configured();
    QuenchWellDeliveries(FilledColumns, TimepointCount, RxnWells, SubstrateWells, DelayTimes, w);
  }

  lemma ReactionTotals(ins: seq<nat>, outs: seq<nat>)
    requires ins == [30, 240, 30] && outs == Repeat(25, TimepointCount)
    ensures Sum(outs) + 50 == Sum(ins)
  {
    SumRepeat(25, TimepointCount);
    assert Sum([30, 240, 30]) == 300;
  }

  /** Every reaction receives 50 µL more than its ten samples take. */
  lemma ReactionBudget(w: Loc)
    requires w.Well? && w.lw == ReactionPlate && w.col == 0 && w.row < PlateRows
    ensures Sum(Withdrawals(AssayRig, Script().value, w)) + 50 == Sum(Deliveries(AssayRig, Script().value, w))
  {
    ReactionVolumes(w);
    ReactionTotals(Deliveries(AssayRig, Script().value, w), Withdrawals(AssayRig, Script().value, w));
  }

  /** The buffer column is the reaction column: every reaction well is
      one of the wells the reaction buffer is sent to. */
  lemma BufferReachesReactions()
    ensures forall r :: 0 <= r < |RxnWells| ==> Covers(AssayRig.On(Single), Column(ReactionPlate, ColumnNamedOne), RxnWells[r].well)
  {
    RxnColumn();
  }

  /** The timepoint loop runs once per entry of `delayTimes` and waits
      each listed time in order. */
  lemma SampleTimes()
    ensures |DelayTimes| == TimepointCount
    ensures Timepoints(TimepointCount, DelayTimes, RxnWells[0].well).Ok?
    ensures Waits(Timepoints(TimepointCount, DelayTimes, RxnWells[0].well).value) == DelayTimes
  {
    TimepointSchedule(TimepointCount, DelayTimes, RxnWells[0].well);
  }

  /** Timepoint k waits `delayTimes[k]` and then samples the reaction
      column into quench-plate column k: the ten delays and the ten quench
      columns pair one to one. */
  lemma SamplePairing()
    ensures Timepoints(TimepointCount, DelayTimes, RxnWells[0].well).Ok?
    ensures var tps := Timepoints(TimepointCount, DelayTimes, RxnWells[0].well).value;
            forall k :: 0 <= k < TimepointCount ==>
              tps[2 * k] == Delay(DelayTimes[k])
              && tps[2 * k + 1] == Transfer(Multi, 25, RxnWells[0].well, Well(QuenchPlate, k, 0), Once)
  {
    TimepointPairs(TimepointCount, DelayTimes, RxnWells[0].well);
  }

  /** The lysate phase uses two tips: one for rows A-E, one for F-H. */
  lemma LysateUsesTwoTips()
    ensures multiset(LysatePhase(RxnWells).value)[PickUp(Single)] == 2
    ensures multiset(LysatePhase(RxnWells).value)[Drop(Single)] == 2
  {
    Configured();
    SplitSwapsOnce(RxnWells, 5);
    LysateTips(RxnWells);
  }
}

=== FILE: quench_long.dfy ===
/** 10TP-QuenchLong-C3993.py: eight reactions in column 3 of the deep-well
    plate, whose lysate is added by hand during the pause, sampled ten times
    over thirty minutes into the pre-filled quench plate. The script sends
    the reaction buffer to column "1", which holds none of the reactions;
    the model keeps that script as written and runs the corrected one. */
module QuenchLong {
  import opened Wrappers
  import opened Pipetting
  import opened Assay

  /** An entry of `rxnWells`: row `row` of reaction-plate column 3. */
  function Rxn(row: nat, desc: string): RxnWell
  {
    RxnWell(ReactionPlate, Well(ReactionPlate, 2, row), desc)
  }

  const RxnWells: seq<RxnWell> :=
    [ Rxn(0, "A3 E+ S+ BugB1"), Rxn(1, "B3 E+ S+ BugB2"), Rxn(2, "C3 E+ S+ OS1"), Rxn(3, "D3 E+ S+ OS2"),
      Rxn(4, "E3 E+ S+ Purified1"), Rxn(5, "F3 E+ S+ Purified2"), Rxn(6, "G3 E- S+ Ct1"), Rxn(7, "H3 E- S- Ct2") ]

  /** An entry of `substrateWells`: row `row` of reaction-plate column 4. */
  function Sub(row: nat, desc: string): RxnWell
  {
    RxnWell(ReactionPlate, Well(ReactionPlate, 3, row), desc)
  }

  const SubstrateWells: seq<RxnWell> :=
    [ Sub(0, "A4 100uM Sub"), Sub(1, "B4 100uM Sub"), Sub(2, "C4 100uM Sub"), Sub(3, "D4 100uM Sub"),
      Sub(4, "E4 100uM Sub"), Sub(5, "F4 100uM Sub"), Sub(6, "G4 100uM Sub"), Sub(7, "H4 10% DMSO") ]

  /** `delayTimes` in centiseconds, for samples at about 1, 2, 3, 4, 5, 7,
      10, 15, 20 and 30 minutes. */
  const DelayTimes: seq<nat> := [1685, 3530, 3530, 3530, 3530, 15530, 21530, 33530, 33530, 63530]

  /** `for tp in range(10)`. */
  const TimepointCount := 10

  const CheckReady := "Check if mixture and plate are ready, add lysate manually. Resuming will start pipetting substrate."

  /** Column "3" of the reaction plate, where `rxnWells` lie. */
  const ReactionColumn := 2

  // ---------------------------------------------------------------------
  // The script, with the reaction-buffer column as a parameter

  /** The script with the reaction buffer sent to column `bufferCol`: the
      pre-fill of `cols` quench columns, no lysate phase, the buffer, the
      substrate from `sub[0]` into `rxn[0]`, and `n` timepoints timed by
      `delays`. An index past the end of a list stops the script with an
      IndexError. */
  function ScriptWith(bufferCol: nat, cols: nat, n: nat, rxn: seq<RxnWell>, sub: seq<RxnWell>, delays: seq<nat>)
    : (r: Result<seq<Cmd>, Failure>)
    ensures r.Ok? <==> 0 < |rxn| && 0 < |sub| && n <= |delays|
    ensures |rxn| == 0 ==> r == Err(IndexError(0))
    ensures 0 < |rxn| && |sub| == 0 ==> r == Err(IndexError(0))
    ensures 0 < |rxn| && 0 < |sub| && |delays| < n ==> r == Err(IndexError(|delays|))
  {
    if |rxn| == 0 || |sub| == 0 then Err(IndexError(0))
    else
      var samples :- Timepoints(n, delays, rxn[0].well);
      Ok(AssayTrace(QuenchFill(cols), [], bufferCol, CheckReady, sub[0].well, rxn[0].well, samples))
  }

  /** Whenever the script builds, the run completes with both pipettes
      bare and the completion pause last, whichever column the buffer goes
      to. */
  lemma RunWithCompletes(bufferCol: nat, cols: nat, n: nat, rxn: seq<RxnWell>, sub: seq<RxnWell>, delays: seq<nat>)
    requires ScriptWith(bufferCol, cols, n, rxn, sub, delays).Ok?
    ensures RunProtocol(AssayRig, ScriptWith(bufferCol, cols, n, rxn, sub, delays))
            == Ok(Outcome(ScriptWith(bufferCol, cols, n, rxn, sub, delays).value + [Pause(Complete)], Idle))
  {
    var trace := ScriptWith(bufferCol, cols, n, rxn, sub, delays).value;
    assert Execute(AssayRig, Idle, trace) == Ok(Idle) by {
      QuenchFillRuns(Idle, cols);
      assert Execute(AssayRig, Idle, []) == Ok(Idle);
      AssayRuns(QuenchFill(cols), [], bufferCol, CheckReady, sub[0].well, rxn[0].well, delays, n);
    }
    CleanRunCompletes(AssayRig, trace);
  }

  /** The reactions sit in reaction-plate column `rxnCol`, starting at row
      A, and the substrate in another column `subCol`. */
  predicate Placed(rxn: seq<RxnWell>, sub: seq<RxnWell>, rxnCol: nat, subCol: nat)
  {
    && 0 < |rxn| && rxn[0].well == Well(ReactionPlate, rxnCol, 0)
    && 0 < |sub| && sub[0].well == Well(ReactionPlate, subCol, 0)
    && rxnCol != subCol
  }

  /** A well of the reaction column receives the reaction buffer only when
      the buffer is sent to that column, then 30 µL of substrate. */
  lemma ReactionWellDeliveriesWith(bufferCol: nat, cols: nat, n: nat, rxn: seq<RxnWell>, sub: seq<RxnWell>, delays: seq<nat>,
                                   rxnCol: nat, subCol: nat, w: Loc)
    requires Placed(rxn, sub, rxnCol, subCol) && n <= |delays|
    requires w.Well? && w.lw == ReactionPlate && w.col == rxnCol && w.row < PlateRows
    ensures Deliveries(AssayRig, ScriptWith(bufferCol, cols, n, rxn, sub, delays).value, w)
            == (if bufferCol == rxnCol then [240] else []) + [30]
    ensures Deliveries(AssayRig, ScriptWith(bufferCol, cols, n, rxn, sub, delays).value, w)
            == if bufferCol == rxnCol then [240, 30] else [30]
  {
    QuenchFillSkipsReactionPlate(cols, w);
    assert Deliveries(AssayRig, [], w) == [] && Withdrawals(AssayRig, [], w) == [];
    AssayDeliveriesAtReactionWell(QuenchFill(cols), [], bufferCol, CheckReady, subCol, rxnCol, delays, n, w);
    assert [] + (if w.col == bufferCol then [240] else []) + [30] == (if w.col == bufferCol then [240] else []) + [30];
    assert (if w.col == bufferCol then [240] else []) + [30] == if w.col == bufferCol then [240, 30] else [30];
  }

  /** A well of the reaction column gives one 25 µL sample per timepoint. */
  lemma ReactionWellWithdrawalsWith(bufferCol: nat, cols: nat, n: nat, rxn: seq<RxnWell>, sub: seq<RxnWell>, delays: seq<nat>,
                                    rxnCol: nat, subCol: nat, w: Loc)
    requires Placed(rxn, sub, rxnCol, subCol) && n <= |delays|
    requires w.Well? && w.lw == ReactionPlate && w.col == rxnCol && w.row < PlateRows
    ensures Withdrawals(AssayRig, ScriptWith(bufferCol, cols, n, rxn, sub, delays).value, w) == Repeat(25, n)
  {
    QuenchFillSkipsReactionPlate(cols, w);
    assert Deliveries(AssayRig, [], w) == [] && Withdrawals(AssayRig, [], w) == [];
    AssayWithdrawalsAtReactionWell(QuenchFill(cols), [], bufferCol, CheckReady, subCol, rxnCol, delays, n, w);
  }

  /** A quench-plate well receives 25 µL of quench buffer if its column is
      pre-filled and one 25 µL sample if its column is a timepoint's,
      whichever column the buffer goes to. */
  lemma QuenchWellDeliveriesWith(bufferCol: nat, cols: nat, n: nat, rxn: seq<RxnWell>, sub: seq<RxnWell>, delays: seq<nat>,
                                 rxnCol: nat, subCol: nat, w: Loc)
    requires Placed(rxn, sub, rxnCol, subCol) && n <= |delays|
    requires w.Well? && w.lw == QuenchPlate && w.row < PlateRows
    ensures Deliveries(AssayRig, ScriptWith(bufferCol, cols, n, rxn, sub, delays).value, w)
            == (if w.col < cols then [25] else []) + (if w.col < n then [25] else [])
  {
    var fill := QuenchFill(cols);
    var subWell := Well(ReactionPlate, subCol, 0);
    var rxnWell := Well(ReactionPlate, rxnCol, 0);
    var samples := Loop(0, n, Sample(delays, rxnWell));
    assert ScriptWith(bufferCol, cols, n, rxn, sub, delays).value
           == AssayTrace(fill, [], bufferCol, CheckReady, subWell, rxnWell, samples);
    AssayDeliveriesSplit(fill, [], bufferCol, CheckReady, subWell, rxnWell, samples, w);
    QuenchFillDeliveries(cols, w);
    assert Deliveries(AssayRig, [], w) == [] && Withdrawals(AssayRig, [], w) == [];
    BufferAddFlows(bufferCol, w);
    SubstrateAddFlows(subCol, rxnCol, w);
    TimepointDeliveries(delays, n, rxnWell, w);
    DropEmpty(Deliveries(AssayRig, fill, w), [], [], [], Deliveries(AssayRig, samples, w));
  }

  // ---------------------------------------------------------------------
  // The script as written and as corrected

  /** The configured lists: reactions in column 3, substrate in column 4,
      one delay per timepoint, all rows in column 3. */
  lemma Configured()
    ensures Placed(RxnWells, SubstrateWells, ReactionColumn, 3)
    ensures TimepointCount == |DelayTimes|
    ensures forall r :: 0 <= r < |RxnWells| ==> RxnWells[r].well == Well(ReactionPlate, ReactionColumn, r)
  {
  }

  /** The script as written: the buffer goes to column "1". */
  function ScriptAsWritten(): Result<seq<Cmd>, Failure>
  {
    ScriptWith(ColumnNamedOne, FilledColumns, TimepointCount, RxnWells, SubstrateWells, DelayTimes)
  }

  /** The script as evidently intended: the buffer goes to the reaction
      column, as it does in the sibling assay. */
  function Script(): Result<seq<Cmd>, Failure>
  {
    ScriptWith(ReactionColumn, FilledColumns, TimepointCount, RxnWells, SubstrateWells, DelayTimes)
  }

  /** The corrected script run on the rig, followed by the cleanup. */
  function Run(): Result<Outcome, Failure>
  {
    RunProtocol(AssayRig, Script())
  }

  /** As written, the column the buffer fills holds none of the
      reactions. */
  lemma AsWrittenBufferMissesReactions()
    ensures forall r :: 0 <= r < |RxnWells| ==> !Covers(AssayRig.On(Single), Column(ReactionPlate, ColumnNamedOne), RxnWells[r].well)
  {
    Configured();
  }

  /** As written, each reaction well receives only its 30 µL of
      substrate, and still gives ten 25 µL samples. */
  lemma AsWrittenReactionVolumes(w: Loc)
    requires w.Well? && w.lw == ReactionPlate && w.col == ReactionColumn && w.row < PlateRows
    ensures Deliveries(AssayRig, ScriptAsWritten().value, w) == [30]
    ensures Withdrawals(AssayRig, ScriptAsWritten().value, w) == Repeat(25, TimepointCount)
  {
    Configured();
    ReactionWellDeliveriesWith(ColumnNamedOne, FilledColumns, TimepointCount, RxnWells, SubstrateWells, DelayTimes, ReactionColumn, 3, w);
    ReactionWellWithdrawalsWith(ColumnNamedOne, FilledColumns, TimepointCount, RxnWells, SubstrateWells, DelayTimes, ReactionColumn, 3, w);
  }

  /** As written, the samples take 220 µL more from each reaction well
      than the script ever puts into it, short of whatever lysate was
      added by hand. */
  lemma AsWrittenShortfall(w: Loc)
    requires w.Well? && w.lw == ReactionPlate && w.col == ReactionColumn && w.row < PlateRows
    ensures Sum(Withdrawals(AssayRig, ScriptAsWritten().value, w)) == Sum(Deliveries(AssayRig, ScriptAsWritten().value, w)) + 220
  {
    AsWrittenReactionVolumes(w);
    Totals(Deliveries(AssayRig, ScriptAsWritten().value, w), Withdrawals(AssayRig, ScriptAsWritten().value, w));
  }

  /** The totals of the two delivery patterns and of ten samples. */
  lemma Totals(ins: seq<nat>, outs: seq<nat>)
    requires ins == [30] || ins == [240, 30]
    requires outs == Repeat(25, TimepointCount)
    ensures ins == [30] ==> Sum(outs) == Sum(ins) + 220
    ensures ins == [240, 30] ==> Sum(outs) + 20 == Sum(ins)
  {
    SumRepeat(25, TimepointCount);
    assert Sum([30]) == 30;
    assert Sum([240, 30]) == 270;
  }

  /** Corrected, the buffer column is the reaction column. */
  lemma BufferReachesReactions()
    ensures forall r :: 0 <= r < |RxnWells| ==> Covers(AssayRig.On(Single), Column(ReactionPlate, ReactionColumn), RxnWells[r].well)
  {
    Configured();
  }

  /** The corrected script builds and runs to the completion pause with
      both pipettes bare. */
  lemma RunCompletes()
    ensures Run() == Ok(Outcome(Script().value + [Pause(Complete)], Idle))
  {
    Configured();
    RunWithCompletes(ReactionColumn, FilledColumns, TimepointCount, RxnWells, SubstrateWells, DelayTimes);
  }

  /** Corrected, each reaction well receives 240 µL of reaction buffer and
      30 µL of substrate, 270 µL in all, and gives ten 25 µL samples,
      250 µL in all. */
  lemma ReactionVolumes(w: Loc)
    requires w.Well? && w.lw == ReactionPlate && w.col == ReactionColumn && w.row < PlateRows
    ensures Deliveries(AssayRig, Script().value, w) == [240, 30]
    ensures Withdrawals(AssayRig, Script().value, w) == Repeat(25, TimepointCount)
  {
    Configured();
    ReactionWellDeliveriesWith(ReactionColumn, FilledColumns, TimepointCount, RxnWells, SubstrateWells, DelayTimes, ReactionColumn, 3, w);
    ReactionWellWithdrawalsWith(ReactionColumn, FilledColumns, TimepointCount, RxnWells, SubstrateWells, DelayTimes, ReactionColumn, 3, w);
  }

  /** Corrected, every reaction well receives more than the samples
      take. */
  lemma ReactionBudget(w: Loc)
    requires w.Well? && w.lw == ReactionPlate && w.col == ReactionColumn && w.row < PlateRows
    ensures Sum(Withdrawals(AssayRig, Script().value, w)) + 20 == Sum(Deliveries(AssayRig, Script().value, w))
  {
    ReactionVolumes(w);
    Totals(Deliveries(AssayRig, Script().value, w), Withdrawals(AssayRig, Script().value, w));
  }

  /** Every well of quench-plate columns 1-10 holds its 25 µL of quench
      buffer before its 25 µL sample arrives; the quench plate's columns
      11 and 12 receive nothing. */
  lemma QuenchVolumes(w: Loc)
    requires w.Well? && w.lw == QuenchPlate && w.row < PlateRows
    ensures Deliveries(AssayRig, Script().value, w) == if w.col < FilledColumns then [25, 25] else []
  {
    assert (if w.col < FilledColumns then [25] else []) + (if w.col < TimepointCount then [25] else [])
           == if w.col < FilledColumns then [25, 25] else [];
    Configured();
    QuenchWellDeliveriesWith(ReactionColumn, FilledColumns, TimepointCount, RxnWells, SubstrateWells, DelayTimes, ReactionColumn, 3, w);
  }

  /** `delayTimes` has exactly ten entries, so every `delayTimes[tp]` of
      the loop is in range and the loop builds; it samples from A3, the
      top well of the reactions' column, and waits each listed time in
      order. */
  lemma SampleTimes()
    ensures |DelayTimes| == TimepointCount
    ensures RxnWells[0].well == Well(ReactionPlate, ReactionColumn, 0)
    ensures Timepoints(TimepointCount, DelayTimes, RxnWells[0].well).Ok?
    ensures Waits(Timepoints(TimepointCount, DelayTimes, RxnWells[0].well).value) == DelayTimes
  {
    TimepointSchedule(TimepointCount, DelayTimes, RxnWells[0].well);
  }

  /** Timepoint k waits `delayTimes[k]` and then samples the reaction
      column into quench-plate column k: the ten delays and the ten quench
      columns pair one to one. */
  lemma SamplePairing()
    ensures Timepoints(TimepointCount, DelayTimes, RxnWells[0].well).Ok?
    ensures var tps := Timepoints(TimepointCount, DelayTimes, RxnWells[0].well).value;
            forall k :: 0 <= k < TimepointCount ==>
              tps[2 * k] == Delay(DelayTimes[k])
              && tps[2 * k + 1] == Transfer(Multi, 25, RxnWells[0].well, Well(QuenchPlate, k, 0), Once)
  {
    TimepointPairs(TimepointCount, DelayTimes, RxnWells[0].well);
  }
}

=== FILE: tip_disposal.dfy ===
/** The tip-disposal helpers `defaultTipDisc` and `tipDisc`, identical in
    Quenching10TP-C3694.py and template.py: a destination tag and the
    protocol's configured default choose between returning the tip to a
    rack position and dropping it in the trash. Invalid values never fail;
    they log a warning and fall back. */
module TipDisposal {
  import opened Wrappers
  import opened Pipetting

  const ToTrash := "trash"
  const ToRack := "rack"
  const ToDefault := "default"

  /** The one vendor call a disposal makes; `R` is the rack position type. */
  datatype Action<R> = ReturnTo(rack: R) | DropToTrash

  /** The console warnings, as log entries. */
  datatype Warning = InvalidDefault(value: string) | InvalidDest(value: string)

  datatype Disposal<R> = Disposal(action: Action<R>, warnings: seq<Warning>)

  /** `defaultTipDisc`: only the default 'rack' returns the tip; 'trash'
      drops it, and anything else warns and drops it. */
  function DefaultTipDisc<R>(defaultDest: string, destRack: R): (d: Disposal<R>)
    ensures d.action.ReturnTo? <==> defaultDest == ToRack
    ensures d.action.ReturnTo? ==> d.action.rack == destRack
    ensures d.warnings == [] <==> defaultDest == ToRack || defaultDest == ToTrash
    ensures d.warnings != [] ==> d.warnings == [InvalidDefault(defaultDest)] && d.action == DropToTrash
  {
    if defaultDest == ToRack then Disposal(ReturnTo(destRack), [])
    else if defaultDest == ToTrash then Disposal(DropToTrash, [])
    else Disposal(DropToTrash, [InvalidDefault(defaultDest)])
  }

  /** `tipDisc`: explicit 'rack' and 'trash' ignore the default; 'default'
      delegates; any other tag warns and then behaves like 'default'. */
  function TipDisc<R>(dest: string, defaultDest: string, destRack: R): (d: Disposal<R>)
    ensures d.action.ReturnTo? <==> dest == ToRack || (dest != ToTrash && defaultDest == ToRack)
    ensures d.action.ReturnTo? ==> d.action.rack == destRack
    ensures |d.warnings| <= 2
    ensures d.warnings == [] <==>
              dest == ToRack || dest == ToTrash
              || (dest == ToDefault && (defaultDest == ToRack || defaultDest == ToTrash))
    ensures dest != ToRack && dest != ToTrash && dest != ToDefault ==> d.warnings[0] == InvalidDest(dest)
    ensures dest != ToRack && dest != ToTrash ==>
              d.warnings == (if dest == ToDefault then [] else [InvalidDest(dest)])
                            + (if defaultDest == ToRack || defaultDest == ToTrash then [] else [InvalidDefault(defaultDest)])
  {
    if dest == ToRack then Disposal(ReturnTo(destRack), [])
    else if dest == ToTrash then Disposal(DropToTrash, [])
    else if dest == ToDefault then DefaultTipDisc(defaultDest, destRack)
    else
      var fallback := DefaultTipDisc(defaultDest, destRack);
      Disposal(fallback.action, [InvalidDest(dest)] + fallback.warnings)
  }

  /** An unrecognised tag disposes of the tip exactly as an explicit
      'default' would, with one extra warning in front. */
  lemma UnknownTagFallsBack<R>(dest: string, defaultDest: string, destRack: R)
    requires dest != ToRack && dest != ToTrash && dest != ToDefault
    ensures TipDisc(dest, defaultDest, destRack).action == TipDisc(ToDefault, defaultDest, destRack).action
    ensures TipDisc(dest, defaultDest, destRack).warnings
            == [InvalidDest(dest)] + TipDisc(ToDefault, defaultDest, destRack).warnings
  {
  }

  /** The explicit tags do not consult the configured default. */
  lemma ExplicitTagIgnoresDefault<R>(dest: string, d1: string, d2: string, destRack: R)
    requires dest == ToRack || dest == ToTrash
    ensures TipDisc(dest, d1, destRack) == TipDisc(dest, d2, destRack)
  {
  }

  /** The pipette command a disposal action issues. */
  function DisposalCmd<R>(m: Mount, a: Action<R>): Cmd
  {
    match a
    case ReturnTo(_) => ReturnTip(m)
    case DropToTrash => Drop(m)
  }

  /** Whatever the tags, the disposal performs one release: from a pipette
      holding a tip it leaves that pipette bare and the other untouched,
      and on a bare pipette the vendor refuses it. */
  lemma DisposalReleasesTip<R>(rig: Rig, s: State, m: Mount, dest: string, defaultDest: string, destRack: R)
    ensures Execute(rig, s, [DisposalCmd(m, TipDisc(dest, defaultDest, destRack).action)])
            == if s.Get(m).hasTip then Ok(s.Set(m, Bare))
               else Err(Fault(DisposalCmd(m, TipDisc(dest, defaultDest, destRack).action), NoTip))
  {
    var c := DisposalCmd(m, TipDisc(dest, defaultDest, destRack).action);
    assert [c][1..] == [];
  }
}

=== FILE: wrappers.dfy ===
/** Failure-compatible result type shared by the protocol models. */
module Wrappers {

  /** Either a value or the error that stopped the computation. */
  datatype Result<+T, +E> = Ok(value: T) | Err(error: E) {

    predicate IsFailure() {
      Err?
    }

    function PropagateFailure<U>(): Result<U, E>
      requires Err?
    {
      Err(error)
    }

    function Extract(): T
      requires Ok?
    {
      value
    }
  }
}
